=== FILE: README.md ===
# doodlemorph in Dafny

A model of the decision-making core of doodlemorph, a drawing canvas whose toolbar turns sketches into styled images, images into variants, and images into short animations by way of hosted generative models. The model covers:

- the classifier that picks a toolbar for the current selection;
- the variant list and the mode buttons of the image panels;
- the placement geometry: aspect-ratio fit, combined selection bounds, "beside" and "below" offsets, the variant column, the placeholder's interior layout and the export scale;
- the placeholder registry: creation, idempotent deletion, and replacement by the result;
- the classification of image sources and the extraction of base64 payloads from data URLs;
- the three generation routes: validation order, request shaping, replies;
- the client flows of the doodle, variants and animation panels, up to the toast they end with.

The canvas is a map from shape id to shape record, with a map of assets beside it. The placeholder registries are two maps from a box id to its child ids. Every browser or network effect is a function parameter (an oracle):

- fetching and decoding media;
- `editor.toImage` and reading a blob as a data URL;
- the fal.ai calls;
- `fetch` of a route followed by `response.json()`;
- `Math.random`;
- `createShapeId`, `AssetRecordType.createId` and `Date.now()`.

A thrown error is a `Failure` carrying its message. An asynchronous helper returns the canvas it leaves behind together with its result, so an error thrown after a change keeps the change, as in the source. Geometry is over `real`. JSON values are a datatype with JavaScript truthiness, property access that throws on `null`/`undefined`, and optional chaining.

Modules follow the source files:

- `Selection`: `detectSelectionType`.
- `Capture`: `captureShapesAsImage`.
- `Placeholder`: `createPlaceholderShape` and `deletePlaceholderShape`.
- `PlaceImage`, `PlaceVariants`, `PlaceVideo`: the three placement helpers.
- `ExtractImage`: `extractImageFromShape`.
- `ImageRoute`, `VariantsRoute`, `AnimationRoute`: the three routes.
- `VariantList`: the variant list shared by the two image panels.
- `DoodleTool`, `VariantsTool`, `SingleImageTool`: the panels.
- `ClientFlow`: the reply checks and toasts the panels share.
- `Findings`: the two client/route mismatches below.
- `Wrappers`, `JsStrings`, `JsValues`, `Geometry`, `Canvas`, `Http`, `Sequences`: supporting modules.

## Model

| member | source | states |
|---|---|---|
| Selection.DrawingShapes | app/lib/detectSelectionType.ts:22 | The drawing shapes (draw, geo, arrow) of the selection, all of them and only them, in selection order. |
| Selection.ImageShapes | app/lib/detectSelectionType.ts:23 | The image shapes of the selection, all of them and only them, in selection order. |
| Selection.DetectSelectionType | app/lib/detectSelectionType.ts:9-39 | The empty selection gives none/0/[]. 'drawings' holds iff some drawing shape and no image is selected, and it then keeps exactly the drawing shapes. 'image' holds iff exactly one image and no drawing shape is selected, with count 1. Every other selection gives none. Count always equals the number of shapes, none holds exactly when no shape is kept, and the shapes are a subsequence of the selection. |
| Capture.ExportScale | app/lib/captureShapesAsImage.ts:6-13 | The scale is in (0, 1]. It brings both sides within 1000. A selection within 1000 by 1000 is exported at scale 1. The scale is the largest such: it is 1, or one side lands exactly on 1000. |
| Capture.CaptureShapesAsImage | app/lib/captureShapesAsImage.ts:7-28 | Missing bounds fail with the bounds message before any export. A missing blob fails with the capture message. Otherwise the result is the export at the clamped scale. |
| Geometry.AspectRatioFit | app/lib/placeImageOnCanvas.ts:7-18 | For a positive source size the fit lies within the box, keeps the source's aspect ratio, and meets at least one side of the box. |
| Geometry.FitIsLargest | app/lib/placeImageOnCanvas.ts:13-17 | No scaling of the source that fits the box is larger than the fit. |
| Placeholder.InteriorLayout | app/lib/createPlaceholderShape.ts:127-190 | The video is a square of half the box's shorter side, inside the box horizontally. It is centred horizontally and 35 above the box's centre. The text sits 15 below the video at 0.8 of its measured size, centred horizontally. |
| Placeholder.CreatePlaceholderShape | app/lib/createPlaceholderShape.ts:43-216 | The box id is always returned and the grey box is always created. A video entry is registered iff the loading video was fetched and decoded. A text entry is registered iff, in addition, `createTextImage` produced the "Morphing..." image. Each entry points at its own child. The new shapes are exactly the box and its registered children. Nothing else on the canvas or in the registries changes. The text-implies-video invariant and well-formedness are kept. |
| Placeholder.DeletePlaceholderShape | app/lib/createPlaceholderShape.ts:221-270 | The box leaves both registries while other entries stay. The shapes removed are exactly the box and its registered children that exist, and the remaining shapes and the assets are untouched. Deletion never fails. The invariants are kept. |
| Placeholder.DeleteIdempotent | app/lib/createPlaceholderShape.ts:226-264 | Deleting the same placeholder twice is the same as deleting it once. |
| Placeholder.DeleteMissingIsNoOp | app/lib/createPlaceholderShape.ts:221-270 | A box that is neither registered nor on the canvas is tolerated and changes nothing. |
| Placeholder.CreateThenDeleteRestores | app/lib/createPlaceholderShape.ts:43-270 | Creating a placeholder with fresh ids and deleting it again restores the shapes and the registries, whatever the loads did. |
| Placeholder.DeleteUndoesShapeGrowth | app/lib/createPlaceholderShape.ts:226-264 | Deleting a box removes exactly the shapes its creation added. |
| Placeholder.DeleteUndoesRegistryGrowth | app/lib/createPlaceholderShape.ts:224-255 | Deleting a box removes exactly the registry entries its creation added. |
| Placeholder.DeleteShrinksRegistry | app/lib/createPlaceholderShape.ts:224-255 | Deletion never adds a registry entry, so an unused id stays unused. |
| Placeholder.CreateKeepsOthersUnused | app/lib/createPlaceholderShape.ts:50-54 | Creation uses only its own three ids: any other unused id stays unused. |
| PlaceImage.ResolveBounds | app/lib/placeImageOnCanvas.ts:40-43 | Override bounds take precedence. Without them the bounds exist iff the reference shape is on the canvas. |
| PlaceImage.FittedSize | app/lib/placeImageOnCanvas.ts:89-90 | The fitted size lies within the bounds, keeps the image's aspect ratio, and meets one side. |
| PlaceImage.PlaceImageOnCanvas | app/lib/placeImageOnCanvas.ts:20-160 | Missing bounds and a failed load fail with their messages and no change. Success holds iff the bounds resolve, the image loads, and any given placeholder exists. A missing placeholder fails after the asset is stored, with shapes and registries untouched. On success the fresh id is returned and names an image shape with the fitted size and the prompt (or ''). Without a placeholder the image is added; with one, the placeholder family is swapped for the image at the placeholder's page position. Other shapes are untouched and the invariants are kept. |
| PlaceImage.BesideReferenceWithinItsHeight | app/lib/placeImageOnCanvas.ts:142-156 | Without a placeholder the image sits 60 to the right of the bounds, is centred on their middle, and stays within their vertical extent. |
| PlaceVariants.PromptAt | app/lib/placeVariantsOnCanvas.ts:143-161 | The recorded prompt is '' or one of the list's prompts: the one at the variant's index when the list reaches it, and a non-empty prompt only then. |
| PlaceVariants.LoadedIds | app/lib/placeVariantsOnCanvas.ts:61-91 | The pushed ids are those of the URLs that loaded, and no more ids than URLs. |
| PlaceVariants.ColumnDoesNotOverlap | app/lib/placeVariantsOnCanvas.ts:43-165 | Column entries start at least 40 below the original. Each later entry starts at least 40 below the bottom of every earlier one. |
| PlaceVariants.StackAboveOriginal | app/lib/placeVariantsOnCanvas.ts:149-165 | The column's next slot is never above 40 below the original. |
| PlaceVariants.PlaceOne | app/lib/placeVariantsOnCanvas.ts:49-169 | A failed load changes nothing and keeps the column where it is. Otherwise the asset is stored, and either the column advances by the fitted height plus 40, or the placeholder is replaced at its position, or, when the placeholder has vanished, no shape is made. |
| PlaceVariants.PlaceVariantsOnCanvas | app/lib/placeVariantsOnCanvas.ts:23-172 | An empty list returns [] at once. Missing original bounds fail with no change. Otherwise the result is the ids of the loaded variants in URL order. Each loaded variant's asset is stored. Each column variant sits at the original's left edge at its stacked height with the fitted size and its prompt. Replaced placeholders are gone and failed loads leave no shape. Other shapes are untouched and the invariants are kept. |
| PlaceVideo.PlaceVideoOnCanvas | app/lib/placeVideoOnCanvas.ts:23-158 | Missing bounds and a failed load fail with no change. Success holds iff the original exists, the video loads, and any given placeholder exists. The asset is an animated video asset. On success there is a video shape with the fitted size and the prompt (or ''), either added or swapped for the placeholder family at its position. A missing placeholder fails after the asset is stored. |
| PlaceVideo.BelowOriginalWithinItsWidth | app/lib/placeVideoOnCanvas.ts:136-154 | Without a placeholder the video is aligned with the original's left edge 40 below it, within its width. |
| ExtractImage.MatchDataImageUrl | app/lib/extractImageFromShape.ts:31-34 | A match yields a payload of a string of the form `data:image/<subtype>;base64,<payload>`. |
| ExtractImage.MatchDataImageUrlComplete | app/lib/extractImageFromShape.ts:31-34 | Every string of that form matches, with exactly its payload. |
| ExtractImage.StripDataImagePrefix | app/lib/extractImageFromShape.ts:44-51 | The payload when the data-URL pattern matches, the whole string otherwise. |
| ExtractImage.CheckAsset | app/lib/extractImageFromShape.ts:9-26 | Success holds iff there is an asset id, it names an image asset, and its source is not empty; the source is then returned. Each failure carries its message. |
| ExtractImage.ExtractImageFromShape | app/lib/extractImageFromShape.ts:7-97 | The checks come first. Then dispatch on the scheme: a matching data URL gives its payload and any other data URL itself; an asset URL gives the stripped export; a blob or http(s) URL gives the stripped body of an OK fetch. Anything else is unsupported, and each failure quotes the source after its own prefix. |
| ExtractImage.NoIOBeforeChecks | app/lib/extractImageFromShape.ts:9-37 | A failed check, or a data URL, gives the same result whatever the export and fetch would do. |
| ExtractImage.ErrorsQuoteAtMostFifty | app/lib/extractImageFromShape.ts:75-96 | Every error is a fixed message, or a fixed prefix followed by at most the first 50 characters of the source. |
| JsStrings.TrimEmptyIffAllWhitespace | app/components/tools/ImageVariantsTool.tsx:71 | A string trims to nothing exactly when it consists of whitespace. |
| JsStrings.Take | app/components/tools/DoodleToImageTool.tsx:137 | At most the first n characters, a prefix of the string, all of it when it is short. |
| JsStrings.NatToStringRoundTrip | app/api/generate-variants/route.ts:86 | The decimal rendering of a variant's number denotes that number. |
| JsValues.Property | app/api/generate-image/route.ts:6 | Reading a property throws exactly on null or undefined. A defined result is the object's own field. |
| JsValues.OptionalAgreesWithStrict | app/api/generate-variants/route.ts:83 | An optional chain gives the plain chain's value where the plain chain succeeds, and undefined where it would throw. |
| JsValues.OrElse | app/api/generate-image/route.ts:57 | The result is one of the two strings, and the value whenever it is non-empty. It is empty only when both are. |
| JsValues.TruthyOr | app/components/tools/DoodleToImageTool.tsx:92 | The result is the value's string form or the fallback: the string form when the value is truthy, the fallback for undefined, null, false and 0. On a string it agrees with `JsValues.OrElse`. |
| ImageRoute.HandlePost | app/api/generate-image/route.ts:4-62 | An unparsable body gives 500. A falsy image or prompt gives 400 'Missing imageBase64 or prompt', and only after those pass does a falsy key give 400 'API key is required'. 200 holds iff all three are truthy and the model's result has a readable `data.images[0]`; the reply carries its `url`, which may be undefined. The model receives the prefixed prompt, the image and the key. Thrown errors give 500 with their message or the default. |
| ImageRoute.RejectedBeforeModel | app/api/generate-image/route.ts:9-18 | A body the checks reject gets 400 whatever the model would answer. |
| AnimationRoute.HandlePost | app/api/generate-animation/route.ts:4-60 | Fewer than two URLs (or none, or a non-array) give 400 'Need at least 2 image URLs', and only after that does a falsy key give 400. 200 holds iff both pass and the model's result has a readable `data.video`; the reply carries its `url`, which may be undefined. The model receives only the first URL, with the fixed motion prompt. Thrown errors give 500. |
| AnimationRoute.OnlyFirstUrlForwarded | app/api/generate-animation/route.ts:24-31 | Requests that differ only in the URLs after the first get the same reply. |
| VariantsRoute.Validate | app/api/generate-variants/route.ts:9-16 | A body is accepted iff it has a non-empty string image and 1 to 6 variants whose prompts are strings of 1 to 500 characters. The data are then that image and those prompts in order. |
| VariantsRoute.ToDataUri | app/api/generate-variants/route.ts:50-52 | The result always starts with 'data:'. A data URI is unchanged, and anything else gets the PNG base64 prefix. |
| VariantsRoute.ToDataUriIdempotent | app/api/generate-variants/route.ts:50-52 | Prefixing twice is prefixing once. |
| VariantsRoute.VariantPrompt | app/api/generate-variants/route.ts:62 | The sent prompt is the template head, then the user's prompt, then the template tail. |
| VariantsRoute.VariantPromptInjective | app/api/generate-variants/route.ts:62 | The user's prompt can be read back from the sent prompt. |
| VariantsRoute.Attempt | app/api/generate-variants/route.ts:65-92 | A successful call yields a truthy URL with the variant's own prompt. A thrown call is passed on. |
| VariantsRoute.GenerateAll | app/api/generate-variants/route.ts:55-93 | Success holds iff every call succeeds, and then there is one entry per variant, in order, each carrying its prompt. Otherwise the error is the first failing call's. |
| VariantsRoute.HandlePost | app/api/generate-variants/route.ts:18-120 | An unparsable body gives 500. An invalid body gives 400 'Invalid input' before the server key is looked at. A missing server key gives 500. 200 holds iff every variant's call yields a URL, and the reply then lists all of them in order. A non-200 reply carries no variant list. |
| VariantList.AddVariant | app/components/tools/ImageVariantsTool.tsx:25-36 | The 'Maximum variants reached' warning ('You can generate up to 6 variants at once') is shown exactly at six rows or more, and the list is then unchanged. Otherwise nothing is shown and one empty row with the new id is appended after the unchanged rows. The same handler serves app/components/tools/SingleImageTool.tsx lines 32-43. |
| VariantList.WithoutId | app/components/tools/ImageVariantsTool.tsx:44 | The rows with another id, in order. An absent id leaves the list unchanged. |
| VariantList.RemoveVariant | app/components/tools/ImageVariantsTool.tsx:38-47 | A one-row list is unchanged. Otherwise the rows with that id are removed and the rest keep their order. An absent id changes nothing. |
| VariantList.UpdateVariantPrompt | app/components/tools/ImageVariantsTool.tsx:49-54 | Length, ids and every other row are unchanged. The rows with that id get the new prompt. |
| VariantList.InitialWithinLimits | app/components/tools/ImageVariantsTool.tsx:21 | The initial list is one row with id '1' and an empty prompt, within the limits. |
| VariantList.AddKeepsLimits | app/components/tools/ImageVariantsTool.tsx:25-36 | Adding a fresh row keeps the list within 1..6 rows with distinct ids. |
| VariantList.WithoutIdDropsAtMostOne | app/components/tools/ImageVariantsTool.tsx:44 | With distinct ids, removal by id drops exactly one row when the id is present and none otherwise. |
| VariantList.RemoveKeepsLimits | app/components/tools/ImageVariantsTool.tsx:38-47 | Removal keeps the list within 1..6 rows with distinct ids. |
| VariantList.UpdateKeepsLimits | app/components/tools/ImageVariantsTool.tsx:49-54 | Editing keeps the limits, and a prompt the input accepts keeps every prompt within the input's length. |
| VariantList.UpdateLastWins | app/components/tools/ImageVariantsTool.tsx:49-54 | Of two edits of the same row, the second wins. |
| VariantList.Prompts | app/components/tools/ImageVariantsTool.tsx:98 | The rows' prompts, in order. |
| VariantList.ValidPrompts | app/components/tools/ImageVariantsTool.tsx:71-79 | Exactly the prompts that are not blank after trimming, in list order. Each such prompt occurs as often as in the list, so two rows with the same prompt send it twice. |
| Sequences.FilterCounts | app/components/tools/ImageVariantsTool.tsx:70 | `filter` keeps duplicates: an accepted value occurs in the result exactly as often as in the input, a rejected value not at all. |
| VariantList.ValidPromptsFitInput | app/components/tools/ImageVariantsTool.tsx:71-79 | Kept prompts fit the input's length. |
| VariantList.CheckVariantsRequest | app/components/tools/ImageVariantsTool.tsx:59-79 | A missing or empty key stops first. Then a list with no non-blank prompt stops. Otherwise the request goes ahead with exactly the non-blank prompts in order. |
| ClientFlow.ErrorToast | app/components/tools/ImageVariantsTool.tsx:128-137 | The 'Something went wrong' toast carries at most the first 100 characters of the message. |
| ClientFlow.FailureDescription | app/components/tools/ImageVariantsTool.tsx:109 | A non-empty string `error` is shown as it is. A missing or falsy `error` shows 'Unknown error'. |
| ClientFlow.ResponseFailed | app/components/tools/ImageVariantsTool.tsx:105 | Reading a null reply throws. A reply counts as not failed only when it is an object with a truthy success. |
| ClientFlow.ClientReadsReplies | app/components/tools/ImageVariantsTool.tsx:105-110 | An error reply reads as failed with its message as the description. A success reply reads as not failed and carries its value. |
| VariantsTool.VariantsRequestBody | app/components/tools/ImageVariantsTool.tsx:96-100 | The body carries the image, one `{prompt}` entry per prompt in order, and the key. |
| VariantsTool.VariantUrls | app/components/tools/ImageVariantsTool.tsx:118 | Mapping over `variants` succeeds iff it is an array of readable entries, and then gives their imageUrls in order. |
| VariantsTool.ReplyStage | app/components/tools/ImageVariantsTool.tsx:103-118 | A thrown request stops with the error toast. A failed reply stops with 'Generation failed' and its error. Placement goes ahead iff the reply succeeded and its variants can be mapped. |
| VariantsTool.RequestStage | app/components/tools/ImageVariantsTool.tsx:56-118 | The key check, then the prompt check, then extraction, then the request with exactly the non-blank prompts. Any placement follows a present key and one or more prompts, and no stop is a success. |
| VariantsTool.HandleGenerate | app/components/tools/ImageVariantsTool.tsx:56-138 | A stop leaves the canvas unchanged with its toast. 'Variants generated!' holds iff placement went ahead and did not fail, and it counts the prompts sent. The placed variants form the column below the image. Existing shapes are unmodified and the invariants are kept. The same handler serves app/components/tools/SingleImageTool.tsx lines 62-139. |
| VariantsTool.RequestPassesSchema | app/api/generate-variants/route.ts:9-16 | A body built from a reachable list passes the route's schema iff some prompt is non-blank, and the route then reads back the same image and prompts. |
| DoodleTool.CombinedExtent | app/components/tools/DoodleToImageTool.tsx:37-54 | There is no extent iff no selected shape has bounds. Otherwise the extent covers every bounded selected shape and each edge is attained by one of them. |
| DoodleTool.CombinedBounds | app/components/tools/DoodleToImageTool.tsx:106-115 | Width and height are the spans, and the mid-points are the centres. |
| DoodleTool.PlaceholderOrigin | app/components/tools/DoodleToImageTool.tsx:56-67 | The placeholder goes 60 right of the selection, and its top is the selection's top. |
| DoodleTool.SelectionBounds | app/components/tools/DoodleToImageTool.tsx:37-58 | Present iff some selected shape has bounds, and then the combined bounds. |
| DoodleTool.ImageRequestBody | app/components/tools/DoodleToImageTool.tsx:80-83 | The body carries the captured image and the style prompt or its default, which is never empty. A key field is present only when one is given. |
| DoodleTool.PlaceholderReady | app/components/tools/DoodleToImageTool.tsx:56-67 | The created box sits beside the selection with its size, existing shapes stay, and the result's id stays unused. |
| DoodleTool.GenerateIntoPlaceholder | app/components/tools/DoodleToImageTool.tsx:69-145 | Whatever happens, the placeholder leaves the canvas and both registries. The capture is scaled by the editor's whole-selection bounds. On success the image sits where the placeholder was, within the selection's size, with the style prompt or its default. A failed reply ends with 'Generation failed' and its error. 'Image generated!' is shown exactly when the capture yields an image, the request returns a reply that does not report failure, and the image at its `imageUrl` loads. |
| DoodleTool.HandleGenerate | app/components/tools/DoodleToImageTool.tsx:27-146 | No bounds ends with the error toast and no change. Otherwise the placeholder is created and, whatever happens, removed again. 'Image generated!' implies an export at the scale of the editor's whole-selection bounds, a successful reply and an image 60 right of the drawing shapes' bounds at their top, within its size, carrying the prompt or its default. A failed reply ends with 'Generation failed' and its error. With bounds, 'Image generated!' is shown exactly when the capture, the request and the image load all succeed and the reply does not report failure. Existing shapes and the invariants are kept. |
| DoodleTool.EnhancePrompt | app/components/tools/DoodleToImageTool.tsx:148-196 | A blank prompt stops with a toast. A thrown request gives the fixed failure toast. The prompt is replaced iff the reply has success and a truthy enhanced prompt, and is otherwise unchanged. |
| DoodleTool.BlankPromptSendsNothing | app/components/tools/DoodleToImageTool.tsx:149-156 | A whitespace-only prompt ends the same way whatever the server would answer. |
| DoodleTool.ApplyPreset | app/components/tools/DoodleToImageTool.tsx:228-231 | A preset click replaces whatever was typed with the preset's text, which fits the input's 200 characters. |
| DoodleTool.PresetSentVerbatim | app/components/tools/DoodleToImageTool.tsx:228-231 | After a preset click the request carries exactly the preset's text, and it fits the input's 200 characters. |
| SingleImageTool.ShowVideoResult | app/components/tools/SingleImageTool.tsx:358 | The video shows only in animation mode while nothing is generating and the URL is set. A non-empty URL string in that state is always shown. |
| SingleImageTool.VariantsClick | app/components/tools/SingleImageTool.tsx:246-253 | The variants section toggles: it opens exactly when it was closed, and closing leads to no section. Opening forgets the video, and closing keeps it. The list, the prompt and the running flag are untouched. |
| SingleImageTool.AnimationClick | app/components/tools/SingleImageTool.tsx:255-261 | The animation section toggles: it opens exactly when it was closed, and closing leads to no section. The video, the list, the prompt and the running flag are untouched. |
| SingleImageTool.InitialPanelState | app/components/tools/SingleImageTool.tsx:23-30 | The panel starts with no section open, one empty variant, nothing running and no video shown. |
| SingleImageTool.VariantsClickHidesVideo | app/components/tools/SingleImageTool.tsx:246-253 | The variants button never shows the video and clears it when it opens the section. Only the mode and the video change. |
| SingleImageTool.AnimationClickKeepsVideo | app/components/tools/SingleImageTool.tsx:255-261 | The animation button moves only the mode and keeps the video. |
| SingleImageTool.AnimationClickTwice | app/components/tools/SingleImageTool.tsx:255-261 | Closing and reopening the animation section restores the panel and shows the same video. |
| SingleImageTool.VariantsClickTwice | app/components/tools/SingleImageTool.tsx:246-253 | Closing and reopening the variants section restores the panel except that the video is forgotten. |
| SingleImageTool.VideoLostThroughVariants | app/components/tools/SingleImageTool.tsx:246-261 | Going from animation to variants and back does not bring the video back. |
| SingleImageTool.AnimationRequestBody | app/components/tools/SingleImageTool.tsx:202-210 | The body carries `imageUrl`, `prompt` and `falApiKey`, and has no `imageUrls` or `apiKey`. |
| SingleImageTool.HandleGenerateAnimation | app/components/tools/SingleImageTool.tsx:141-244 | A missing key stops with no change. Every later stop leaves the panel not generating: a missing OpenAI input throws, and a missing asset id, asset or source gives 'No image found' with its description. 'Animation ready!' holds iff the reply succeeded, and the video is then the reply's. The video changes only then, and a failed reply gives 'Animation failed'. Mode, list and prompt never change. |
| SingleImageTool.NoImageDescriptionsDistinct | app/components/tools/SingleImageTool.tsx:163-193 | Each failed asset check has its own description. |
| SingleImageTool.NoRequestBeforeChecks | app/components/tools/SingleImageTool.tsx:143-193 | A missing key or input, or a failed asset check, ends the same way whatever the server would answer, and keeps the video. |
| Findings.DoodleRequestRejected | app/api/generate-image/route.ts:9-18 | The doodle panel's body is always rejected with 400: 'API key is required' when the image is not empty. |
| Findings.DoodleGenerationAlwaysFails | app/components/tools/DoodleToImageTool.tsx:75-100 | With the image route behind it, the doodle panel never reports a generated image. Once the capture succeeds it reports 'Generation failed' with the route's message. |
| Findings.KeyedDoodleReplyReadsSucceeded | app/components/tools/DoodleToImageTool.tsx:86-124 | With the key sent, the image route's reply reads as not failed, with an `imageUrl` that loads, exactly when the model produced an image URL that loads. |
| Findings.KeyedDoodleGenerates | app/components/tools/DoodleToImageTool.tsx:69-131 | End to end with the key sent: once the capture yields a non-empty image, the panel shows 'Image generated!' exactly when the model produced an image URL and the image at that URL loads. |
| Findings.KeyedDoodleRequestReachesModel | app/api/generate-image/route.ts:16-51 | A body that carries the key reaches the model with the prefixed style prompt. 200 holds iff the model call succeeds and the path to its image `url` can be read (the URL may be undefined); the reply then carries that value, and otherwise it is a 500. |
| Findings.AnimationRequestRejected | app/api/generate-animation/route.ts:6-14 | The single-image panel's body is always rejected with 400 'Need at least 2 image URLs'. |
| Findings.AnimationNeverReady | app/components/tools/SingleImageTool.tsx:197-233 | With the animation route behind it, the panel never shows a video. Once its checks pass it reports 'Animation failed' with the route's message. |
| Findings.SingleImageAnimationRoute | app/api/generate-animation/route.ts:4-60 | The corrected route reads `imageUrl` and `falApiKey`, checking them in that order. 200 holds iff both are truthy and the path to the model's video `url` can be read (the URL may be undefined); the reply then carries that value. |
| Findings.PanelBodyReachesModel | app/components/tools/SingleImageTool.tsx:202-210 | Under the corrected route the panel's body reaches the model with its image and key. When the model call succeeds and the path to its video `url` can be read (the URL may be undefined), the reply carries that value; otherwise it reads as failed. |
| Findings.AnimationReadyWithCorrectedRoute | app/components/tools/SingleImageTool.tsx:213-233 | Under the corrected route the panel shows 'Animation ready!' exactly when the model call succeeds and the path to its video `url` can be read, and the panel's video is then that value. |

## Left out

- Browser and network I/O are oracles, not modelled: fetch, FileReader, image and video decoding, `canvas.toDataURL`, the text measurement of `createTextImage`, and `editor.toImage`. A decoder is assumed to report a positive size, because the aspect-ratio fit divides by it.
- The fal.ai, Groq and Google calls are oracles. Only the part of each call that depends on the request is modelled; fixed settings such as `num_images` or `guidance_scale` are not. The enhance-prompt and random-prompt routes are not modelled. The doodle panel's side of prompt enhancement is.
- tldraw internals are not modelled: rendering, undo, and the cascade of deleting a parent's children. `getShapePageBounds` follows one level of parent offset, which covers the placeholder's children.
- The randomness of the loading-video choice and of id generation is not modelled: both are parameters, and ids come with freshness requirements.
- Telemetry (`trackGenerationEvent`, posthog) and logging are not modelled.
- The `isGenerating`, `isEnhancing` and progress strings of the doodle and variants panels are not modelled. Neither are the disabled buttons.
- The presentation-only components, the toolbar container and the unmounted image-to-animation panel are not modelled.
- JSON numbers are integers in the model. No decision in the core depends on fractions in a request body.
- Capture.ExportScale: a zero-width or zero-height selection skips the term that JavaScript computes as `Infinity`, which gives the same minimum.
- DoodleTool.CombinedExtent: the `Infinity` start values are an absent extent. The check after the loop is the absence of any bounded shape.
- VariantsRoute.Validate: lengths count characters, whereas Zod counts UTF-16 code units.
- VariantsRoute.HandlePost: the invalid-input reply's `details` list of Zod issues is omitted.
- VariantsRoute.HandlePost: the client's `apiKey` field is read by nothing, as in the source.
- VariantsTool.HandleGenerate: states that every pre-existing shape still present is unmodified, not that each one is still present. Placement without placeholders removes none, but the contract does not say so.
- DoodleTool.HandleGenerate: models a run in which nobody edits the canvas between its awaits. The placement works on the state the placeholder was created in, so a user deleting the placeholder while the model call runs cannot happen through it. In the source that deletion makes `placeImageOnCanvas` store the asset and then throw 'Placeholder shape not found' (app/lib/placeImageOnCanvas.ts:114-139), ending with 'Something went wrong' after every other step succeeded. The iff between 'Image generated!' and `DoodleTool.GenerationSucceeds` holds only for such undisturbed runs. `PlaceImage.PlaceImageOnCanvas` itself states the vanished-placeholder case.
- VariantsTool.HandleGenerate: models a run in which nobody edits the canvas between its awaits. The placement works on the state from before the request, so an original image deleted while the request runs cannot happen through it; in the source its bounds lookup then throws 'Could not get bounds of original shape.' (app/lib/placeVariantsOnCanvas.ts:38-39). The iff for 'Variants generated!' holds only for such undisturbed runs. `PlaceVariants.PlaceVariantsOnCanvas` itself states the missing-original case.
- DoodleTool.HandleGenerate: the editor's whole-selection bounds, used to scale the capture, are an input independent of the canvas model. The model does not derive them from the selected shapes, because the editor's selection is not part of the toolbar's data.
- Placeholder.CreatePlaceholderShape: a "Morphing..." image that fails to load leaves the promise at app/lib/createPlaceholderShape.ts:158-166 unsettled, because it has no `onerror`. `createPlaceholderShape` then never returns and the doodle panel waits forever. The model has no non-terminating outcome: its `textImage = None` stands only for `createTextImage` throwing.
- JsStrings.Take: counts Unicode scalar values where `slice` and `substring` count UTF-16 code units, so a character outside the Basic Multilingual Plane counts 1 here and 2 in JavaScript. A JavaScript cut can split a surrogate pair, and a Dafny `char` cannot hold the lone half.
- ClientFlow.ErrorToast: keeps up to 100 Unicode scalar values, where `slice(0, 100)` keeps 100 UTF-16 code units (see `JsStrings.Take`).
- ExtractImage.ErrorsQuoteAtMostFifty: quotes up to 50 Unicode scalar values of the source, where `substring(0, 50)` quotes 50 UTF-16 code units (see `JsStrings.Take`).
- JsValues.Property: a read of a property of `null` or `undefined` fails with the fixed message 'Cannot read properties of null or undefined'. The engine's TypeError text names the value and the property, as in "Cannot read properties of null (reading 'value')" or "Cannot destructure property 'imageBase64' of ...". That text reaches the toasts and the 500 replies, so those messages differ from the model's.
- PlaceVariants.PlaceVariantsOnCanvas: does not say which placeholders were still on the canvas when their turn came. Their replacement is stated per step by `PlaceVariants.PlaceOne`.
- SingleImageTool.HandleGenerateAnimation: takes the selected shape's asset id as a parameter. `props.selectedShapes[0]` on an empty selection cannot occur, because the panel is shown only for a single image.
- `deletePlaceholderShape` swallowing errors is not modelled: the model's deletion cannot fail, so there is nothing to swallow.
- `Findings.SingleImageAnimationRoute` answers a missing image with the message 'Need an image URL'. The source has no such message, because this corrected route does not exist in it.

## Findings

| source | as written | input that shows it | evidently intended | confidence | as-written member | corrected member |
|---|---|---|---|---|---|---|
| app/components/tools/DoodleToImageTool.tsx:80-83 | The doodle panel posts `{imageBase64, prompt}` with no `apiKey`. The image route answers 400 'API key is required' to any body without one (app/api/generate-image/route.ts:16-18), so every doodle generation ends with 'Generation failed'. | Any selection with bounds whose capture succeeds, e.g. `imageBase64 = "iVBOR"` with an empty style prompt: the route replies 400 'API key is required'. | Send the fal key from the key input, as both variant panels do (app/components/tools/ImageVariantsTool.tsx:59-60,99). The route then calls the model. | high, not executed | Findings.DoodleGenerationAlwaysFails | Findings.KeyedDoodleGenerates |
| app/components/tools/SingleImageTool.tsx:202-210 | The single-image panel posts `imageUrl` and `falApiKey`. The animation route reads `imageUrls` (an array of two or more) and `apiKey` (app/api/generate-animation/route.ts:6-18), so every request gets 400 'Need at least 2 image URLs' and no video is ever shown. | Any image shape with a source, e.g. `imageUrl = "https://x/a.png"` with `falApiKey = "k"`: the route replies 400 'Need at least 2 image URLs'. | A route that takes the one image the panel sends, under the key name it sends, and forwards it to the image-to-video model. | high, not executed | Findings.AnimationNeverReady | Findings.AnimationReadyWithCorrectedRoute |

=== FILE: animationroute.dfy ===
/** `POST /api/generate-animation`: checks for at least two image URLs and
    a key, then forwards only the first URL to an image-to-video model
    (app/api/generate-animation/route.ts). */
module AnimationRoute {
  import opened Wrappers
  import opened JsValues
  import opened Http

  const NeedUrlsError: string := "Need at least 2 image URLs"
  const MissingKeyError: string := "API key is required"
  const DefaultError: string := "Failed to generate animation"

  /** The fixed motion prompt sent with every request. */
  const MotionPrompt: string := "smooth animation sequence, character movement, consistent style"

  /** The part of the model call that depends on the request. */
  datatype KlingInput = KlingInput(prompt: string, imageUrl: JsValue, credentials: JsValue)

  /** `result.data.video.url`. */
  const VideoUrlPath: seq<PathStep> := [Key("data"), Key("video"), Key("url")]

  /** `!imageUrls || !Array.isArray(imageUrls) || imageUrls.length < 2`
      is false: an array of two or more entries. */
  predicate EnoughUrls(urls: JsValue) {
    urls.Arr? && |urls.items| >= 2
  }

  /** The handler, with `body` and the model call as in the image route.
      The URLs are checked before the key; only the first URL reaches the
      model, with the fixed motion prompt; `fps` is read and never used. */
  function HandlePost(body: Result<JsValue>, kling: KlingInput -> Result<JsValue>): (r: Reply)
    ensures body.Failure? ==> IsError(r, 500, OrElse(body.error, DefaultError))
    ensures body.Success? && (body.value.Null? || body.value.Undefined?) ==>
              IsError(r, 500, NullPropertyError)
    ensures body.Success? && body.value.Obj? ==>
              var b := body.value;
              && (!EnoughUrls(Property(b, "imageUrls").value) <==> IsError(r, 400, NeedUrlsError))
              && (EnoughUrls(Property(b, "imageUrls").value) && !Truthy(Property(b, "apiKey").value)
                  <==> IsError(r, 400, MissingKeyError))
    ensures r.status == 200 <==>
              && body.Success? && !body.value.Null? && !body.value.Undefined?
              && EnoughUrls(Property(body.value, "imageUrls").value)
              && Truthy(Property(body.value, "apiKey").value)
              && var call := kling(KlingInput(MotionPrompt, Property(body.value, "imageUrls").value.items[0],
                                              Property(body.value, "apiKey").value));
                 call.Success? && StrictPath(call.value, VideoUrlPath).Success?
    ensures r.status == 200 ==>
              var call := kling(KlingInput(MotionPrompt, Property(body.value, "imageUrls").value.items[0],
                                           Property(body.value, "apiKey").value));
              r == SuccessReply("videoUrl", StrictPath(call.value, VideoUrlPath).value)
    ensures r.status in {200, 400, 500}
  {
    match body
    case Failure(e) => ErrorReply(500, OrElse(e, DefaultError))
    case Success(b) =>
      if b.Null? || b.Undefined? then ErrorReply(500, OrElse(NullPropertyError, DefaultError))
      else
        var urls := Property(b, "imageUrls").value;
        var key := Property(b, "apiKey").value;
        ErrorReplyDetermines(400, NeedUrlsError, 400, MissingKeyError);
        if !EnoughUrls(urls) then ErrorReply(400, NeedUrlsError)
        else if !Truthy(key) then ErrorReply(400, MissingKeyError)
        else
          match kling(KlingInput(MotionPrompt, urls.items[0], key))
          case Failure(e) => ErrorReply(500, OrElse(e, DefaultError))
          case Success(result) =>
            match StrictPath(result, VideoUrlPath)
            case Failure(e) => ErrorReply(500, OrElse(e, DefaultError))
            case Success(url) => SuccessReply("videoUrl", url)
  }

  /** Only the first URL matters: two requests that differ only in the
      URLs after the first get the same reply. */
  lemma OnlyFirstUrlForwarded(
    fields: map<string, JsValue>, first: JsValue, rest1: seq<JsValue>, rest2: seq<JsValue>,
    kling: KlingInput -> Result<JsValue>)
    requires |rest1| >= 1 && |rest2| >= 1
    ensures HandlePost(Success(Obj(fields["imageUrls" := Arr([first] + rest1)])), kling)
         == HandlePost(Success(Obj(fields["imageUrls" := Arr([first] + rest2)])), kling)
  {
    var b1 := Obj(fields["imageUrls" := Arr([first] + rest1)]);
    var b2 := Obj(fields["imageUrls" := Arr([first] + rest2)]);
    assert Property(b1, "imageUrls").value.items[0] == first;
    assert Property(b2, "imageUrls").value.items[0] == first;
    assert Property(b1, "apiKey") == Property(b2, "apiKey");
  }
}

=== FILE: canvas.dfy ===
/** The drawing canvas as the tools see it: a store of shape records keyed
    by shape id and a store of asset records keyed by asset id. Rendering,
    hit-testing, undo and the cascade deletion of children are not part of
    this model. */
module Canvas {
  import opened Wrappers
  import opened Geometry

  type ShapeId = string
  type AssetId = string

  /** The shape types the tools distinguish; every other type is `Custom`. */
  datatype ShapeKind = Draw | Geo | Arrow | Image | Video | Custom(name: string)

  /** A shape record. `x` and `y` are relative to the parent shape when
      there is one; `generatedPrompt` is the `meta.generatedPrompt` the
      placement helpers record. */
  datatype Shape = Shape(
    id: ShapeId,
    kind: ShapeKind,
    x: real, y: real,
    w: Len, h: Len,
    parent: Option<ShapeId>,
    assetId: Option<AssetId>,
    generatedPrompt: Option<string>)

  datatype AssetKind = ImageAsset | VideoAsset

  /** An asset record: the media behind an image or video shape. */
  datatype Asset = Asset(
    kind: AssetKind,
    name: string,
    src: string,
    w: real, h: real,
    mimeType: string,
    isAnimated: bool)

  /** The editor's document store. */
  datatype Editor = Editor(shapes: map<ShapeId, Shape>, assets: map<AssetId, Asset>)

  /** Every shape is stored under its own id. */
  predicate WellFormed(ed: Editor) {
    forall id :: id in ed.shapes ==> ed.shapes[id].id == id
  }

  /** Page position of a shape: its own position, offset by its parent's
      position when the parent is on the canvas. */
  function PageOrigin(ed: Editor, s: Shape): (real, real) {
    match s.parent
    case Some(p) =>
      if p in ed.shapes then (ed.shapes[p].x + s.x, ed.shapes[p].y + s.y) else (s.x, s.y)
    case None => (s.x, s.y)
  }

  /** `editor.getShapePageBounds(shape)`: present exactly when the shape is
      still on the canvas, and then a consistent record of the shape's
      extent. */
  function GetShapePageBounds(ed: Editor, id: ShapeId): (r: Option<PageBounds>)
    ensures r.Some? <==> id in ed.shapes
    ensures r.Some? ==> Consistent(r.value)
    ensures r.Some? ==> r.value.width == ed.shapes[id].w && r.value.height == ed.shapes[id].h
    ensures r.Some? && ed.shapes[id].parent.None? ==>
              r.value.minX == ed.shapes[id].x && r.value.minY == ed.shapes[id].y
  {
    if id in ed.shapes then
      var s := ed.shapes[id];
      var o := PageOrigin(ed, s);
      Some(RectBounds(o.0, o.1, s.w, s.h))
    else
      None
  }

  /** `editor.createShape`: the record is stored under its id. */
  function CreateShape(ed: Editor, s: Shape): (r: Editor)
    ensures s.id in r.shapes && r.shapes[s.id] == s
    ensures r.shapes.Keys == ed.shapes.Keys + {s.id}
    ensures forall id :: id in ed.shapes && id != s.id ==> r.shapes[id] == ed.shapes[id]
    ensures r.assets == ed.assets
    ensures WellFormed(ed) ==> WellFormed(r)
  {
    ed.(shapes := ed.shapes[s.id := s])
  }

  /** `editor.deleteShape`, for a shape the caller has found on the canvas. */
  function DeleteShape(ed: Editor, id: ShapeId): (r: Editor)
    ensures r.shapes.Keys == ed.shapes.Keys - {id}
    ensures forall k :: k in r.shapes ==> r.shapes[k] == ed.shapes[k]
    ensures r.assets == ed.assets
    ensures WellFormed(ed) ==> WellFormed(r)
  {
    ed.(shapes := ed.shapes - {id})
  }

  /** `editor.createAssets([a])`. */
  function CreateAsset(ed: Editor, id: AssetId, a: Asset): (r: Editor)
    ensures id in r.assets && r.assets[id] == a
    ensures r.shapes == ed.shapes
    ensures forall k :: k in ed.assets && k != id ==> k in r.assets && r.assets[k] == ed.assets[k]
  {
    ed.(assets := ed.assets[id := a])
  }
}

=== FILE: capture.dfy ===
/** `captureShapesAsImage`: rasterising the selected shapes at a scale that
    keeps the export within 1000 by 1000 (app/lib/captureShapesAsImage.ts). */
module Capture {
  import opened Wrappers
  import opened Geometry

  /** `maxSize`: the longest side of an export, in pixels. */
  const MaxSize: real := 1000.0

  const NoBoundsError: string := "Could not get bounds of selection."
  const NoBlobError: string := "Could not capture image from shapes."

  /** `Math.min(1, maxSize / width, maxSize / height)`. A zero side gives
      JavaScript's `Infinity`, which the minimum ignores; the model skips
      that term instead. The scale never enlarges, brings both sides within
      `MaxSize`, and is the largest such scale: it is 1 or one side lands
      exactly on `MaxSize`. */
  function ExportScale(width: Len, height: Len): (s: real)
    ensures 0.0 < s <= 1.0
    ensures s * width <= MaxSize && s * height <= MaxSize
    ensures width <= MaxSize && height <= MaxSize ==> s == 1.0
    ensures s == 1.0 || s * width == MaxSize || s * height == MaxSize
  {
    var byWidth := if width > 0.0 then Min(1.0, MaxSize / width) else 1.0;
    var s := if height > 0.0 then Min(byWidth, MaxSize / height) else byWidth;
    ScaleArithmetic(width, height, byWidth, s);
    s
  }

  /** The arithmetic behind `ExportScale`'s contract. */
  lemma ScaleArithmetic(width: Len, height: Len, byWidth: real, s: real)
    requires byWidth == if width > 0.0 then Min(1.0, MaxSize / width) else 1.0
    requires s == if height > 0.0 then Min(byWidth, MaxSize / height) else byWidth
    ensures 0.0 < s <= 1.0
    ensures s * width <= MaxSize && s * height <= MaxSize
    ensures width <= MaxSize && height <= MaxSize ==> s == 1.0
    ensures s == 1.0 || s * width == MaxSize || s * height == MaxSize
  {
    if width > 0.0 {
      assert (MaxSize / width) * width == MaxSize;
      if width <= MaxSize {
        QuotientAtLeastOne(MaxSize, width);
      }
      assert s <= MaxSize / width;
      assert s * width <= (MaxSize / width) * width;
    }
    if height > 0.0 {
      assert (MaxSize / height) * height == MaxSize;
      if height <= MaxSize {
        QuotientAtLeastOne(MaxSize, height);
      }
      assert s * height <= (MaxSize / height) * height;
    }
  }

  /** `captureShapesAsImage`: with the selection's page bounds (absent when
      nothing can be measured) and the export oracle, which stands for
      `editor.toImage` followed by the blob-to-data-URL conversion and
      yields nothing when no blob is produced. Missing bounds fail before
      any export; a missing blob fails after it; otherwise the export at
      `ExportScale` is the result. */
  function CaptureShapesAsImage(bounds: Option<PageBounds>, toImage: real -> Option<string>): (r: Result<string>)
    requires bounds.Some? ==> Consistent(bounds.value)
    ensures bounds.None? ==> r == Failure(NoBoundsError)
    ensures bounds.Some? && toImage(ExportScale(bounds.value.width, bounds.value.height)).None? ==>
              r == Failure(NoBlobError)
    ensures r.Success? <==> bounds.Some? && toImage(ExportScale(bounds.value.width, bounds.value.height)).Some?
    ensures r.Success? ==> Some(r.value) == toImage(ExportScale(bounds.value.width, bounds.value.height))
  {
    match bounds
    case None => Failure(NoBoundsError)
    case Some(b) =>
      match toImage(ExportScale(b.width, b.height))
      case None => Failure(NoBlobError)
      case Some(dataUrl) => Success(dataUrl)
  }

  /** Dividing by something no larger gives at least one. */
  lemma QuotientAtLeastOne(a: real, b: real)
    requires 0.0 < b <= a
    ensures a / b >= 1.0
  {
    assert (a / b) * b == a;
  }
}

=== FILE: clientflow.dfy ===
/** What the tool panels share when they talk to a route: the toast they
    show, the check `!result.success || result.error` on the parsed reply
    and the error description with its fallback
    (app/components/tools/DoodleToImageTool.tsx,
    app/components/tools/ImageVariantsTool.tsx,
    app/components/tools/SingleImageTool.tsx). */
module ClientFlow {
  import opened Wrappers
  import opened JsStrings
  import opened JsValues
  import opened Http

  /** A toast: a title and an optional description. */
  datatype Toast = Toast(title: string, description: Option<string>)

  const SomethingWrongTitle: string := "Something went wrong"
  const UnknownError: string := "Unknown error"

  /** How much of a caught error's message a toast shows. */
  const ErrorDescriptionLength: nat := 100

  /** The toast of a `catch` block: `error.message.slice(0, 100)`. */
  function ErrorToast(message: string): (t: Toast)
    ensures t.title == SomethingWrongTitle && t.description.Some?
    ensures |t.description.value| <= ErrorDescriptionLength && |t.description.value| <= |message|
    ensures t.description.value == message[..|t.description.value|]
    ensures |message| <= ErrorDescriptionLength ==> t.description == Some(message)
    ensures |message| > ErrorDescriptionLength ==> |t.description.value| == ErrorDescriptionLength
  {
    Toast(SomethingWrongTitle, Some(Take(message, ErrorDescriptionLength)))
  }

  /** `!result.success || result.error` on the parsed reply: reading a
      property of `null` throws; otherwise the reply counts as failed when
      `success` is falsy or `error` is truthy. */
  function ResponseFailed(result: JsValue): (r: Result<bool>)
    ensures r.Failure? <==> result.Null? || result.Undefined?
    ensures r.Failure? ==> r.error == NullPropertyError
    ensures r == Success(false) ==> result.Obj? && "success" in result.fields && Truthy(result.fields["success"])
  {
    match Property(result, "success")
    case Failure(e) => Failure(e)
    case Success(success) =>
      if !Truthy(success) then Success(true)
      else Success(Truthy(Property(result, "error").value))
  }

  /** `result.error || 'Unknown error'`. */
  function FailureDescription(result: JsValue): (r: string)
    requires !result.Null? && !result.Undefined?
    ensures result.Obj? && "error" in result.fields && result.fields["error"].Str? && result.fields["error"].s != "" ==>
              r == result.fields["error"].s
    ensures !result.Obj? || "error" !in result.fields || !Truthy(result.fields["error"]) ==> r == UnknownError
  {
    TruthyOr(Property(result, "error").value, UnknownError)
  }

  /** The routes' replies are read the way they are meant: an error reply
      is a failed reply whose description is its message (or the fallback
      when the message is empty), and a success reply is not failed and
      carries its value under its key. */
  lemma ClientReadsReplies(status: int, message: string, key: string, value: JsValue)
    requires key != "success" && key != "error"
    ensures ResponseFailed(ErrorReply(status, message).body) == Success(true)
    ensures FailureDescription(ErrorReply(status, message).body) == OrElse(message, UnknownError)
    ensures ResponseFailed(SuccessReply(key, value).body) == Success(false)
    ensures Property(SuccessReply(key, value).body, key).value == value
  {
    var e := ErrorReply(status, message).body;
    assert Property(e, "success").value == Bool(false);
    assert Property(e, "error").value == Str(message);
    var s := SuccessReply(key, value).body;
    assert Property(s, "success").value == Bool(true);
    assert Property(s, "error").value == Undefined;
  }
}

=== FILE: doodletool.dfy ===
/** The doodle-to-image panel: the combined bounds of the selection, the
    placeholder beside it, the capture, the request with its default
    prompt, the replacement of the placeholder by the result and the
    cleanup on failure; the prompt enhancer's guard and the style presets
    (app/components/tools/DoodleToImageTool.tsx). */
module DoodleTool {
  import opened Wrappers
  import opened JsStrings
  import opened JsValues
  import opened Geometry
  import opened Canvas
  import opened Placeholder
  import opened PlaceImage
  import opened ClientFlow
  import Capture

  const NoSelectionBoundsError: string := "Could not get bounds of selected shapes"
  const GenerationFailedTitle: string := "Generation failed"
  const ImageGeneratedTitle: string := "Image generated!"

  /** The prompt used when the style prompt is empty. */
  const DefaultStylePrompt: string := "high quality character art"

  /** The style prompt input's `maxLength`. */
  const StylePromptMaxLength: nat := 200

  /** The four edges the bounds loop keeps. */
  datatype Extent = Extent(minX: real, maxX: real, minY: real, maxY: real)

  /** The extent contains the bounds. */
  predicate Covers(e: Extent, b: PageBounds) {
    e.minX <= b.minX && b.maxX <= e.maxX && e.minY <= b.minY && b.maxY <= e.maxY
  }

  /** The loop over the selected shapes: the least `minX`/`minY` and the
      greatest `maxX`/`maxY` over the shapes that have page bounds, shapes
      without bounds being skipped; nothing when no shape has bounds. The
      result covers every bounded shape and each of its edges is an edge of
      one of them. */
  function CombinedExtent(ed: Editor, selection: seq<ShapeId>): (r: Option<Extent>)
    decreases |selection|
    ensures r.None? <==> forall i :: 0 <= i < |selection| ==> selection[i] !in ed.shapes
    ensures r.Some? ==> r.value.minX <= r.value.maxX && r.value.minY <= r.value.maxY
    ensures r.Some? ==> forall i :: 0 <= i < |selection| && selection[i] in ed.shapes ==>
              Covers(r.value, GetShapePageBounds(ed, selection[i]).value)
    ensures r.Some? ==> exists i :: 0 <= i < |selection| && selection[i] in ed.shapes
                          && GetShapePageBounds(ed, selection[i]).value.minX == r.value.minX
    ensures r.Some? ==> exists i :: 0 <= i < |selection| && selection[i] in ed.shapes
                          && GetShapePageBounds(ed, selection[i]).value.maxX == r.value.maxX
    ensures r.Some? ==> exists i :: 0 <= i < |selection| && selection[i] in ed.shapes
                          && GetShapePageBounds(ed, selection[i]).value.minY == r.value.minY
    ensures r.Some? ==> exists i :: 0 <= i < |selection| && selection[i] in ed.shapes
                          && GetShapePageBounds(ed, selection[i]).value.maxY == r.value.maxY
  {
    if selection == [] then None
    else
      var init := selection[..|selection| - 1];
      var last := |selection| - 1;
      assert forall i :: 0 <= i < |init| ==> init[i] == selection[i];
      var rest := CombinedExtent(ed, init);
      match GetShapePageBounds(ed, selection[last])
      case None => rest
      case Some(b) =>
        if rest.None? then Some(Extent(b.minX, b.maxX, b.minY, b.maxY))
        else
          var e := rest.value;
          Some(Extent(Min(e.minX, b.minX), Max(e.maxX, b.maxX), Min(e.minY, b.minY), Max(e.maxY, b.maxY)))
  }

  /** `combinedBounds`: the eight fields of a bounds record built from the
      four edges. */
  function CombinedBounds(e: Extent): (b: PageBounds)
    requires e.minX <= e.maxX && e.minY <= e.maxY
    ensures Consistent(b)
    ensures b.minX == e.minX && b.maxX == e.maxX && b.minY == e.minY && b.maxY == e.maxY
  {
    var width := e.maxX - e.minX;
    var height := e.maxY - e.minY;
    PageBounds(e.minX, e.maxX, e.minY, e.maxY, width, height, e.minX + width / 2.0, e.minY + height / 2.0)
  }

  /** Where the placeholder goes: 60 right of the selection, at
      `midY - height / 2`, which is the selection's top edge. */
  function PlaceholderOrigin(b: PageBounds): (p: (real, real))
    requires Consistent(b)
    ensures p.0 == b.maxX + RightGap
    ensures p.1 == b.minY
  {
    (b.maxX + RightGap, b.midY - b.height / 2.0)
  }

  /** The request body: `{ imageBase64, prompt: stylePrompt || default }`.
      The tool as written sends no key (`apiKey` is `None`); a supplied key
      is sent as `apiKey`. */
  function ImageRequestBody(image: string, stylePrompt: string, apiKey: Option<string>): (r: JsValue)
    ensures r.Obj?
    ensures Property(r, "imageBase64").value == Str(image)
    ensures Property(r, "prompt").value == Str(OrElse(stylePrompt, DefaultStylePrompt))
    ensures Truthy(Property(r, "prompt").value)
    ensures apiKey.None? ==> Property(r, "apiKey").value == Undefined
    ensures apiKey.Some? ==> Property(r, "apiKey").value == Str(apiKey.value)
  {
    var fields := map["imageBase64" := Str(image), "prompt" := Str(OrElse(stylePrompt, DefaultStylePrompt))];
    Obj(if apiKey.Some? then fields["apiKey" := Str(apiKey.value)] else fields)
  }

  /** The canvas after a generation and the toast it ends with. */
  datatype Outcome = Outcome(st: State, toast: Toast)

  /** The I/O one generation goes through. `pick`, `fetchVideo` and
      `textImage` feed the placeholder. `selectionPageBounds` and `toImage`
      feed the capture. `selectionPageBounds` is the editor's own
      `getSelectionPageBounds()`: it covers every selected shape, including
      those the selection classifier dropped, so it can differ from the
      bounds of the drawing shapes the tool works on. `api` stands for
      posting a body to the route and parsing the reply (or the message
      either step threw); `load` for loading the result image. */
  datatype Services = Services(
    pick: nat, fetchVideo: string -> Option<Media>, textImage: Option<LoadedMedia>,
    selectionPageBounds: Option<PageBounds>,
    toImage: real -> Option<string>, api: JsValue -> Result<JsValue>, load: string -> Option<LoadedMedia>)

  /** The editor reports consistent bounds, when it reports any. */
  predicate CaptureBoundsConsistent(io: Services) {
    io.selectionPageBounds.Some? ==> Consistent(io.selectionPageBounds.value)
  }

  /** Every shape of `before` is still on the canvas, unchanged. */
  predicate KeepsShapes(before: State, after: State) {
    forall k :: k in before.ed.shapes ==> k in after.ed.shapes && after.ed.shapes[k] == before.ed.shapes[k]
  }

  /** The cleanup of a failed generation: the placeholder is deleted. */
  function Abandon(s: State, box: ShapeId, t: Toast): Outcome {
    Outcome(DeletePlaceholderShape(s, box), t)
  }

  /** The selection's bounds, when some selected shape has bounds. */
  function SelectionBounds(ed: Editor, selection: seq<ShapeId>): (r: Option<PageBounds>)
    ensures r.Some? <==> CombinedExtent(ed, selection).Some?
    ensures r.Some? ==> Consistent(r.value) && r.value == CombinedBounds(CombinedExtent(ed, selection).value)
  {
    match CombinedExtent(ed, selection)
    case None => None
    case Some(e) => Some(CombinedBounds(e))
  }

  /** The capture of the editor's selection, scaled by the bounds of the
      whole selection, and the request built from it. */
  function Request(stylePrompt: string, apiKey: Option<string>, io: Services): Option<JsValue>
    requires CaptureBoundsConsistent(io)
  {
    match Capture.CaptureShapesAsImage(io.selectionPageBounds, io.toImage)
    case Failure(_) => None
    case Success(image) => Some(ImageRequestBody(image, stylePrompt, apiKey))
  }

  /** Every step after the placeholder goes through: the capture yields an
      image, the request returns a reply that does not report failure, and
      the image at the reply's `imageUrl` loads. */
  predicate GenerationSucceeds(stylePrompt: string, apiKey: Option<string>, io: Services)
    requires CaptureBoundsConsistent(io)
  {
    && Request(stylePrompt, apiKey, io).Some?
    && var call := io.api(Request(stylePrompt, apiKey, io).value);
       && call.Success?
       && ResponseFailed(call.value) == Success(false)
       && io.load(ToJsString(Property(call.value, "imageUrl").value)).Some?
  }

  /** The placeholder of a generation: the grey box beside the selection,
      sized like it. */
  predicate PlaceholderBeside(s: State, box: ShapeId, b: PageBounds)
    requires Consistent(b)
  {
    box in s.ed.shapes && s.ed.shapes[box] == GreyBox(box, b.maxX + RightGap, b.minY, b.width, b.height)
  }

  /** The steps of `handleGenerate` once the placeholder `box` exists:
      capture, request, reply check and placement. Every failure deletes
      the placeholder; success replaces it by the image. Only the
      placeholder's family is removed and only the new image is added. */
  function GenerateIntoPlaceholder(
    s: State, box: ShapeId, b: PageBounds, reference: ShapeId, stylePrompt: string, apiKey: Option<string>,
    placeIds: PlaceIds, io: Services): (r: Outcome)
    requires Consistent(b) && PlaceholderBeside(s, box, b) && box != ""
    requires Unused(s, placeIds.shape) && placeIds.shape != box
    requires CaptureBoundsConsistent(io)
    ensures box !in r.st.ed.shapes && box !in r.st.reg.videoShapeIds && box !in r.st.reg.textImageShapeIds
    ensures forall k :: k in s.ed.shapes && k !in PlaceholderFamily(s.reg, box) ==>
              k in r.st.ed.shapes && r.st.ed.shapes[k] == s.ed.shapes[k]
    ensures r.toast.title == ImageGeneratedTitle ==>
              && Request(stylePrompt, apiKey, io).Some?
              && io.api(Request(stylePrompt, apiKey, io).value).Success?
              && ResponseFailed(io.api(Request(stylePrompt, apiKey, io).value).value) == Success(false)
              && placeIds.shape in r.st.ed.shapes
              && r.st.ed.shapes[placeIds.shape].kind == Image
              && r.st.ed.shapes[placeIds.shape].x == b.maxX + RightGap
              && r.st.ed.shapes[placeIds.shape].y == b.minY
              && r.st.ed.shapes[placeIds.shape].w <= b.width && r.st.ed.shapes[placeIds.shape].h <= b.height
              && r.st.ed.shapes[placeIds.shape].generatedPrompt == Some(OrElse(stylePrompt, DefaultStylePrompt))
    ensures r.toast.title == ImageGeneratedTitle <==> GenerationSucceeds(stylePrompt, apiKey, io)
    ensures Request(stylePrompt, apiKey, io).Some? ==>
              var call := io.api(Request(stylePrompt, apiKey, io).value);
              call.Success? && ResponseFailed(call.value) == Success(true) ==>
                r.toast == Toast(GenerationFailedTitle, Some(FailureDescription(call.value)))
    ensures RegistryInvariant(s.reg) ==> RegistryInvariant(r.st.reg)
    ensures WellFormed(s.ed) ==> WellFormed(r.st.ed)
  {
    match Capture.CaptureShapesAsImage(io.selectionPageBounds, io.toImage)
    case Failure(msg) => Abandon(s, box, ErrorToast(msg))
    case Success(image) =>
      match io.api(ImageRequestBody(image, stylePrompt, apiKey))
      case Failure(msg) => Abandon(s, box, ErrorToast(msg))
      case Success(result) =>
        match ResponseFailed(result)
        case Failure(msg) => Abandon(s, box, ErrorToast(msg))
        case Success(failed) =>
          if failed then Abandon(s, box, Toast(GenerationFailedTitle, Some(FailureDescription(result))))
          else
            var url := ToJsString(Property(result, "imageUrl").value);
            var placed := PlaceImageOnCanvas(s, url, reference, Some(OrElse(stylePrompt, DefaultStylePrompt)),
                                             Some(box), Some(b), placeIds, io.load);
            match placed.result
            case Failure(msg) =>
              assert placed.st == s;
              Abandon(placed.st, box, ErrorToast(msg))
            case Success(_) => Outcome(placed.st, Toast(ImageGeneratedTitle, None))
  }

  /** The placeholder `handleGenerate` creates is the grey box beside the
      selection; the image's id stays unused, and the shapes already on the
      canvas are kept and lie outside the placeholder's family. */
  lemma PlaceholderReady(st: State, b: PageBounds, phIds: FreshIds, placeIds: PlaceIds, io: Services)
    requires Consistent(b)
    requires io.pick < |LoadingVideos|
    requires FreshFor(st, phIds)
    requires Unused(st, placeIds.shape)
    requires placeIds.shape != phIds.box && placeIds.shape != phIds.video && placeIds.shape != phIds.text
    ensures var created := CreatePlaceholderShape(st, PlaceholderOrigin(b).0, PlaceholderOrigin(b).1, b.width, b.height,
                                                  phIds, io.pick, io.fetchVideo, io.textImage);
            && created.1 == phIds.box
            && PlaceholderBeside(created.0, created.1, b)
            && Unused(created.0, placeIds.shape)
            && KeepsShapes(st, created.0)
            && PlaceholderFamily(created.0.reg, phIds.box) !! st.ed.shapes.Keys
  {
    var origin := PlaceholderOrigin(b);
    var created := CreatePlaceholderShape(st, origin.0, origin.1, b.width, b.height,
                                          phIds, io.pick, io.fetchVideo, io.textImage);
    CreateKeepsOthersUnused(st, origin.0, origin.1, b.width, b.height,
                            phIds, io.pick, io.fetchVideo, io.textImage, placeIds.shape);
    var family := PlaceholderFamily(created.0.reg, phIds.box);
    assert family <= {phIds.box, phIds.video, phIds.text};
  }

  /** `handleGenerate`. Without bounds the error is raised before the
      placeholder exists. Otherwise the placeholder is created beside the
      selection, and every later failure (a thrown capture, request or
      placement, or a failed reply) deletes it again; on success the
      generated image has taken the placeholder's place, fitted to the
      selection's bounds and recording the prompt that was sent. Every shape
      on the canvas before stays as it was. `selection` is the selected
      shapes' ids, the first being the reference shape. The run is taken to
      be undisturbed: no other edit reaches the canvas between the awaits,
      so the placeholder is still there when the image is placed. */
  function HandleGenerate(
    st: State, selection: seq<ShapeId>, stylePrompt: string, apiKey: Option<string>,
    phIds: FreshIds, placeIds: PlaceIds, io: Services): (r: Outcome)
    requires io.pick < |LoadingVideos| && CaptureBoundsConsistent(io)
    requires FreshFor(st, phIds) && phIds.box != ""
    requires Unused(st, placeIds.shape)
    requires placeIds.shape != phIds.box && placeIds.shape != phIds.video && placeIds.shape != phIds.text
    ensures SelectionBounds(st.ed, selection).None? ==> r == Outcome(st, ErrorToast(NoSelectionBoundsError))
    ensures SelectionBounds(st.ed, selection).Some? ==>
              phIds.box !in r.st.ed.shapes
              && phIds.box !in r.st.reg.videoShapeIds && phIds.box !in r.st.reg.textImageShapeIds
    ensures r.toast.title == ImageGeneratedTitle ==>
              && SelectionBounds(st.ed, selection).Some?
              && var b := SelectionBounds(st.ed, selection).value;
                 && Request(stylePrompt, apiKey, io).Some?
                 && io.api(Request(stylePrompt, apiKey, io).value).Success?
                 && ResponseFailed(io.api(Request(stylePrompt, apiKey, io).value).value) == Success(false)
                 && placeIds.shape in r.st.ed.shapes
                 && r.st.ed.shapes[placeIds.shape].kind == Image
                 && r.st.ed.shapes[placeIds.shape].x == b.maxX + RightGap
                 && r.st.ed.shapes[placeIds.shape].y == b.minY
                 && r.st.ed.shapes[placeIds.shape].w <= b.width && r.st.ed.shapes[placeIds.shape].h <= b.height
                 && r.st.ed.shapes[placeIds.shape].generatedPrompt == Some(OrElse(stylePrompt, DefaultStylePrompt))
    ensures SelectionBounds(st.ed, selection).Some? ==>
              (r.toast.title == ImageGeneratedTitle <==> GenerationSucceeds(stylePrompt, apiKey, io))
    ensures SelectionBounds(st.ed, selection).Some?
            && Request(stylePrompt, apiKey, io).Some? ==>
              var call := io.api(Request(stylePrompt, apiKey, io).value);
              call.Success? && ResponseFailed(call.value) == Success(true) ==>
                r.toast == Toast(GenerationFailedTitle, Some(FailureDescription(call.value)))
    ensures r.toast.title == ImageGeneratedTitle ==>
              && io.selectionPageBounds.Some?
              && var whole := io.selectionPageBounds.value;
                 io.toImage(Capture.ExportScale(whole.width, whole.height)).Some?
    ensures KeepsShapes(st, r.st)
    ensures RegistryInvariant(st.reg) ==> RegistryInvariant(r.st.reg)
    ensures WellFormed(st.ed) ==> WellFormed(r.st.ed)
  {
    match SelectionBounds(st.ed, selection)
    case None => Outcome(st, ErrorToast(NoSelectionBoundsError))
    case Some(b) =>
      var origin := PlaceholderOrigin(b);
      var created := CreatePlaceholderShape(st, origin.0, origin.1, b.width, b.height,
                                            phIds, io.pick, io.fetchVideo, io.textImage);
      PlaceholderReady(st, b, phIds, placeIds, io);
      assert |selection| > 0;
      GenerateIntoPlaceholder(created.0, created.1, b, selection[0], stylePrompt, apiKey, placeIds, io)
  }

  const NoPromptTitle: string := "No prompt to enhance"
  const NoPromptDescription: string := "Please enter a prompt first"
  const EnhancedTitle: string := "Prompt enhanced!"
  const EnhancedDescription: string := "Your prompt has been improved"
  const EnhanceFailedTitle: string := "Enhancement failed"
  const EnhanceFailedDefault: string := "Could not enhance prompt"
  const EnhanceErrorDescription: string := "Failed to enhance prompt"

  /** The style prompt after an enhancement and the toast shown. */
  datatype Enhanced = Enhanced(prompt: string, toast: Toast)

  /** The body sent to the prompt enhancer. */
  function EnhanceRequestBody(stylePrompt: string): JsValue {
    Obj(map["userPrompt" := Str(stylePrompt)])
  }

  /** The reply carries a new prompt: truthy `success` and `enhancedPrompt`. */
  predicate Enhances(result: JsValue) {
    !result.Null? && !result.Undefined?
    && Truthy(Property(result, "success").value) && Truthy(Property(result, "enhancedPrompt").value)
  }

  /** `enhancePrompt`. A prompt that trims to nothing sends no request and
      stays; otherwise the prompt is replaced exactly when the reply has a
      truthy `success` and a truthy `enhancedPrompt`, and any thrown error
      keeps it. `api` is the request to the enhancer, as in the generator. */
  function EnhancePrompt(stylePrompt: string, api: JsValue -> Result<JsValue>): (r: Enhanced)
    ensures !HasContent(stylePrompt) ==> r == Enhanced(stylePrompt, Toast(NoPromptTitle, Some(NoPromptDescription)))
    ensures HasContent(stylePrompt) && api(EnhanceRequestBody(stylePrompt)).Failure? ==>
              r == Enhanced(stylePrompt, Toast(SomethingWrongTitle, Some(EnhanceErrorDescription)))
    ensures r.toast.title == EnhancedTitle <==>
              HasContent(stylePrompt) && api(EnhanceRequestBody(stylePrompt)).Success?
              && Enhances(api(EnhanceRequestBody(stylePrompt)).value)
    ensures r.toast.title == EnhancedTitle ==>
              r.prompt == ToJsString(Property(api(EnhanceRequestBody(stylePrompt)).value, "enhancedPrompt").value)
    ensures r.toast.title != EnhancedTitle ==> r.prompt == stylePrompt
  {
    if !HasContent(stylePrompt) then Enhanced(stylePrompt, Toast(NoPromptTitle, Some(NoPromptDescription)))
    else
      match api(EnhanceRequestBody(stylePrompt))
      case Failure(_) => Enhanced(stylePrompt, Toast(SomethingWrongTitle, Some(EnhanceErrorDescription)))
      case Success(result) =>
        if result.Null? || result.Undefined? then
          Enhanced(stylePrompt, Toast(SomethingWrongTitle, Some(EnhanceErrorDescription)))
        else if Enhances(result) then
          Enhanced(ToJsString(Property(result, "enhancedPrompt").value), Toast(EnhancedTitle, Some(EnhancedDescription)))
        else
          Enhanced(stylePrompt, Toast(EnhanceFailedTitle, Some(TruthyOr(Property(result, "error").value, EnhanceFailedDefault))))
  }

  /** A blank prompt never reaches the enhancer: the outcome is the same
      whatever the enhancer would have answered. */
  lemma BlankPromptSendsNothing(stylePrompt: string, api1: JsValue -> Result<JsValue>, api2: JsValue -> Result<JsValue>)
    requires AllWhitespace(stylePrompt)
    ensures EnhancePrompt(stylePrompt, api1) == EnhancePrompt(stylePrompt, api2)
    ensures EnhancePrompt(stylePrompt, api1).prompt == stylePrompt
  {
    TrimEmptyIffAllWhitespace(stylePrompt);
  }

  /** `STYLE_PRESETS`' prompts. */
  const StylePresets: seq<string> := [
    "cartoon character, vibrant colors",
    "pixel art sprite, retro game style",
    "3D rendered character, Pixar style",
    "die-cut sticker, white border"
  ]

  /** A preset button's click: the style prompt becomes the preset's text,
      whatever it was. */
  function ApplyPreset(current: string, i: nat): (r: string)
    requires i < |StylePresets|
    ensures r == StylePresets[i]
    ensures |r| <= StylePromptMaxLength
  {
    StylePresets[i]
  }

  /** After a preset click the request carries exactly the preset's text,
      which fits the prompt input. */
  lemma PresetSentVerbatim(current: string, i: nat, image: string, apiKey: Option<string>)
    requires i < |StylePresets|
    ensures Property(ImageRequestBody(image, ApplyPreset(current, i), apiKey), "prompt").value == Str(StylePresets[i])
    ensures |ApplyPreset(current, i)| <= StylePromptMaxLength
  {
    assert StylePresets[i] != "" && |StylePresets[i]| <= StylePromptMaxLength by {
      assert |StylePresets[0]| == 33 && |StylePresets[1]| == 34;
      assert |StylePresets[2]| == 34 && |StylePresets[3]| == 29;
    }
  }
}

=== FILE: extract.dfy ===
/** `extractImageFromShape`: the base64 payload of an image shape's
    picture, taken from a data URL, exported from the canvas, or fetched
    (app/lib/extractImageFromShape.ts). */
module ExtractImage {
  import opened Wrappers
  import opened JsStrings
  import opened Canvas

  const DataScheme: string := "data:"
  const AssetScheme: string := "asset:"
  const BlobScheme: string := "blob:"
  const HttpScheme: string := "http://"
  const HttpsScheme: string := "https://"

  const DataImagePrefix: string := "data:image/"
  const Base64Marker: string := ";base64,"

  /** The characters JavaScript's regular-expression `.` does not match. */
  predicate IsLineTerminator(c: char) {
    c == '\n' || c == '\r' || c == '\U{2028}' || c == '\U{2029}'
  }

  /** A media subtype as `[^;]+` accepts it. */
  predicate IsSubtype(sub: string) {
    |sub| >= 1 && forall i :: 0 <= i < |sub| ==> sub[i] != ';'
  }

  /** A payload as `(.+)$` accepts it. */
  predicate IsPayload(p: string) {
    |p| >= 1 && forall i :: 0 <= i < |p| ==> !IsLineTerminator(p[i])
  }

  /** `s` reads `data:image/<sub>;base64,<payload>`. */
  predicate DataImageForm(s: string, sub: string, payload: string) {
    IsSubtype(sub) && IsPayload(payload) && s == DataImagePrefix + sub + Base64Marker + payload
  }

  /** The position of the first `c` in `s`, if any. */
  function IndexOf(s: string, c: char): (r: Option<nat>)
    ensures r.Some? ==> r.value < |s| && s[r.value] == c && forall j :: 0 <= j < r.value ==> s[j] != c
    ensures r.None? ==> forall j :: 0 <= j < |s| ==> s[j] != c
  {
    if s == [] then None
    else if s[0] == c then Some(0)
    else
      match IndexOf(s[1..], c)
      case None => None
      case Some(i) => Some(i + 1)
  }

  /** The capture group of `/^data:image\/[^;]+;base64,(.+)$/`, when the
      whole string matches. A match is always a decomposition of `s` into
      the prefix, a subtype, the marker and the returned payload. */
  function MatchDataImageUrl(s: string): (r: Option<string>)
    ensures r.Some? ==> exists sub :: DataImageForm(s, sub, r.value)
  {
    if !StartsWith(s, DataImagePrefix) then None
    else
      var rest := s[|DataImagePrefix|..];
      match IndexOf(rest, ';')
      case None => None
      case Some(i) =>
        if i == 0 || !StartsWith(rest[i..], Base64Marker) then None
        else
          var payload := rest[i..][|Base64Marker|..];
          if IsPayload(payload) then
            assert DataImageForm(s, rest[..i], payload) by {
              assert s == DataImagePrefix + rest;
              assert rest == rest[..i] + Base64Marker + payload;
            }
            Some(payload)
          else None
  }

  /** Every string of the form `data:image/<sub>;base64,<payload>` matches,
      and the match returns exactly its payload: the subtype cannot swallow
      the marker because it holds no ';'. */
  lemma MatchDataImageUrlComplete(sub: string, payload: string)
    requires IsSubtype(sub) && IsPayload(payload)
    ensures MatchDataImageUrl(DataImagePrefix + sub + Base64Marker + payload) == Some(payload)
  {
    var s := DataImagePrefix + sub + Base64Marker + payload;
    var rest := sub + Base64Marker + payload;
    assert s[..|DataImagePrefix|] == DataImagePrefix;
    assert s[|DataImagePrefix|..] == rest;
    IndexOfFirst(rest, sub, ';');
    assert rest[|sub|..] == Base64Marker + payload;
    assert rest[|sub|..][..|Base64Marker|] == Base64Marker;
    assert rest[|sub|..][|Base64Marker|..] == payload;
  }

  /** The first `c` of `a + b` is at `|a|` when `a` has none and `b`
      starts with one. */
  lemma IndexOfFirst(s: string, a: string, c: char)
    requires |a| < |s| && s[..|a|] == a && s[|a|] == c
    requires forall i :: 0 <= i < |a| ==> a[i] != c
    ensures IndexOf(s, c) == Some(|a|)
  {
    if a != [] {
      IndexOfFirst(s[1..], a[1..], c);
    }
  }

  /** The blob-to-base64 step inside the source: the payload when the
      data URL matches, else the whole data URL. */
  function StripDataImagePrefix(dataUrl: string): (r: string)
    ensures MatchDataImageUrl(dataUrl).Some? ==> r == MatchDataImageUrl(dataUrl).value
    ensures MatchDataImageUrl(dataUrl).None? ==> r == dataUrl
  {
    match MatchDataImageUrl(dataUrl)
    case Some(p) => p
    case None => dataUrl
  }

  /** What `fetch` yields: a network failure, or a response with its `ok`
      flag and the body as a data URL (absent when reading it fails). */
  datatype FetchResponse = NetworkError | Response(ok: bool, body: Option<string>)

  const NoAssetIdError: string := "Image shape has no assetId"
  const NoAssetError: string := "Could not find image asset"
  const NoSrcError: string := "Image asset has no src"
  const AssetExportError: string := "Failed to extract image data from asset: "
  const FetchError: string := "Failed to extract image data from shape. Source: "
  const UnsupportedError: string := "Unsupported image source format: "

  /** An error message that quotes the source: at most its first 50
      characters followed by '...'. */
  function Quoting(prefix: string, src: string): string {
    prefix + Take(src, 50) + "..."
  }

  /** The checks made before any I/O: an asset id, an image asset, a
      source. */
  function CheckAsset(assetId: Option<AssetId>, assets: map<AssetId, Asset>): (r: Result<string>)
    ensures r.Success? <==>
              assetId.Some? && assetId.value != "" && assetId.value in assets
              && assets[assetId.value].kind == ImageAsset && assets[assetId.value].src != ""
    ensures r.Success? ==> r.value == assets[assetId.value].src
    ensures r.Failure? ==> r.error in {NoAssetIdError, NoAssetError, NoSrcError}
  {
    if assetId.None? || assetId.value == "" then Failure(NoAssetIdError)
    else if assetId.value !in assets || assets[assetId.value].kind != ImageAsset then Failure(NoAssetError)
    else if assets[assetId.value].src == "" then Failure(NoSrcError)
    else Success(assets[assetId.value].src)
  }

  /** `extractImageFromShape`, for an image shape with the given `assetId`.
      `exportShape` stands for `editor.toImage([shape])` followed by reading
      the blob as a data URL (absent when no blob is produced or reading
      fails); `fetch` for fetching a URL and reading its body. */
  function ExtractImageFromShape(
    assetId: Option<AssetId>, assets: map<AssetId, Asset>,
    exportShape: Option<string>, fetch: string -> FetchResponse): (r: Result<string>)
    ensures CheckAsset(assetId, assets).Failure? ==> r == CheckAsset(assetId, assets).PropagateFailure()
    ensures CheckAsset(assetId, assets).Success? ==>
              var src := CheckAsset(assetId, assets).value;
              && (StartsWith(src, DataScheme) ==>
                    r == Success(if MatchDataImageUrl(src).Some? then MatchDataImageUrl(src).value else src))
              && (!StartsWith(src, DataScheme) && StartsWith(src, AssetScheme) ==>
                    r == if exportShape.Some? then Success(StripDataImagePrefix(exportShape.value))
                         else Failure(Quoting(AssetExportError, src)))
              && (!StartsWith(src, DataScheme) && !StartsWith(src, AssetScheme)
                  && (StartsWith(src, BlobScheme) || StartsWith(src, HttpScheme) || StartsWith(src, HttpsScheme)) ==>
                    (r.Success? <==> fetch(src).Response? && fetch(src).ok && fetch(src).body.Some?)
                    && (r.Failure? ==> r.error == Quoting(FetchError, src)))
              && (!StartsWith(src, DataScheme) && !StartsWith(src, AssetScheme) && !StartsWith(src, BlobScheme)
                  && !StartsWith(src, HttpScheme) && !StartsWith(src, HttpsScheme) ==>
                    r == Failure(Quoting(UnsupportedError, src)))
  {
    var src :- CheckAsset(assetId, assets);
    if StartsWith(src, DataScheme) then
      match MatchDataImageUrl(src)
      case Some(payload) => Success(payload)
      case None => Success(src)
    else if StartsWith(src, AssetScheme) then
      match exportShape
      case Some(dataUrl) => Success(StripDataImagePrefix(dataUrl))
      case None => Failure(Quoting(AssetExportError, src))
    else if StartsWith(src, BlobScheme) || StartsWith(src, HttpScheme) || StartsWith(src, HttpsScheme) then
      match fetch(src)
      case NetworkError => Failure(Quoting(FetchError, src))
      case Response(ok, body) =>
        if !ok || body.None? then Failure(Quoting(FetchError, src))
        else Success(StripDataImagePrefix(body.value))
    else
      Failure(Quoting(UnsupportedError, src))
  }

  /** The asset checks come before any export or fetch, and a data URL
      needs neither: in those cases the outcome does not depend on what
      the export or the network would have produced. */
  lemma NoIOBeforeChecks(
    assetId: Option<AssetId>, assets: map<AssetId, Asset>,
    export1: Option<string>, fetch1: string -> FetchResponse,
    export2: Option<string>, fetch2: string -> FetchResponse)
    requires CheckAsset(assetId, assets).Failure?
             || StartsWith(CheckAsset(assetId, assets).value, DataScheme)
    ensures ExtractImageFromShape(assetId, assets, export1, fetch1)
         == ExtractImageFromShape(assetId, assets, export2, fetch2)
  {
  }

  /** Every error message is one of the fixed ones or quotes at most the
      first 50 characters of the source. */
  lemma ErrorsQuoteAtMostFifty(
    assetId: Option<AssetId>, assets: map<AssetId, Asset>,
    exportShape: Option<string>, fetch: string -> FetchResponse)
    requires ExtractImageFromShape(assetId, assets, exportShape, fetch).Failure?
    ensures var e := ExtractImageFromShape(assetId, assets, exportShape, fetch).error;
            e in {NoAssetIdError, NoAssetError, NoSrcError}
            || exists prefix, quoted :: prefix in {AssetExportError, FetchError, UnsupportedError}
                 && |quoted| <= 50 && e == prefix + quoted + "..."
  {
    var e := ExtractImageFromShape(assetId, assets, exportShape, fetch).error;
    if CheckAsset(assetId, assets).Success? {
      var src := CheckAsset(assetId, assets).value;
      var quoted := Take(src, 50);
      if StartsWith(src, AssetScheme) && !StartsWith(src, DataScheme) {
        assert e == AssetExportError + quoted + "...";
      } else if StartsWith(src, BlobScheme) || StartsWith(src, HttpScheme) || StartsWith(src, HttpsScheme) {
        assert e == FetchError + quoted + "...";
      } else {
        assert e == UnsupportedError + quoted + "...";
      }
    }
  }
}

=== FILE: findings.dfy ===
/** Two panels post bodies their routes cannot accept. Each mismatch is
    stated as written, end to end, and then with the correction and the
    property the correction gives. */
module Findings {
  import opened Wrappers
  import opened JsValues
  import opened Http
  import opened ClientFlow
  import opened Canvas
  import opened Placeholder
  import opened PlaceImage
  import opened VariantList
  import ImageRoute
  import AnimationRoute
  import DoodleTool
  import SingleImageTool
  import ExtractImage
  import Capture

  /** The image route behind a panel's `fetch`: the posted body is handled
      and the reply's body parsed. */
  function ImageRouteApi(flux: ImageRoute.FluxInput -> Result<JsValue>): JsValue -> Result<JsValue> {
    b => Success(ImageRoute.HandlePost(Success(b), flux).body)
  }

  /** The animation route behind a panel's `fetch`. */
  function AnimationRouteApi(kling: AnimationRoute.KlingInput -> Result<JsValue>): JsValue -> Result<JsValue> {
    b => Success(AnimationRoute.HandlePost(Success(b), kling).body)
  }

  /** The doodle tool's body has no `apiKey`, so the image route rejects it
      whatever the image, the prompt or the model: with the key message
      when there is an image, with the input message otherwise. */
  lemma DoodleRequestRejected(image: string, stylePrompt: string, flux: ImageRoute.FluxInput -> Result<JsValue>)
    ensures image != "" ==>
              ImageRoute.HandlePost(Success(DoodleTool.ImageRequestBody(image, stylePrompt, None)), flux)
              == ErrorReply(400, ImageRoute.MissingKeyError)
    ensures image == "" ==>
              ImageRoute.HandlePost(Success(DoodleTool.ImageRequestBody(image, stylePrompt, None)), flux)
              == ErrorReply(400, ImageRoute.MissingInputError)
  {
    var body := DoodleTool.ImageRequestBody(image, stylePrompt, None);
    assert ImageRoute.Field(body, "apiKey") == Undefined;
    assert ImageRoute.Field(body, "imageBase64") == Str(image);
  }

  /** End to end, as written: with the image route behind it, the doodle
      tool never reports a generated image; once the selection is captured
      it reports "Generation failed" with the route's message. */
  lemma DoodleGenerationAlwaysFails(
    st: State, selection: seq<ShapeId>, stylePrompt: string,
    phIds: FreshIds, placeIds: PlaceIds, io: DoodleTool.Services, flux: ImageRoute.FluxInput -> Result<JsValue>)
    requires io.pick < |LoadingVideos| && DoodleTool.CaptureBoundsConsistent(io)
    requires FreshFor(st, phIds) && phIds.box != ""
    requires Unused(st, placeIds.shape)
    requires placeIds.shape != phIds.box && placeIds.shape != phIds.video && placeIds.shape != phIds.text
    ensures DoodleTool.HandleGenerate(st, selection, stylePrompt, None, phIds, placeIds, io.(api := ImageRouteApi(flux))).toast.title
            != DoodleTool.ImageGeneratedTitle
    ensures DoodleTool.SelectionBounds(st.ed, selection).Some?
            && DoodleTool.Request(stylePrompt, None, io).Some? ==>
              var r := DoodleTool.HandleGenerate(st, selection, stylePrompt, None, phIds, placeIds, io.(api := ImageRouteApi(flux)));
              r.toast.title == DoodleTool.GenerationFailedTitle && r.toast.description.Some?
              && r.toast.description.value in {ImageRoute.MissingKeyError, ImageRoute.MissingInputError}
  {
    var io' := io.(api := ImageRouteApi(flux));
    var bounds := DoodleTool.SelectionBounds(st.ed, selection);
    if bounds.Some? {
      var request := DoodleTool.Request(stylePrompt, None, io');
      assert request == DoodleTool.Request(stylePrompt, None, io);
      if request.Some? {
        var image := Capture.CaptureShapesAsImage(io.selectionPageBounds, io.toImage).value;
        assert request.value == DoodleTool.ImageRequestBody(image, stylePrompt, None);
        DoodleRequestRejected(image, stylePrompt, flux);
        var message := if image != "" then ImageRoute.MissingKeyError else ImageRoute.MissingInputError;
        assert io'.api(request.value) == Success(ErrorReply(400, message).body);
        ClientReadsReplies(400, message, "imageUrl", Null);
      }
    }
  }

  /** Corrected: when the doodle tool sends the key, a body with an image
      reaches the model, with the style prompt (or its default) behind
      the route's prefix, and the reply carries the model's image URL
      exactly when the model produced one. */
  lemma KeyedDoodleRequestReachesModel(image: string, stylePrompt: string, key: string, flux: ImageRoute.FluxInput -> Result<JsValue>)
    requires image != "" && key != ""
    ensures var r := ImageRoute.HandlePost(Success(DoodleTool.ImageRequestBody(image, stylePrompt, Some(key))), flux);
            var call := flux(ImageRoute.FluxInput(ImageRoute.PromptPrefix + OrElse(stylePrompt, DoodleTool.DefaultStylePrompt),
                                                  Str(image), Str(key)));
            && (r.status == 200 <==> call.Success? && StrictPath(call.value, ImageRoute.ImageUrlPath).Success?)
            && (r.status == 200 ==> r == SuccessReply("imageUrl", StrictPath(call.value, ImageRoute.ImageUrlPath).value))
            && (r.status != 200 ==> r.status == 500)
  {
    var body := DoodleTool.ImageRequestBody(image, stylePrompt, Some(key));
    assert ImageRoute.Field(body, "apiKey") == Str(key);
    assert ImageRoute.Field(body, "imageBase64") == Str(image);
    assert ToJsString(ImageRoute.Field(body, "prompt")) == OrElse(stylePrompt, DoodleTool.DefaultStylePrompt);
  }

  /** Corrected, as the doodle tool reads it: the image route's reply to a
      keyed body with an image reads as not failed, with a loadable
      `imageUrl`, exactly when the model produced an image URL that loads. */
  lemma KeyedDoodleReplyReadsSucceeded(
    image: string, stylePrompt: string, key: string,
    flux: ImageRoute.FluxInput -> Result<JsValue>, load: string -> Option<LoadedMedia>)
    requires image != "" && key != ""
    ensures var reply := ImageRoute.HandlePost(Success(DoodleTool.ImageRequestBody(image, stylePrompt, Some(key))), flux).body;
            var call := flux(ImageRoute.FluxInput(ImageRoute.PromptPrefix + OrElse(stylePrompt, DoodleTool.DefaultStylePrompt),
                                                  Str(image), Str(key)));
            (&& ResponseFailed(reply) == Success(false)
             && load(ToJsString(Property(reply, "imageUrl").value)).Some?)
            <==> (&& call.Success? && StrictPath(call.value, ImageRoute.ImageUrlPath).Success?
                  && load(ToJsString(StrictPath(call.value, ImageRoute.ImageUrlPath).value)).Some?)
  {
    var body := DoodleTool.ImageRequestBody(image, stylePrompt, Some(key));
    var reply := ImageRoute.HandlePost(Success(body), flux);
    KeyedDoodleRequestReachesModel(image, stylePrompt, key, flux);
    var call := flux(ImageRoute.FluxInput(ImageRoute.PromptPrefix + OrElse(stylePrompt, DoodleTool.DefaultStylePrompt),
                                          Str(image), Str(key)));
    if call.Success? && StrictPath(call.value, ImageRoute.ImageUrlPath).Success? {
      ClientReadsReplies(200, "", "imageUrl", StrictPath(call.value, ImageRoute.ImageUrlPath).value);
    } else {
      var m := if call.Failure? then OrElse(call.error, ImageRoute.DefaultError)
               else OrElse(StrictPath(call.value, ImageRoute.ImageUrlPath).error, ImageRoute.DefaultError);
      assert ImageRoute.Field(body, "apiKey") == Str(key);
      assert ImageRoute.Field(body, "imageBase64") == Str(image);
      assert ToJsString(ImageRoute.Field(body, "prompt")) == OrElse(stylePrompt, DoodleTool.DefaultStylePrompt);
      assert reply == ErrorReply(500, m);
      ClientReadsReplies(500, m, "imageUrl", Null);
    }
  }

  /** End to end, corrected: when the doodle tool sends the key and the
      capture yields an image, the panel reports a generated image exactly
      when the model produced an image URL and the image at that URL loads. */
  lemma KeyedDoodleGenerates(
    st: State, selection: seq<ShapeId>, stylePrompt: string, key: string,
    phIds: FreshIds, placeIds: PlaceIds, io: DoodleTool.Services, flux: ImageRoute.FluxInput -> Result<JsValue>)
    requires io.pick < |LoadingVideos| && DoodleTool.CaptureBoundsConsistent(io)
    requires FreshFor(st, phIds) && phIds.box != ""
    requires Unused(st, placeIds.shape)
    requires placeIds.shape != phIds.box && placeIds.shape != phIds.video && placeIds.shape != phIds.text
    requires key != ""
    ensures var image := Capture.CaptureShapesAsImage(io.selectionPageBounds, io.toImage);
            DoodleTool.SelectionBounds(st.ed, selection).Some? && image.Success? && image.value != "" ==>
              var r := DoodleTool.HandleGenerate(st, selection, stylePrompt, Some(key), phIds, placeIds, io.(api := ImageRouteApi(flux)));
              var call := flux(ImageRoute.FluxInput(ImageRoute.PromptPrefix + OrElse(stylePrompt, DoodleTool.DefaultStylePrompt),
                                                    Str(image.value), Str(key)));
              (r.toast.title == DoodleTool.ImageGeneratedTitle
               <==> && call.Success? && StrictPath(call.value, ImageRoute.ImageUrlPath).Success?
                    && io.load(ToJsString(StrictPath(call.value, ImageRoute.ImageUrlPath).value)).Some?)
  {
    var io' := io.(api := ImageRouteApi(flux));
    var image := Capture.CaptureShapesAsImage(io.selectionPageBounds, io.toImage);
    if DoodleTool.SelectionBounds(st.ed, selection).Some? && image.Success? && image.value != "" {
      var body := DoodleTool.ImageRequestBody(image.value, stylePrompt, Some(key));
      assert DoodleTool.Request(stylePrompt, Some(key), io') == Some(body);
      assert io'.api(body) == Success(ImageRoute.HandlePost(Success(body), flux).body);
      KeyedDoodleReplyReadsSucceeded(image.value, stylePrompt, key, flux, io.load);
    }
  }

  /** The single-image panel's body has `imageUrl` and `falApiKey` where
      the animation route reads `imageUrls` and `apiKey`, so the route
      rejects every such body before the model. */
  lemma AnimationRequestRejected(
    imageUrl: string, prompt: string, falApiKey: string, openaiApiKey: Option<string>,
    kling: AnimationRoute.KlingInput -> Result<JsValue>)
    ensures AnimationRoute.HandlePost(Success(SingleImageTool.AnimationRequestBody(imageUrl, prompt, falApiKey, openaiApiKey)), kling)
            == ErrorReply(400, AnimationRoute.NeedUrlsError)
  {
    var body := SingleImageTool.AnimationRequestBody(imageUrl, prompt, falApiKey, openaiApiKey);
    assert Property(body, "imageUrls").value == Undefined;
  }

  /** End to end, as written: with the animation route behind it, the
      panel never shows "Animation ready!" and never sets a video; once its
      own checks pass it reports "Animation failed" with the route's
      message. */
  lemma AnimationNeverReady(
    p: SingleImageTool.Panel, falKey: Option<string>, openaiInput: Option<string>,
    assetId: Option<AssetId>, assets: map<AssetId, Asset>, kling: AnimationRoute.KlingInput -> Result<JsValue>)
    ensures SingleImageTool.HandleGenerateAnimation(p, falKey, openaiInput, assetId, assets, AnimationRouteApi(kling)).toast.title
            != SingleImageTool.AnimationReadyTitle
    ensures SingleImageTool.HandleGenerateAnimation(p, falKey, openaiInput, assetId, assets, AnimationRouteApi(kling)).panel.videoUrl
            == p.videoUrl
    ensures KeyPresent(falKey) && openaiInput.Some? && ExtractImage.CheckAsset(assetId, assets).Success? ==>
              SingleImageTool.HandleGenerateAnimation(p, falKey, openaiInput, assetId, assets, AnimationRouteApi(kling)).toast
              == Toast(SingleImageTool.AnimationFailedTitle, Some(AnimationRoute.NeedUrlsError))
  {
    if KeyPresent(falKey) && openaiInput.Some? && ExtractImage.CheckAsset(assetId, assets).Success? {
      var body := SingleImageTool.AnimationRequestBody(ExtractImage.CheckAsset(assetId, assets).value, p.animationPrompt,
                                                       falKey.value, SingleImageTool.OpenAiKey(openaiInput.value));
      AnimationRequestRejected(ExtractImage.CheckAsset(assetId, assets).value, p.animationPrompt,
                               falKey.value, SingleImageTool.OpenAiKey(openaiInput.value), kling);
      assert AnimationRouteApi(kling)(body) == Success(ErrorReply(400, AnimationRoute.NeedUrlsError).body);
      ClientReadsReplies(400, AnimationRoute.NeedUrlsError, "videoUrl", Null);
    }
  }

  const NeedImageUrlError: string := "Need an image URL"

  /** Corrected route: the animation handler reading the fields the
      single-image panel sends. A truthy `imageUrl` is checked before a
      truthy `falApiKey`, and that image reaches the model with the fixed
      motion prompt; the replies are as in the route as written. */
  function SingleImageAnimationRoute(body: Result<JsValue>, kling: AnimationRoute.KlingInput -> Result<JsValue>): (r: Reply)
    ensures body.Failure? ==> IsError(r, 500, OrElse(body.error, AnimationRoute.DefaultError))
    ensures body.Success? && body.value.Obj? ==>
              var b := body.value;
              && (!Truthy(Property(b, "imageUrl").value) <==> IsError(r, 400, NeedImageUrlError))
              && (Truthy(Property(b, "imageUrl").value) && !Truthy(Property(b, "falApiKey").value)
                  <==> IsError(r, 400, AnimationRoute.MissingKeyError))
    ensures r.status == 200 <==>
              && body.Success? && !body.value.Null? && !body.value.Undefined?
              && Truthy(Property(body.value, "imageUrl").value) && Truthy(Property(body.value, "falApiKey").value)
              && var call := kling(AnimationRoute.KlingInput(AnimationRoute.MotionPrompt, Property(body.value, "imageUrl").value,
                                                             Property(body.value, "falApiKey").value));
                 call.Success? && StrictPath(call.value, AnimationRoute.VideoUrlPath).Success?
    ensures r.status == 200 ==>
              var call := kling(AnimationRoute.KlingInput(AnimationRoute.MotionPrompt, Property(body.value, "imageUrl").value,
                                                          Property(body.value, "falApiKey").value));
              r == SuccessReply("videoUrl", StrictPath(call.value, AnimationRoute.VideoUrlPath).value)
    ensures r.status in {200, 400, 500}
  {
    match body
    case Failure(e) => ErrorReply(500, OrElse(e, AnimationRoute.DefaultError))
    case Success(b) =>
      if b.Null? || b.Undefined? then ErrorReply(500, OrElse(NullPropertyError, AnimationRoute.DefaultError))
      else
        var url := Property(b, "imageUrl").value;
        var key := Property(b, "falApiKey").value;
        ErrorReplyDetermines(400, NeedImageUrlError, 400, AnimationRoute.MissingKeyError);
        if !Truthy(url) then ErrorReply(400, NeedImageUrlError)
        else if !Truthy(key) then ErrorReply(400, AnimationRoute.MissingKeyError)
        else
          match kling(AnimationRoute.KlingInput(AnimationRoute.MotionPrompt, url, key))
          case Failure(e) => ErrorReply(500, OrElse(e, AnimationRoute.DefaultError))
          case Success(result) =>
            match StrictPath(result, AnimationRoute.VideoUrlPath)
            case Failure(e) => ErrorReply(500, OrElse(e, AnimationRoute.DefaultError))
            case Success(url) => SuccessReply("videoUrl", url)
  }

  /** The corrected route behind a panel's `fetch`. */
  function SingleImageAnimationApi(kling: AnimationRoute.KlingInput -> Result<JsValue>): JsValue -> Result<JsValue> {
    b => Success(SingleImageAnimationRoute(Success(b), kling).body)
  }

  /** With the corrected route, the panel's body reaches the model: the
      image's source and the fal key are forwarded, and the reply carries
      the model's video URL exactly when the model produced one; otherwise
      it is a failed reply. */
  lemma PanelBodyReachesModel(
    src: string, prompt: string, key: string, openaiApiKey: Option<string>,
    kling: AnimationRoute.KlingInput -> Result<JsValue>)
    requires src != "" && key != ""
    ensures var r := SingleImageAnimationRoute(Success(SingleImageTool.AnimationRequestBody(src, prompt, key, openaiApiKey)), kling);
            var call := kling(AnimationRoute.KlingInput(AnimationRoute.MotionPrompt, Str(src), Str(key)));
            && (call.Success? && StrictPath(call.value, AnimationRoute.VideoUrlPath).Success? ==>
                  r == SuccessReply("videoUrl", StrictPath(call.value, AnimationRoute.VideoUrlPath).value))
            && (!(call.Success? && StrictPath(call.value, AnimationRoute.VideoUrlPath).Success?) ==>
                  r.status == 500 && ResponseFailed(r.body) == Success(true))
  {
    var body := SingleImageTool.AnimationRequestBody(src, prompt, key, openaiApiKey);
    assert Property(body, "imageUrl").value == Str(src);
    assert Property(body, "falApiKey").value == Str(key);
    var reply := SingleImageAnimationRoute(Success(body), kling);
    var call := kling(AnimationRoute.KlingInput(AnimationRoute.MotionPrompt, Str(src), Str(key)));
    if !(call.Success? && StrictPath(call.value, AnimationRoute.VideoUrlPath).Success?) {
      var m := if call.Failure? then OrElse(call.error, AnimationRoute.DefaultError)
               else OrElse(StrictPath(call.value, AnimationRoute.VideoUrlPath).error, AnimationRoute.DefaultError);
      assert reply == ErrorReply(500, m);
      ClientReadsReplies(500, m, "videoUrl", Null);
    }
  }

  /** End to end, corrected: the panel shows "Animation ready!" exactly
      when the model produced a video, and then shows that video. */
  lemma AnimationReadyWithCorrectedRoute(
    p: SingleImageTool.Panel, falKey: Option<string>, openaiInput: Option<string>,
    assetId: Option<AssetId>, assets: map<AssetId, Asset>, kling: AnimationRoute.KlingInput -> Result<JsValue>)
    requires KeyPresent(falKey) && openaiInput.Some? && ExtractImage.CheckAsset(assetId, assets).Success?
    ensures var r := SingleImageTool.HandleGenerateAnimation(p, falKey, openaiInput, assetId, assets, SingleImageAnimationApi(kling));
            var call := kling(AnimationRoute.KlingInput(AnimationRoute.MotionPrompt, Str(ExtractImage.CheckAsset(assetId, assets).value),
                                                        Str(falKey.value)));
            && (r.toast.title == SingleImageTool.AnimationReadyTitle
                <==> call.Success? && StrictPath(call.value, AnimationRoute.VideoUrlPath).Success?)
            && (r.toast.title == SingleImageTool.AnimationReadyTitle ==>
                  r.panel.videoUrl == StrictPath(call.value, AnimationRoute.VideoUrlPath).value)
  {
    var src := ExtractImage.CheckAsset(assetId, assets).value;
    var body := SingleImageTool.AnimationRequestBody(src, p.animationPrompt, falKey.value, SingleImageTool.OpenAiKey(openaiInput.value));
    var reply := SingleImageAnimationRoute(Success(body), kling);
    assert SingleImageAnimationApi(kling)(body) == Success(reply.body);
    PanelBodyReachesModel(src, p.animationPrompt, falKey.value, SingleImageTool.OpenAiKey(openaiInput.value), kling);
    var call := kling(AnimationRoute.KlingInput(AnimationRoute.MotionPrompt, Str(src), Str(falKey.value)));
    if call.Success? && StrictPath(call.value, AnimationRoute.VideoUrlPath).Success? {
      var url := StrictPath(call.value, AnimationRoute.VideoUrlPath).value;
      ClientReadsReplies(200, "", "videoUrl", url);
    }
  }
}

=== FILE: geometry.dfy ===
/** Page-space geometry shared by the placement helpers: bounds records,
    the aspect-ratio fit, and minimum/maximum over reals. Arithmetic is over
    mathematical reals, not IEEE doubles. */
module Geometry {

  /** A non-negative length. */
  type Len = r: real | 0.0 <= r witness 0.0

  function Min(a: real, b: real): (r: real)
    ensures r <= a && r <= b && (r == a || r == b)
  {
    if a <= b then a else b
  }

  function Max(a: real, b: real): (r: real)
    ensures a <= r && b <= r && (r == a || r == b)
  {
    if a <= b then b else a
  }

  /** A bounds record as the source passes it around: the eight fields of
      tldraw's page bounds, which may also be built by hand. */
  datatype PageBounds = PageBounds(
    minX: real, maxX: real, minY: real, maxY: real,
    width: real, height: real, midX: real, midY: real)

  /** The fields agree with one another: the extent is non-negative, the
      sizes are the differences of the edges and the midpoints lie halfway. */
  predicate Consistent(b: PageBounds) {
    && b.minX <= b.maxX && b.minY <= b.maxY
    && b.width == b.maxX - b.minX && b.height == b.maxY - b.minY
    && b.midX == b.minX + b.width / 2.0 && b.midY == b.minY + b.height / 2.0
  }

  /** The bounds of an axis-aligned rectangle with top-left corner (x, y). */
  function RectBounds(x: real, y: real, w: Len, h: Len): (b: PageBounds)
    ensures Consistent(b)
    ensures b.minX == x && b.minY == y && b.width == w && b.height == h
  {
    PageBounds(x, x + w, y, y + h, w, h, x + w / 2.0, y + h / 2.0)
  }

  /** A width and a height. */
  datatype Size = Size(width: Len, height: Len)

  /** `calculateAspectRatioFit`: the source size scaled by
      min(maxW / srcW, maxH / srcH). The result fits in the box, keeps the
      source's aspect ratio and touches at least one side of the box. */
  function AspectRatioFit(srcW: real, srcH: real, maxW: Len, maxH: Len): (r: Size)
    requires srcW > 0.0 && srcH > 0.0
    ensures r.width <= maxW && r.height <= maxH
    ensures r.width * srcH == r.height * srcW
    ensures r.width == maxW || r.height == maxH
  {
    var ratio := Min(maxW / srcW, maxH / srcH);
    FitScalesBoth(srcW, srcH, maxW, maxH, ratio);
    Size(srcW * ratio, srcH * ratio)
  }

  /** The arithmetic behind `AspectRatioFit`'s contract. */
  lemma FitScalesBoth(srcW: real, srcH: real, maxW: Len, maxH: Len, ratio: real)
    requires srcW > 0.0 && srcH > 0.0
    requires ratio == Min(maxW / srcW, maxH / srcH)
    ensures 0.0 <= srcW * ratio <= maxW && 0.0 <= srcH * ratio <= maxH
    ensures srcW * ratio == maxW || srcH * ratio == maxH
  {
    assert srcW * (maxW / srcW) == maxW;
    assert srcH * (maxH / srcH) == maxH;
    assert 0.0 <= ratio;
    if ratio == maxW / srcW {
      assert ratio <= maxH / srcH;
      assert srcH * ratio <= srcH * (maxH / srcH);
    } else {
      assert ratio <= maxW / srcW;
      assert srcW * ratio <= srcW * (maxW / srcW);
    }
  }

  /** The fit is the largest size of the source's shape inside the box:
      any scale factor `k` whose scaled size fits gives no larger width or
      height. */
  lemma FitIsLargest(srcW: real, srcH: real, maxW: Len, maxH: Len, k: real)
    requires srcW > 0.0 && srcH > 0.0
    requires k * srcW <= maxW && k * srcH <= maxH
    ensures k * srcW <= AspectRatioFit(srcW, srcH, maxW, maxH).width
    ensures k * srcH <= AspectRatioFit(srcW, srcH, maxW, maxH).height
  {
    var r := AspectRatioFit(srcW, srcH, maxW, maxH);
    var ratio := Min(maxW / srcW, maxH / srcH);
    assert r.width == srcW * ratio && r.height == srcH * ratio;
    assert k <= maxW / srcW by {
      assert k * srcW / srcW <= maxW / srcW;
    }
    assert k <= maxH / srcH by {
      assert k * srcH / srcH <= maxH / srcH;
    }
    assert k <= ratio;
  }
}

=== FILE: http.dfy ===
/** The replies the route handlers build with `NextResponse.json`. */
module Http {
  import opened JsValues

  /** A status code and a JSON body. */
  datatype Reply = Reply(status: int, body: JsValue)

  /** `{ success: false, error: message }` with the given status. */
  function ErrorReply(status: int, message: string): Reply {
    Reply(status, Obj(map["success" := Bool(false), "error" := Str(message)]))
  }

  /** `{ success: true, <key>: value }` with status 200. */
  function SuccessReply(key: string, value: JsValue): Reply {
    Reply(200, Obj(map["success" := Bool(true), key := value]))
  }

  /** The reply is an error reply carrying that status and message. */
  predicate IsError(r: Reply, status: int, message: string) {
    r == ErrorReply(status, message)
  }

  /** An error reply determines its status and message. */
  lemma ErrorReplyDetermines(s1: int, m1: string, s2: int, m2: string)
    ensures ErrorReply(s1, m1) == ErrorReply(s2, m2) <==> s1 == s2 && m1 == m2
  {
    if ErrorReply(s1, m1) == ErrorReply(s2, m2) {
      assert ErrorReply(s1, m1).body.fields["error"] == Str(m1);
      assert ErrorReply(s2, m2).body.fields["error"] == Str(m2);
    }
  }
}

=== FILE: imageroute.dfy ===
/** `POST /api/generate-image`: validates the body, checks for a key and
    forwards an image-to-image request with a fixed prompt prefix
    (app/api/generate-image/route.ts). */
module ImageRoute {
  import opened Wrappers
  import opened JsValues
  import opened Http

  const MissingInputError: string := "Missing imageBase64 or prompt"
  const MissingKeyError: string := "API key is required"
  const DefaultError: string := "Failed to generate image"

  /** What every forwarded prompt starts with. */
  const PromptPrefix: string := "high-quality character art, clean lines, "

  /** The part of the model call that depends on the request: the final
      prompt, the image as received, and the credentials. */
  datatype FluxInput = FluxInput(prompt: string, imageUrl: JsValue, credentials: JsValue)

  /** `result.data.images[0].url`. */
  const ImageUrlPath: seq<PathStep> := [Key("data"), Key("images"), Index(0), Key("url")]

  /** The inputs the handler reads from a parsed, non-null body. */
  function Field(body: JsValue, key: string): JsValue
    requires !body.Null? && !body.Undefined?
  {
    Property(body, key).value
  }

  /** The handler. `body` is the parsed request body, or the message
      `request.json()` threw; `flux` stands for the model call and yields
      its result or the message it threw. The inputs are checked before the
      key, and the model is called only when all three are truthy. */
  function HandlePost(body: Result<JsValue>, flux: FluxInput -> Result<JsValue>): (r: Reply)
    ensures body.Failure? ==> IsError(r, 500, OrElse(body.error, DefaultError))
    ensures body.Success? && (body.value.Null? || body.value.Undefined?) ==>
              IsError(r, 500, NullPropertyError)
    ensures body.Success? && body.value.Obj? ==>
              var b := body.value;
              && (!Truthy(Field(b, "imageBase64")) || !Truthy(Field(b, "prompt")) <==> IsError(r, 400, MissingInputError))
              && (Truthy(Field(b, "imageBase64")) && Truthy(Field(b, "prompt")) && !Truthy(Field(b, "apiKey"))
                  <==> IsError(r, 400, MissingKeyError))
    ensures r.status == 200 <==>
              && body.Success? && !body.value.Null? && !body.value.Undefined?
              && Truthy(Field(body.value, "imageBase64")) && Truthy(Field(body.value, "prompt"))
              && Truthy(Field(body.value, "apiKey"))
              && var call := flux(FluxInput(PromptPrefix + ToJsString(Field(body.value, "prompt")),
                                            Field(body.value, "imageBase64"), Field(body.value, "apiKey")));
                 call.Success? && StrictPath(call.value, ImageUrlPath).Success?
    ensures r.status == 200 ==>
              var call := flux(FluxInput(PromptPrefix + ToJsString(Field(body.value, "prompt")),
                                         Field(body.value, "imageBase64"), Field(body.value, "apiKey")));
              r == SuccessReply("imageUrl", StrictPath(call.value, ImageUrlPath).value)
    ensures r.status in {200, 400, 500}
  {
    match body
    case Failure(e) => ErrorReply(500, OrElse(e, DefaultError))
    case Success(b) =>
      if b.Null? || b.Undefined? then ErrorReply(500, OrElse(NullPropertyError, DefaultError))
      else
        var image := Field(b, "imageBase64");
        var prompt := Field(b, "prompt");
        var key := Field(b, "apiKey");
        ErrorReplyDetermines(400, MissingInputError, 400, MissingKeyError);
        if !Truthy(image) || !Truthy(prompt) then ErrorReply(400, MissingInputError)
        else if !Truthy(key) then ErrorReply(400, MissingKeyError)
        else
          match flux(FluxInput(PromptPrefix + ToJsString(prompt), image, key))
          case Failure(e) => ErrorReply(500, OrElse(e, DefaultError))
          case Success(result) =>
            match StrictPath(result, ImageUrlPath)
            case Failure(e) => ErrorReply(500, OrElse(e, DefaultError))
            case Success(url) => SuccessReply("imageUrl", url)
  }

  /** A body the checks reject never reaches the model: the reply is the
      same whatever the model would have answered. */
  lemma RejectedBeforeModel(body: JsValue, flux1: FluxInput -> Result<JsValue>, flux2: FluxInput -> Result<JsValue>)
    requires body.Obj?
    requires !Truthy(Field(body, "imageBase64")) || !Truthy(Field(body, "prompt")) || !Truthy(Field(body, "apiKey"))
    ensures HandlePost(Success(body), flux1) == HandlePost(Success(body), flux2)
    ensures HandlePost(Success(body), flux1).status == 400
  {
  }
}

=== FILE: jsstrings.dfy ===
/** The few JavaScript string operations the source relies on, over Dafny
    strings. A Dafny `char` is a Unicode scalar value, whereas JavaScript
    counts UTF-16 code units: the two lengths agree for characters of the
    Basic Multilingual Plane and differ for the others. */
module JsStrings {

  /** `s.startsWith(p)`. */
  predicate StartsWith(s: string, p: string) {
    |p| <= |s| && s[..|p|] == p
  }

  /** The characters `String.prototype.trim` removes: the ECMAScript
      WhiteSpace and LineTerminator code points. */
  predicate IsJsWhitespace(c: char) {
    || c == '\t' || c == '\n' || c == '\U{000B}' || c == '\U{000C}' || c == '\r'
    || c == ' ' || c == '\U{00A0}' || c == '\U{1680}'
    || ('\U{2000}' <= c <= '\U{200A}')
    || c == '\U{2028}' || c == '\U{2029}' || c == '\U{202F}' || c == '\U{205F}'
    || c == '\U{3000}' || c == '\U{FEFF}'
  }

  /** Every character of `s` is whitespace (the empty string included). */
  predicate AllWhitespace(s: string) {
    forall i :: 0 <= i < |s| ==> IsJsWhitespace(s[i])
  }

  /** Leading whitespace removed: what is left is a suffix of `s` that is
      empty or starts with a non-whitespace character, and only whitespace
      was dropped. */
  function TrimStart(s: string): (r: string)
    ensures |r| <= |s| && r == s[|s| - |r|..]
    ensures AllWhitespace(s[..|s| - |r|])
    ensures r == [] || !IsJsWhitespace(r[0])
  {
    if |s| > 0 && IsJsWhitespace(s[0]) then
      var t := s[1..];
      var r := TrimStart(t);
      var n := |s| - |r|;
      assert t[n - 1..] == s[n..];
      assert forall i :: 1 <= i < n ==> s[..n][i] == t[..n - 1][i - 1];
      r
    else
      s
  }

  /** Trailing whitespace removed, symmetrically to `TrimStart`. */
  function TrimEnd(s: string): (r: string)
    ensures |r| <= |s| && r == s[..|r|]
    ensures AllWhitespace(s[|r|..])
    ensures r == [] || !IsJsWhitespace(r[|r| - 1])
  {
    if |s| > 0 && IsJsWhitespace(s[|s| - 1]) then
      var r := TrimEnd(s[..|s| - 1]);
      assert s[..|s| - 1][..|r|] == s[..|r|];
      assert s[|r|..] == s[..|s| - 1][|r|..] + [s[|s| - 1]];
      r
    else
      s
  }

  /** `s.trim()`. */
  function Trim(s: string): string {
    TrimEnd(TrimStart(s))
  }

  /** `s.trim() !== ''`: the string has a character other than whitespace. */
  predicate HasContent(s: string) {
    Trim(s) != ""
  }

  /** A string trims to nothing exactly when it consists of whitespace. */
  lemma {:induction false} TrimEmptyIffAllWhitespace(s: string)
    ensures Trim(s) == "" <==> AllWhitespace(s)
  {
    var t := TrimStart(s);
    if Trim(s) == "" {
      // The trimmed-at-the-start remainder is all whitespace yet starts
      // with a non-whitespace character unless empty: it is empty.
      assert t == t[|TrimEnd(t)|..];
      assert t == [];
    }
  }

  /** `s.substring(0, n)`: at most the first `n` characters. */
  function Take(s: string, n: nat): (r: string)
    ensures |r| <= n && |r| <= |s|
    ensures r == s[..|r|]
    ensures |s| <= n ==> r == s
    ensures n <= |s| ==> |r| == n
  {
    if |s| <= n then s else s[..n]
  }

  /** The decimal digit for `d`. */
  function DigitChar(d: nat): (c: char)
    requires d < 10
    ensures '0' <= c <= '9'
  {
    ['0', '1', '2', '3', '4', '5', '6', '7', '8', '9'][d]
  }

  /** The decimal rendering of a natural number, without leading zeros. */
  function NatToString(n: nat): (r: string)
    ensures |r| >= 1
    ensures forall i :: 0 <= i < |r| ==> '0' <= r[i] <= '9'
    ensures |r| > 1 ==> r[0] != '0'
  {
    if n < 10 then [DigitChar(n)] else NatToString(n / 10) + [DigitChar(n % 10)]
  }

  /** The value a decimal string denotes. */
  function DecimalValue(s: string): nat
    requires forall i :: 0 <= i < |s| ==> '0' <= s[i] <= '9'
  {
    if s == [] then 0 else 10 * DecimalValue(s[..|s| - 1]) + ((s[|s| - 1] as int) - ('0' as int))
  }

  /** Rendering a number in decimal loses nothing. */
  lemma {:induction false} NatToStringRoundTrip(n: nat)
    ensures DecimalValue(NatToString(n)) == n
  {
    if n >= 10 {
      NatToStringRoundTrip(n / 10);
      var r := NatToString(n);
      assert r[..|r| - 1] == NatToString(n / 10);
    }
  }
}

=== FILE: jsvalues.dfy ===
/** Parsed JSON request bodies as the route handlers see them after
    `await request.json()`, with JavaScript's truthiness, property lookup,
    `Array.isArray` and string conversion. */
module JsValues {
  import opened Wrappers
  import opened JsStrings

  /** A value reachable from a parsed JSON body. `Undefined` stands for an
      absent property; JSON numbers are modelled by their integer value. */
  datatype JsValue =
    | Undefined
    | Null
    | Bool(b: bool)
    | Num(n: int)
    | Str(s: string)
    | Arr(items: seq<JsValue>)
    | Obj(fields: map<string, JsValue>)

  /** JavaScript truthiness: `!v` is false. */
  predicate Truthy(v: JsValue) {
    match v
    case Undefined => false
    case Null => false
    case Bool(b) => b
    case Num(n) => n != 0
    case Str(s) => s != ""
    case Arr(_) => true
    case Obj(_) => true
  }

  /** The message of the `TypeError` JavaScript throws when a property of
      `null` or `undefined` is read or destructured. */
  const NullPropertyError: string := "Cannot read properties of null or undefined"

  /** `v[key]` / `const { key } = v`: an object's own property, `undefined`
      for a missing one or for a property looked up on another primitive,
      and a thrown `TypeError` on `null` or `undefined`. */
  function Property(v: JsValue, key: string): (r: Result<JsValue>)
    ensures r.Failure? <==> v.Null? || v.Undefined?
    ensures r.Success? && r.value != Undefined ==> v.Obj? && key in v.fields && r.value == v.fields[key]
  {
    match v
    case Undefined => Failure(NullPropertyError)
    case Null => Failure(NullPropertyError)
    case Obj(m) => Success(if key in m then m[key] else Undefined)
    case _ => Success(Undefined)
  }

  /** An object body with the given string fields. */
  function StrObj(fields: map<string, string>): (r: JsValue)
    ensures r.Obj? && r.fields.Keys == fields.Keys
    ensures forall k :: k in fields ==> r.fields[k] == Str(fields[k])
  {
    Obj(map k | k in fields :: Str(fields[k]))
  }

  /** Decimal rendering of an integer, with a leading '-' when negative. */
  function IntToString(n: int): string {
    if n < 0 then "-" + NatToString(-n) else NatToString(n)
  }

  /** Array elements joined by commas, as `Array.prototype.join()` does. */
  function JoinWithCommas(parts: seq<string>): string {
    if |parts| == 0 then ""
    else if |parts| == 1 then parts[0]
    else JoinWithCommas(parts[..|parts| - 1]) + "," + parts[|parts| - 1]
  }

  /** `String(v)`, the conversion a template literal applies to `v`. */
  function ToJsString(v: JsValue): (r: string)
    decreases v, 1
    ensures v.Str? ==> r == v.s
  {
    match v
    case Undefined => "undefined"
    case Null => "null"
    case Bool(b) => if b then "true" else "false"
    case Num(n) => IntToString(n)
    case Str(s) => s
    case Arr(items) => JoinWithCommas(seq(|items|, i requires 0 <= i < |items| => ElementString(items[i])))
    case Obj(_) => "[object Object]"
  }

  /** An array element inside `join`: `null` and `undefined` become empty. */
  function ElementString(v: JsValue): string
    decreases v, 2
  {
    if v.Null? || v.Undefined? then "" else ToJsString(v)
  }

  /** `v[i]` for an index: an array's element or a string's character,
      `undefined` past the end or on other primitives, and a thrown
      `TypeError` on `null` or `undefined`. */
  function Element(v: JsValue, i: nat): (r: Result<JsValue>)
    ensures r.Failure? <==> v.Null? || v.Undefined?
    ensures v.Arr? && i < |v.items| ==> r == Success(v.items[i])
  {
    match v
    case Undefined => Failure(NullPropertyError)
    case Null => Failure(NullPropertyError)
    case Arr(items) => Success(if i < |items| then items[i] else Undefined)
    case Str(s) => Success(if i < |s| then Str([s[i]]) else Undefined)
    case _ => Success(Undefined)
  }

  /** One step of a property path: `.key` or `[index]`. */
  datatype PathStep = Key(key: string) | Index(index: nat)

  /** One step, throwing on `null` or `undefined`. */
  function StepInto(v: JsValue, step: PathStep): (r: Result<JsValue>)
    ensures r.Failure? <==> v.Null? || v.Undefined?
  {
    match step
    case Key(k) => Property(v, k)
    case Index(i) => Element(v, i)
  }

  /** `v.a.b[0].c`: each step throws when it meets `null` or `undefined`. */
  function StrictPath(v: JsValue, path: seq<PathStep>): Result<JsValue>
    decreases |path|
  {
    if path == [] then Success(v)
    else
      match StepInto(v, path[0])
      case Failure(e) => Failure(e)
      case Success(next) => StrictPath(next, path[1..])
  }

  /** `v?.a?.b?.[0]?.c`: the chain stops with `undefined` at the first
      `null` or `undefined` instead of throwing. */
  function OptionalPath(v: JsValue, path: seq<PathStep>): JsValue
    decreases |path|
  {
    if path == [] then v
    else if v.Null? || v.Undefined? then Undefined
    else OptionalPath(StepInto(v, path[0]).value, path[1..])
  }

  /** Optional chaining agrees with the plain chain wherever the plain
      chain does not throw, and a thrown chain reads `undefined` under
      optional chaining. */
  lemma {:induction false} OptionalAgreesWithStrict(v: JsValue, path: seq<PathStep>)
    ensures StrictPath(v, path).Success? ==> OptionalPath(v, path) == StrictPath(v, path).value
    ensures StrictPath(v, path).Failure? ==> OptionalPath(v, path) == Undefined
    decreases |path|
  {
    if path != [] && !(v.Null? || v.Undefined?) {
      OptionalAgreesWithStrict(StepInto(v, path[0]).value, path[1..]);
    }
  }

  /** `value || fallback` on strings: the value unless it is empty. */
  function OrElse(value: string, fallback: string): (r: string)
    ensures r == value || r == fallback
    ensures value != "" ==> r == value
    ensures r == "" <==> value == "" && fallback == ""
  {
    if value != "" then value else fallback
  }

  /** `result.error || 'Unknown error'` style fallbacks on values: the
      value's string form when it is truthy. */
  function TruthyOr(v: JsValue, fallback: string): (r: string)
    ensures r == ToJsString(v) || r == fallback
    ensures Truthy(v) ==> r == ToJsString(v)
    ensures v.Str? ==> r == OrElse(v.s, fallback)
    ensures v.Undefined? || v.Null? || v == Bool(false) || v == Num(0) ==> r == fallback
  {
    if Truthy(v) then ToJsString(v) else fallback
  }
}

=== FILE: placeholder.dfy ===
/** The in-progress placeholder: a grey box with a looping video and a
    "Morphing..." text image inside, the module-level registries that
    remember which video and text belong to which box, and the deletion
    that undoes it (app/lib/createPlaceholderShape.ts). */
module Placeholder {
  import opened Wrappers
  import opened Geometry
  import opened Canvas

  /** `videoShapeIds` and `textImageShapeIds`: box id to child id. */
  datatype Registry = Registry(videoShapeIds: map<ShapeId, ShapeId>, textImageShapeIds: map<ShapeId, ShapeId>)

  /** The editor together with the registries, which live beside it for
      the lifetime of the page. */
  datatype State = State(ed: Editor, reg: Registry)

  /** A text entry is only ever registered after the video entry of the
      same box. */
  predicate RegistryInvariant(reg: Registry) {
    reg.textImageShapeIds.Keys <= reg.videoShapeIds.Keys
  }

  /** Decoded media: a data URL and the pixel size it reports. */
  datatype Media = Media(dataUrl: string, w: real, h: real)

  /** Media whose decoder reported a positive size. */
  type LoadedMedia = m: Media | m.w > 0.0 && m.h > 0.0 witness Media("", 1.0, 1.0)

  /** The two loading animations, one of which is picked at random. */
  const LoadingVideos: seq<string> := ["/loading_animation_1.mp4", "/loading_animation_2.mp4"]

  /** How far the video is lifted above the box's centre. */
  const VideoLift: real := 35.0
  /** The gap between the video and the text below it. */
  const TextGap: real := 15.0
  /** The text image is shown at this fraction of its measured size. */
  const TextScale: real := 0.8

  /** Where the video and the text go inside a `w` by `h` box, relative to
      the box, for a text image measured at `tw` by `th`. */
  datatype Layout = Layout(videoSize: Len, videoX: real, videoY: real,
                           textX: real, textY: real, textW: Len, textH: Len)

  /** The placeholder's interior layout. The video is a square half as
      large as the box's smaller side, centred horizontally and lifted 35
      above the centre; the text, shown at 0.8 of its size, is centred
      horizontally 15 below the video. The video lies within the box's
      width. */
  function InteriorLayout(w: Len, h: Len, tw: Len, th: Len): (l: Layout)
    ensures l.videoSize <= w / 2.0 && l.videoSize <= h / 2.0
    ensures l.videoSize == w / 2.0 || l.videoSize == h / 2.0
    ensures l.videoX + l.videoSize / 2.0 == w / 2.0
    ensures l.videoY + l.videoSize / 2.0 == h / 2.0 - VideoLift
    ensures 0.0 <= l.videoX && l.videoX + l.videoSize <= w
    ensures l.textW == TextScale * tw && l.textH == TextScale * th
    ensures l.textX + l.textW / 2.0 == w / 2.0
    ensures l.textY == l.videoY + l.videoSize + TextGap
  {
    var videoSize := Min(w, h) * 0.5;
    var relX := w / 2.0 - videoSize / 2.0;
    var relY := h / 2.0 - videoSize / 2.0 - VideoLift;
    var textW := tw * TextScale;
    var textH := th * TextScale;
    Layout(videoSize, relX, relY, w / 2.0 - textW / 2.0, relY + videoSize + TextGap, textW, textH)
  }

  /** The fresh ids `createPlaceholderShape` draws. */
  datatype FreshIds = FreshIds(box: ShapeId, video: ShapeId, text: ShapeId,
                               videoAsset: AssetId, textAsset: AssetId)

  /** The id is used by no shape and by no registry entry. */
  predicate Unused(st: State, id: ShapeId) {
    && id !in st.ed.shapes
    && id !in st.reg.videoShapeIds.Keys && id !in st.reg.videoShapeIds.Values
    && id !in st.reg.textImageShapeIds.Keys && id !in st.reg.textImageShapeIds.Values
  }

  /** The three shape ids are distinct and unused. */
  predicate FreshFor(st: State, ids: FreshIds) {
    && Unused(st, ids.box) && Unused(st, ids.video) && Unused(st, ids.text)
    && ids.box != ids.video && ids.box != ids.text && ids.video != ids.text
  }

  /** The grey box. */
  function GreyBox(id: ShapeId, x: real, y: real, w: Len, h: Len): Shape {
    Shape(id, Geo, x, y, w, h, None, None, None)
  }

  /** `createPlaceholderShape`. The grey box is created first and its id
      is always returned. The video (fetched from the picked loading
      animation, `pick` standing for `Math.random`) is added when it
      loads; a failed fetch, read or decode rejects, and the catch keeps
      what was created so far without reporting it. `textImage` is the
      measured "Morphing..." image, or `None` when `createTextImage`
      throws (no 2D context); the text child is then left out in the same
      way. A text image that fails to load never settles, which the model
      does not represent. Each child is registered only once it exists,
      so a text entry implies a video entry. */
  function CreatePlaceholderShape(
    st: State, x: real, y: real, w: Len, h: Len,
    ids: FreshIds, pick: nat,
    fetchVideo: string -> Option<Media>, textImage: Option<LoadedMedia>): (r: (State, ShapeId))
    requires pick < |LoadingVideos|
    requires FreshFor(st, ids)
    ensures r.1 == ids.box
    ensures ids.box in r.0.ed.shapes && r.0.ed.shapes[ids.box] == GreyBox(ids.box, x, y, w, h)
    ensures RegistryInvariant(st.reg) ==> RegistryInvariant(r.0.reg)
    ensures WellFormed(st.ed) ==> WellFormed(r.0.ed)
    ensures forall id :: id in st.ed.shapes && id !in {ids.box, ids.video, ids.text} ==>
              id in r.0.ed.shapes && r.0.ed.shapes[id] == st.ed.shapes[id]
    ensures r.0.ed.shapes.Keys == st.ed.shapes.Keys + PlaceholderFamily(r.0.reg, ids.box)
    ensures forall k :: k != ids.box ==>
              (k in r.0.reg.videoShapeIds <==> k in st.reg.videoShapeIds)
              && (k in r.0.reg.videoShapeIds ==> r.0.reg.videoShapeIds[k] == st.reg.videoShapeIds[k])
              && (k in r.0.reg.textImageShapeIds <==> k in st.reg.textImageShapeIds)
              && (k in r.0.reg.textImageShapeIds ==> r.0.reg.textImageShapeIds[k] == st.reg.textImageShapeIds[k])
    ensures fetchVideo(LoadingVideos[pick]).None? ==>
              r.0.ed.shapes == st.ed.shapes[ids.box := GreyBox(ids.box, x, y, w, h)]
              && r.0.reg == st.reg
    ensures ids.box in r.0.reg.videoShapeIds ==> r.0.reg.videoShapeIds[ids.box] == ids.video
    ensures ids.box in r.0.reg.textImageShapeIds ==> r.0.reg.textImageShapeIds[ids.box] == ids.text
    ensures ids.box in r.0.reg.videoShapeIds <==> fetchVideo(LoadingVideos[pick]).Some?
    ensures ids.box in r.0.reg.textImageShapeIds <==> fetchVideo(LoadingVideos[pick]).Some? && textImage.Some?
    ensures ids.box in r.0.reg.videoShapeIds ==>
              ids.video in r.0.ed.shapes
              && r.0.ed.shapes[ids.video].kind == Video
              && r.0.ed.shapes[ids.video].parent == Some(ids.box)
              && r.0.ed.shapes[ids.video].w == r.0.ed.shapes[ids.video].h
    ensures ids.box in r.0.reg.textImageShapeIds ==>
              ids.text in r.0.ed.shapes
              && r.0.ed.shapes[ids.text].kind == Image
              && r.0.ed.shapes[ids.text].parent == Some(ids.box)
  {
    var box := GreyBox(ids.box, x, y, w, h);
    var ed1 := CreateShape(st.ed, box);
    match fetchVideo(LoadingVideos[pick])
    case None => (State(ed1, st.reg), ids.box)
    case Some(video) =>
      var ed2 := CreateAsset(ed1, ids.videoAsset,
        Asset(VideoAsset, "loading-animation", video.dataUrl, video.w, video.h, "video/mp4", false));
      var tw: Len := if textImage.Some? then textImage.value.w else 0.0;
      var th: Len := if textImage.Some? then textImage.value.h else 0.0;
      var l := InteriorLayout(w, h, tw, th);
      var ed3 := CreateShape(ed2, Shape(ids.video, Video, l.videoX, l.videoY, l.videoSize, l.videoSize,
                                        Some(ids.box), Some(ids.videoAsset), None));
      var reg1 := st.reg.(videoShapeIds := st.reg.videoShapeIds[ids.box := ids.video]);
      match textImage
      case None => (State(ed3, reg1), ids.box)
      case Some(text) =>
        var ed4 := CreateAsset(ed3, ids.textAsset,
          Asset(ImageAsset, "morphing-text", text.dataUrl, text.w, text.h, "image/png", false));
        var ed5 := CreateShape(ed4, Shape(ids.text, Image, l.textX, l.textY, l.textW, l.textH,
                                          Some(ids.box), Some(ids.textAsset), None));
        (State(ed5, reg1.(textImageShapeIds := reg1.textImageShapeIds[ids.box := ids.text])), ids.box)
  }

  /** The shapes `deletePlaceholderShape` removes for a box: its
      registered video and text children and the box itself. */
  function PlaceholderFamily(reg: Registry, box: ShapeId): set<ShapeId> {
    {box}
    + (if box in reg.videoShapeIds then {reg.videoShapeIds[box]} else {})
    + (if box in reg.textImageShapeIds then {reg.textImageShapeIds[box]} else {})
  }

  /** Deletes the shape when it is on the canvas; otherwise nothing. */
  function DeleteIfPresent(ed: Editor, id: ShapeId): (r: Editor)
    ensures r.shapes.Keys == ed.shapes.Keys - {id}
    ensures forall k :: k in r.shapes ==> r.shapes[k] == ed.shapes[k]
    ensures r.assets == ed.assets
  {
    if id in ed.shapes then DeleteShape(ed, id) else ed
  }

  /** `deletePlaceholderShape`: the registered video, then the registered
      text, then the box, each only if it is on the canvas; both registry
      entries of the box are dropped. Every other shape, every asset and
      every other registry entry is untouched. Nothing here can fail, so
      the source's swallowing of errors has nothing to swallow. */
  function DeletePlaceholderShape(st: State, box: ShapeId): (r: State)
    ensures box !in r.reg.videoShapeIds && box !in r.reg.textImageShapeIds
    ensures forall k :: k != box ==>
              (k in r.reg.videoShapeIds <==> k in st.reg.videoShapeIds)
              && (k in r.reg.videoShapeIds ==> r.reg.videoShapeIds[k] == st.reg.videoShapeIds[k])
              && (k in r.reg.textImageShapeIds <==> k in st.reg.textImageShapeIds)
              && (k in r.reg.textImageShapeIds ==> r.reg.textImageShapeIds[k] == st.reg.textImageShapeIds[k])
    ensures r.ed.shapes.Keys == st.ed.shapes.Keys - PlaceholderFamily(st.reg, box)
    ensures forall k :: k in r.ed.shapes ==> r.ed.shapes[k] == st.ed.shapes[k]
    ensures r.ed.assets == st.ed.assets
    ensures RegistryInvariant(st.reg) ==> RegistryInvariant(r.reg)
    ensures WellFormed(st.ed) ==> WellFormed(r.ed)
  {
    var afterVideo :=
      if box in st.reg.videoShapeIds then
        State(DeleteIfPresent(st.ed, st.reg.videoShapeIds[box]),
              st.reg.(videoShapeIds := st.reg.videoShapeIds - {box}))
      else st;
    var afterText :=
      if box in afterVideo.reg.textImageShapeIds then
        State(DeleteIfPresent(afterVideo.ed, afterVideo.reg.textImageShapeIds[box]),
              afterVideo.reg.(textImageShapeIds := afterVideo.reg.textImageShapeIds - {box}))
      else afterVideo;
    afterText.(ed := DeleteIfPresent(afterText.ed, box))
  }

  /** Deleting the same placeholder twice is the same as deleting it once. */
  lemma DeleteIdempotent(st: State, box: ShapeId)
    ensures DeletePlaceholderShape(DeletePlaceholderShape(st, box), box) == DeletePlaceholderShape(st, box)
  {
    var once := DeletePlaceholderShape(st, box);
    assert PlaceholderFamily(once.reg, box) == {box};
    assert DeletePlaceholderShape(once, box).ed.shapes == once.ed.shapes;
    assert DeletePlaceholderShape(once, box).reg == once.reg;
  }

  /** A box that is neither registered nor on the canvas is tolerated:
      nothing changes. */
  lemma DeleteMissingIsNoOp(st: State, box: ShapeId)
    requires box !in st.ed.shapes && box !in st.reg.videoShapeIds && box !in st.reg.textImageShapeIds
    ensures DeletePlaceholderShape(st, box) == st
  {
    assert DeletePlaceholderShape(st, box).ed.shapes == st.ed.shapes;
  }

  /** Creating a placeholder with fresh ids and deleting it again leaves
      the shapes and the registries as they were (the assets created for
      the video and the text stay). */
  lemma CreateThenDeleteRestores(
    st: State, x: real, y: real, w: Len, h: Len,
    ids: FreshIds, pick: nat,
    fetchVideo: string -> Option<Media>, textImage: Option<LoadedMedia>)
    requires pick < |LoadingVideos|
    requires FreshFor(st, ids)
    ensures var created := CreatePlaceholderShape(st, x, y, w, h, ids, pick, fetchVideo, textImage).0;
            DeletePlaceholderShape(created, ids.box).ed.shapes == st.ed.shapes
            && DeletePlaceholderShape(created, ids.box).reg == st.reg
  {
    var created := CreatePlaceholderShape(st, x, y, w, h, ids, pick, fetchVideo, textImage).0;
    var family := PlaceholderFamily(created.reg, ids.box);
    assert family <= {ids.box, ids.video, ids.text};
    assert family !! st.ed.shapes.Keys;
    DeleteUndoesShapeGrowth(st, created, ids.box);
    DeleteUndoesRegistryGrowth(st.reg, created, ids.box);
  }

  /** Deleting a box undoes any growth that added exactly the box's
      family to the canvas. */
  lemma DeleteUndoesShapeGrowth(base: State, grown: State, box: ShapeId)
    requires grown.ed.shapes.Keys == base.ed.shapes.Keys + PlaceholderFamily(grown.reg, box)
    requires PlaceholderFamily(grown.reg, box) !! base.ed.shapes.Keys
    requires forall k :: k in base.ed.shapes ==> grown.ed.shapes[k] == base.ed.shapes[k]
    ensures DeletePlaceholderShape(grown, box).ed.shapes == base.ed.shapes
  {
    assert DeletePlaceholderShape(grown, box).ed.shapes.Keys == base.ed.shapes.Keys;
  }

  /** Deleting a box undoes any growth that added only the box's entries
      to the registries. */
  lemma DeleteUndoesRegistryGrowth(base: Registry, grown: State, box: ShapeId)
    requires box !in base.videoShapeIds && box !in base.textImageShapeIds
    requires forall k :: k != box ==>
               (k in grown.reg.videoShapeIds <==> k in base.videoShapeIds)
               && (k in grown.reg.videoShapeIds ==> grown.reg.videoShapeIds[k] == base.videoShapeIds[k])
               && (k in grown.reg.textImageShapeIds <==> k in base.textImageShapeIds)
               && (k in grown.reg.textImageShapeIds ==> grown.reg.textImageShapeIds[k] == base.textImageShapeIds[k])
    ensures DeletePlaceholderShape(grown, box).reg == base
  {
    var deleted := DeletePlaceholderShape(grown, box).reg;
    assert deleted.videoShapeIds.Keys == base.videoShapeIds.Keys;
    assert deleted.textImageShapeIds.Keys == base.textImageShapeIds.Keys;
  }
  /** Every entry of `small` is an entry of `big`. */
  predicate RegistryWithin(small: Registry, big: Registry) {
    && small.videoShapeIds.Keys <= big.videoShapeIds.Keys
    && small.videoShapeIds.Values <= big.videoShapeIds.Values
    && small.textImageShapeIds.Keys <= big.textImageShapeIds.Keys
    && small.textImageShapeIds.Values <= big.textImageShapeIds.Values
  }

  /** Deleting a placeholder never registers anything: the registries
      after it are within the registries before it, and an id that was
      unused stays unused unless it is the box itself. */
  lemma DeleteShrinksRegistry(st: State, box: ShapeId, id: ShapeId)
    ensures RegistryWithin(DeletePlaceholderShape(st, box).reg, st.reg)
    ensures Unused(st, id) ==> Unused(DeletePlaceholderShape(st, box), id)
  {
    var r := DeletePlaceholderShape(st, box).reg;
    forall v | v in r.videoShapeIds.Values
      ensures v in st.reg.videoShapeIds.Values
    {
      var k :| k in r.videoShapeIds && r.videoShapeIds[k] == v;
      assert st.reg.videoShapeIds[k] == v;
    }
    forall v | v in r.textImageShapeIds.Values
      ensures v in st.reg.textImageShapeIds.Values
    {
      var k :| k in r.textImageShapeIds && r.textImageShapeIds[k] == v;
      assert st.reg.textImageShapeIds[k] == v;
    }
  }

  /** Creating a placeholder uses only its own three ids: any other id
      that was unused stays unused. */
  lemma CreateKeepsOthersUnused(
    st: State, x: real, y: real, w: Len, h: Len,
    ids: FreshIds, pick: nat,
    fetchVideo: string -> Option<Media>, textImage: Option<LoadedMedia>, id: ShapeId)
    requires pick < |LoadingVideos|
    requires FreshFor(st, ids)
    requires Unused(st, id) && id != ids.box && id != ids.video && id != ids.text
    ensures Unused(CreatePlaceholderShape(st, x, y, w, h, ids, pick, fetchVideo, textImage).0, id)
  {
    var r := CreatePlaceholderShape(st, x, y, w, h, ids, pick, fetchVideo, textImage).0;
    forall k | k in r.reg.videoShapeIds
      ensures r.reg.videoShapeIds[k] != id
    {
      if k != ids.box {
        assert st.reg.videoShapeIds[k] in st.reg.videoShapeIds.Values;
      }
    }
    forall k | k in r.reg.textImageShapeIds
      ensures r.reg.textImageShapeIds[k] != id
    {
      if k != ids.box {
        assert st.reg.textImageShapeIds[k] in st.reg.textImageShapeIds.Values;
      }
    }
  }
}

=== FILE: placeimage.dfy ===
/** `placeImageOnCanvas`: a generated image is loaded, stored as an asset
    and placed either where a placeholder was or to the right of the
    reference shape, fitted to the reference's size
    (app/lib/placeImageOnCanvas.ts). */
module PlaceImage {
  import opened Wrappers
  import opened Geometry
  import opened Canvas
  import opened Placeholder

  /** The state an asynchronous helper leaves behind together with what it
      returned or threw: a throw after a change to the canvas keeps the
      change. */
  datatype Step<T> = Step(st: State, result: Result<T>)

  const NoBoundsError: string := "Could not get bounds of reference shape. The shape may have been deleted."
  const LoadError: string := "Failed to load image from URL"
  const PlaceholderMissingError: string := "Placeholder shape not found"

  /** The horizontal gap between the reference and a new image beside it. */
  const RightGap: real := 60.0

  /** The fresh shape id and asset id the helper draws. */
  datatype PlaceIds = PlaceIds(shape: ShapeId, asset: AssetId)

  /** An optional id given as a JavaScript value: present and not empty. */
  predicate IdGiven(id: Option<ShapeId>) {
    id.Some? && id.value != ""
  }

  /** `overrideBounds || editor.getShapePageBounds(referenceShape)`. */
  function ResolveBounds(ed: Editor, reference: ShapeId, overrideBounds: Option<PageBounds>): (r: Option<PageBounds>)
    requires overrideBounds.Some? ==> Consistent(overrideBounds.value)
    ensures overrideBounds.Some? ==> r == overrideBounds
    ensures overrideBounds.None? ==> (r.Some? <==> reference in ed.shapes)
    ensures r.Some? ==> Consistent(r.value)
  {
    if overrideBounds.Some? then overrideBounds else GetShapePageBounds(ed, reference)
  }

  /** The asset record of a generated image. */
  function GeneratedImageAsset(m: LoadedMedia): Asset {
    Asset(ImageAsset, "generated-image", m.dataUrl, m.w, m.h, "image/jpeg", false)
  }

  /** The image or video shape that shows a generated asset, recording
      the prompt (`prompt || ''`). */
  function GeneratedShape(kind: ShapeKind, id: ShapeId, x: real, y: real, size: Size, asset: AssetId, prompt: Option<string>): Shape {
    Shape(id, kind, x, y, size.width, size.height, None, Some(asset), Some(prompt.GetOr("")))
  }

  /** The fitted size of a loaded image inside bounds. */
  function FittedSize(m: LoadedMedia, b: PageBounds): (r: Size)
    requires Consistent(b)
    ensures r.width <= b.width && r.height <= b.height
    ensures r.width * m.h == r.height * m.w
    ensures r.width == b.width || r.height == b.height
  {
    AspectRatioFit(m.w, m.h, b.width, b.height)
  }

  /** `placeImageOnCanvas`. `load` stands for fetching the URL, reading it
      as a data URL and decoding it; it yields nothing when any of those
      fails. Missing bounds and a failed load throw before any change; the
      asset is created before the placeholder is looked up, so a missing
      placeholder throws with the asset already stored. */
  function PlaceImageOnCanvas(
    st: State, imageUrl: string, reference: ShapeId, prompt: Option<string>,
    placeholder: Option<ShapeId>, overrideBounds: Option<PageBounds>,
    ids: PlaceIds, load: string -> Option<LoadedMedia>): (r: Step<ShapeId>)
    requires overrideBounds.Some? ==> Consistent(overrideBounds.value)
    requires Unused(st, ids.shape)
    ensures ResolveBounds(st.ed, reference, overrideBounds).None? ==> r == Step(st, Failure(NoBoundsError))
    ensures ResolveBounds(st.ed, reference, overrideBounds).Some? && load(imageUrl).None? ==>
              r == Step(st, Failure(LoadError))
    ensures r.result.Success? <==>
              ResolveBounds(st.ed, reference, overrideBounds).Some? && load(imageUrl).Some?
              && (!IdGiven(placeholder) || placeholder.value in st.ed.shapes)
    ensures r.result.Success? ==> r.result.value == ids.shape
    ensures ResolveBounds(st.ed, reference, overrideBounds).Some? && load(imageUrl).Some? ==>
              r.st.ed.assets == st.ed.assets[ids.asset := GeneratedImageAsset(load(imageUrl).value)]
    ensures IdGiven(placeholder) && placeholder.value !in st.ed.shapes
            && ResolveBounds(st.ed, reference, overrideBounds).Some? && load(imageUrl).Some? ==>
              r.result == Failure(PlaceholderMissingError)
              && r.st.ed.shapes == st.ed.shapes && r.st.reg == st.reg
    ensures r.result.Success? ==>
              var m := load(imageUrl).value;
              var size := FittedSize(m, ResolveBounds(st.ed, reference, overrideBounds).value);
              && ids.shape in r.st.ed.shapes
              && r.st.ed.shapes[ids.shape].kind == Image
              && r.st.ed.shapes[ids.shape].assetId == Some(ids.asset)
              && r.st.ed.shapes[ids.shape].generatedPrompt == Some(prompt.GetOr(""))
              && r.st.ed.shapes[ids.shape].w == size.width && r.st.ed.shapes[ids.shape].h == size.height
    ensures r.result.Success? && !IdGiven(placeholder) ==>
              r.st.ed.shapes.Keys == st.ed.shapes.Keys + {ids.shape} && r.st.reg == st.reg
    ensures r.result.Success? && IdGiven(placeholder) ==>
              var pb := GetShapePageBounds(st.ed, placeholder.value).value;
              && r.st.ed.shapes.Keys == st.ed.shapes.Keys - PlaceholderFamily(st.reg, placeholder.value) + {ids.shape}
              && r.st.ed.shapes[ids.shape].x == pb.minX && r.st.ed.shapes[ids.shape].y == pb.minY
              && placeholder.value !in r.st.reg.videoShapeIds && placeholder.value !in r.st.reg.textImageShapeIds
    ensures forall k :: k in r.st.ed.shapes && k != ids.shape ==> k in st.ed.shapes && r.st.ed.shapes[k] == st.ed.shapes[k]
    ensures RegistryInvariant(st.reg) ==> RegistryInvariant(r.st.reg)
    ensures WellFormed(st.ed) ==> WellFormed(r.st.ed)
  {
    match ResolveBounds(st.ed, reference, overrideBounds)
    case None => Step(st, Failure(NoBoundsError))
    case Some(b) =>
      match load(imageUrl)
      case None => Step(st, Failure(LoadError))
      case Some(m) =>
        var size := FittedSize(m, b);
        var withAsset := State(CreateAsset(st.ed, ids.asset, GeneratedImageAsset(m)), st.reg);
        if IdGiven(placeholder) then
          var ph := placeholder.value;
          if ph in withAsset.ed.shapes then
            var pb := GetShapePageBounds(withAsset.ed, ph).value;
            var cleared := DeletePlaceholderShape(withAsset, ph);
            var shape := GeneratedShape(Image, ids.shape, pb.minX, pb.minY, size, ids.asset, prompt);
            Step(cleared.(ed := CreateShape(cleared.ed, shape)), Success(ids.shape))
          else
            Step(withAsset, Failure(PlaceholderMissingError))
        else
          var shape := GeneratedShape(Image, ids.shape, b.maxX + RightGap, b.midY - size.height / 2.0, size, ids.asset, prompt);
          Step(withAsset.(ed := CreateShape(withAsset.ed, shape)), Success(ids.shape))
  }

  /** Without a placeholder the new image sits 60 to the right of the
      reference bounds and, being no taller than them and centred on their
      middle, stays within their vertical extent. */
  lemma BesideReferenceWithinItsHeight(
    st: State, imageUrl: string, reference: ShapeId, prompt: Option<string>,
    overrideBounds: Option<PageBounds>, ids: PlaceIds, load: string -> Option<LoadedMedia>)
    requires overrideBounds.Some? ==> Consistent(overrideBounds.value)
    requires Unused(st, ids.shape)
    requires PlaceImageOnCanvas(st, imageUrl, reference, prompt, None, overrideBounds, ids, load).result.Success?
    ensures var b := ResolveBounds(st.ed, reference, overrideBounds).value;
            var s := PlaceImageOnCanvas(st, imageUrl, reference, prompt, None, overrideBounds, ids, load).st.ed.shapes[ids.shape];
            && s.x == b.maxX + RightGap
            && s.y + s.h / 2.0 == b.midY
            && b.minY <= s.y && s.y + s.h <= b.maxY
  {
  }
}

=== FILE: placevariants.dfy ===
/** `placeVariantsOnCanvas`: generated variants are loaded one by one and
    placed in a column below the original image, or where their
    placeholders were (app/lib/placeVariantsOnCanvas.ts). */
module PlaceVariants {
  import opened Wrappers
  import opened JsStrings
  import opened Geometry
  import opened Canvas
  import opened Placeholder
  import opened PlaceImage

  const NoBoundsError: string := "Could not get bounds of original shape."

  /** The vertical space between the original and the first variant and
      between consecutive variants. */
  const VerticalSpacing: real := 40.0

  /** `placeholderShapeIds && placeholderShapeIds[i]` is truthy: an index
      past the end reads `undefined`. */
  predicate PlaceholderGiven(phs: seq<ShapeId>, i: nat) {
    i < |phs| && phs[i] != ""
  }

  /** `prompts && prompts[i] ? prompts[i] : ''`: the i-th prompt, or an
      empty one past the end of the list. */
  function PromptAt(prompts: seq<string>, i: nat): (r: string)
    ensures r == "" || r in prompts
    ensures i < |prompts| ==> r == prompts[i]
    ensures r != "" ==> i < |prompts|
  {
    if i < |prompts| then prompts[i] else ""
  }

  /** The asset record of the variant at index `i`, named from one. */
  function VariantAsset(m: LoadedMedia, i: nat): Asset {
    Asset(ImageAsset, "variant-" + NatToString(i + 1), m.dataUrl, m.w, m.h, "image/jpeg", false)
  }

  /** The set of fresh shape ids. */
  function NewShapeIds(ids: seq<PlaceIds>): set<ShapeId> {
    set j | 0 <= j < |ids| :: ids[j].shape
  }

  /** The ids `createShapeId` and `AssetRecordType.createId` draw, one
      pair per URL: distinct from one another, unused on the canvas and in
      the registries, and never one of the placeholder ids. */
  predicate FreshVariantIds(st: State, ids: seq<PlaceIds>, phs: seq<ShapeId>) {
    && (forall j :: 0 <= j < |ids| ==> Unused(st, ids[j].shape))
    && (forall j, k :: 0 <= j < k < |ids| ==> ids[j].shape != ids[k].shape && ids[j].asset != ids[k].asset)
    && (forall j, k :: 0 <= j < |ids| && 0 <= k < |phs| ==> ids[j].shape != phs[k])
  }

  /** The ids the loop pushes for the first `n` URLs: one per URL that
      loaded, in URL order, whether or not its placeholder was found. */
  function LoadedIds(urls: seq<string>, ids: seq<PlaceIds>, load: string -> Option<LoadedMedia>, n: nat): (r: seq<ShapeId>)
    requires n <= |urls| == |ids|
    ensures |r| <= n
    ensures forall j :: 0 <= j < n && load(urls[j]).Some? ==> ids[j].shape in r
    ensures forall x :: x in r ==> exists j :: 0 <= j < n && load(urls[j]).Some? && ids[j].shape == x
  {
    if n == 0 then []
    else LoadedIds(urls, ids, load, n - 1) + (if load(urls[n - 1]).Some? then [ids[n - 1].shape] else [])
  }

  /** The variant at index `j` goes into the column: it loaded and has no
      placeholder to replace. */
  predicate InColumn(urls: seq<string>, phs: seq<ShapeId>, load: string -> Option<LoadedMedia>, j: nat)
    requires j < |urls|
  {
    load(urls[j]).Some? && !PlaceholderGiven(phs, j)
  }

  /** `currentY` before index `n`: 40 below the original, and 40 below
      each variant placed in the column so far. */
  function StackTop(b: PageBounds, urls: seq<string>, phs: seq<ShapeId>, load: string -> Option<LoadedMedia>, n: nat): real
    requires Consistent(b) && n <= |urls|
  {
    if n == 0 then b.maxY + VerticalSpacing
    else
      StackTop(b, urls, phs, load, n - 1)
      + (if InColumn(urls, phs, load, n - 1) then FittedSize(load(urls[n - 1]).value, b).height + VerticalSpacing else 0.0)
  }

  /** The record placed in the column for index `j`. */
  function ColumnShape(
    b: PageBounds, urls: seq<string>, phs: seq<ShapeId>, prompts: seq<string>,
    ids: seq<PlaceIds>, load: string -> Option<LoadedMedia>, j: nat): Shape
    requires Consistent(b) && j < |urls| == |ids| && load(urls[j]).Some?
  {
    GeneratedShape(Image, ids[j].shape, b.minX, StackTop(b, urls, phs, load, j),
                        FittedSize(load(urls[j]).value, b), ids[j].asset, Some(PromptAt(prompts, j)))
  }

  /** Column entries lie below the original and below one another, each
      40 below the bottom of the previous one or further. */
  lemma {:induction false} ColumnDoesNotOverlap(
    b: PageBounds, urls: seq<string>, phs: seq<ShapeId>, load: string -> Option<LoadedMedia>, j: nat, k: nat)
    requires Consistent(b) && j < k <= |urls|
    ensures b.maxY + VerticalSpacing <= StackTop(b, urls, phs, load, j)
    ensures InColumn(urls, phs, load, j) ==>
              StackTop(b, urls, phs, load, j) + FittedSize(load(urls[j]).value, b).height + VerticalSpacing
              <= StackTop(b, urls, phs, load, k)
  {
    StackAboveOriginal(b, urls, phs, load, j);
    if k == j + 1 {
    } else {
      ColumnDoesNotOverlap(b, urls, phs, load, j, k - 1);
    }
  }

  /** The column never starts above 40 below the original. */
  lemma {:induction false} StackAboveOriginal(
    b: PageBounds, urls: seq<string>, phs: seq<ShapeId>, load: string -> Option<LoadedMedia>, n: nat)
    requires Consistent(b) && n <= |urls|
    ensures b.maxY + VerticalSpacing <= StackTop(b, urls, phs, load, n)
  {
    if n > 0 {
      StackAboveOriginal(b, urls, phs, load, n - 1);
    }
  }

  /** One turn of the loop at index `i`, from state `cur` with the column
      at `y`: a failed load changes nothing; otherwise the asset is stored,
      and the image goes into the column (moving it down) or replaces the
      placeholder when that is still on the canvas. */
  function PlaceOne(
    cur: State, b: PageBounds, y: real, urls: seq<string>, prompts: seq<string>, phs: seq<ShapeId>,
    ids: seq<PlaceIds>, load: string -> Option<LoadedMedia>, i: nat): (r: (State, real))
    requires Consistent(b) && i < |urls| == |ids|
    requires Unused(cur, ids[i].shape)
    ensures load(urls[i]).None? ==> r == (cur, y)
    ensures load(urls[i]).Some? ==>
              r.0.ed.assets == cur.ed.assets[ids[i].asset := VariantAsset(load(urls[i]).value, i)]
    ensures InColumn(urls, phs, load, i) ==>
              r.0.ed.shapes == cur.ed.shapes[ids[i].shape := ColumnShapeAt(b, y, prompts, ids, load(urls[i]).value, i)]
              && r.0.reg == cur.reg
              && r.1 == y + FittedSize(load(urls[i]).value, b).height + VerticalSpacing
    ensures !InColumn(urls, phs, load, i) ==> r.1 == y
    ensures load(urls[i]).Some? && PlaceholderGiven(phs, i) && phs[i] !in cur.ed.shapes ==>
              r.0.ed.shapes == cur.ed.shapes && r.0.reg == cur.reg
    ensures load(urls[i]).Some? && PlaceholderGiven(phs, i) && phs[i] in cur.ed.shapes ==>
              && r.0.ed.shapes.Keys == cur.ed.shapes.Keys - PlaceholderFamily(cur.reg, phs[i]) + {ids[i].shape}
              && r.0.ed.shapes[ids[i].shape].kind == Image
              && r.0.ed.shapes[ids[i].shape].assetId == Some(ids[i].asset)
              && r.0.ed.shapes[ids[i].shape].generatedPrompt == Some(PromptAt(prompts, i))
              && r.0.ed.shapes[ids[i].shape].w == FittedSize(load(urls[i]).value, b).width
              && r.0.ed.shapes[ids[i].shape].h == FittedSize(load(urls[i]).value, b).height
              && r.0.ed.shapes[ids[i].shape].x == GetShapePageBounds(cur.ed, phs[i]).value.minX
              && r.0.ed.shapes[ids[i].shape].y == GetShapePageBounds(cur.ed, phs[i]).value.minY
    ensures forall k :: k in r.0.ed.shapes && k != ids[i].shape ==> k in cur.ed.shapes && r.0.ed.shapes[k] == cur.ed.shapes[k]
    ensures RegistryWithin(r.0.reg, cur.reg)
    ensures RegistryInvariant(cur.reg) ==> RegistryInvariant(r.0.reg)
    ensures WellFormed(cur.ed) ==> WellFormed(r.0.ed)
  {
    match load(urls[i])
    case None => (cur, y)
    case Some(m) =>
      var size := FittedSize(m, b);
      var withAsset := State(CreateAsset(cur.ed, ids[i].asset, VariantAsset(m, i)), cur.reg);
      if PlaceholderGiven(phs, i) then
        if phs[i] in withAsset.ed.shapes then
          var pb := GetShapePageBounds(withAsset.ed, phs[i]).value;
          var cleared := DeletePlaceholderShape(withAsset, phs[i]);
          DeleteShrinksRegistry(withAsset, phs[i], ids[i].shape);
          var shape := GeneratedShape(Image, ids[i].shape, pb.minX, pb.minY, size, ids[i].asset, Some(PromptAt(prompts, i)));
          (cleared.(ed := CreateShape(cleared.ed, shape)), y)
        else
          (withAsset, y)
      else
        (withAsset.(ed := CreateShape(withAsset.ed, ColumnShapeAt(b, y, prompts, ids, m, i))), y + size.height + VerticalSpacing)
  }

  /** The column record for index `i` at height `y`. */
  function ColumnShapeAt(b: PageBounds, y: real, prompts: seq<string>, ids: seq<PlaceIds>, m: LoadedMedia, i: nat): Shape
    requires Consistent(b) && i < |ids|
  {
    GeneratedShape(Image, ids[i].shape, b.minX, y, FittedSize(m, b), ids[i].asset, Some(PromptAt(prompts, i)))
  }

  /** `placeVariantsOnCanvas`. An empty list returns at once; missing
      bounds of the original throw before any change. Each URL is then
      tried in order: a failed load is skipped; a loaded variant gets its
      asset and either a column slot (left edge on the original's, 40
      below the previous slot) or its placeholder's place. The ids of all
      loaded variants are returned in URL order, including those whose
      placeholder had vanished and which therefore got no shape. */
  method PlaceVariantsOnCanvas(
    st: State, urls: seq<string>, original: ShapeId, prompts: seq<string>, phs: seq<ShapeId>,
    ids: seq<PlaceIds>, load: string -> Option<LoadedMedia>) returns (r: Step<seq<ShapeId>>)
    requires |ids| == |urls|
    requires FreshVariantIds(st, ids, phs)
    ensures urls == [] ==> r == Step(st, Success([]))
    ensures urls != [] && original !in st.ed.shapes ==> r == Step(st, Failure(NoBoundsError))
    ensures r.result.Success? <==> urls == [] || original in st.ed.shapes
    ensures urls != [] && original in st.ed.shapes ==>
              r.result.value == LoadedIds(urls, ids, load, |urls|)
    ensures urls != [] && original in st.ed.shapes ==>
              forall j :: 0 <= j < |urls| && load(urls[j]).Some? ==>
                ids[j].asset in r.st.ed.assets && r.st.ed.assets[ids[j].asset] == VariantAsset(load(urls[j]).value, j)
    ensures urls != [] && original in st.ed.shapes ==>
              forall j :: 0 <= j < |urls| && InColumn(urls, phs, load, j) ==>
                ids[j].shape in r.st.ed.shapes
                && r.st.ed.shapes[ids[j].shape]
                   == ColumnShape(GetShapePageBounds(st.ed, original).value, urls, phs, prompts, ids, load, j)
    ensures urls != [] && original in st.ed.shapes ==>
              forall j :: 0 <= j < |urls| && load(urls[j]).Some? && PlaceholderGiven(phs, j) ==>
                phs[j] !in r.st.ed.shapes
    ensures forall j :: 0 <= j < |urls| && load(urls[j]).None? ==> ids[j].shape !in r.st.ed.shapes
    ensures forall k :: k in r.st.ed.shapes && k !in NewShapeIds(ids) ==>
              k in st.ed.shapes && r.st.ed.shapes[k] == st.ed.shapes[k]
    ensures RegistryWithin(r.st.reg, st.reg)
    ensures RegistryInvariant(st.reg) ==> RegistryInvariant(r.st.reg)
    ensures WellFormed(st.ed) ==> WellFormed(r.st.ed)
  {
    if |urls| == 0 {
      return Step(st, Success([]));
    }
    var bounds := GetShapePageBounds(st.ed, original);
    if bounds.None? {
      return Step(st, Failure(NoBoundsError));
    }
    var b := bounds.value;
    var cur := st;
    var created: seq<ShapeId> := [];
    var y := b.maxY + VerticalSpacing;
    var i := 0;
    while i < |urls|
      invariant 0 <= i <= |urls|
      invariant Progress(st, cur, b, y, created, urls, prompts, phs, ids, load, i)
    {
      ProgressStep(st, cur, b, y, created, urls, prompts, phs, ids, load, i);
      var next := PlaceOne(cur, b, y, urls, prompts, phs, ids, load, i);
      cur, y := next.0, next.1;
      created := created + (if load(urls[i]).Some? then [ids[i].shape] else []);
      i := i + 1;
    }
    return Step(cur, Success(created));
  }

  /** What holds after the first `i` turns of the loop, from `st` to
      `cur`: the ids pushed, the column's next slot, the assets and column
      entries of those turns, the absence of their replaced placeholders
      and of the ids of failed loads, and every other shape untouched. */
  predicate Progress(
    st: State, cur: State, b: PageBounds, y: real, created: seq<ShapeId>, urls: seq<string>, prompts: seq<string>,
    phs: seq<ShapeId>, ids: seq<PlaceIds>, load: string -> Option<LoadedMedia>, i: nat)
    requires Consistent(b) && i <= |urls| == |ids|
  {
    && created == LoadedIds(urls, ids, load, i)
    && y == StackTop(b, urls, phs, load, i)
    && RegistryWithin(cur.reg, st.reg)
    && (RegistryInvariant(st.reg) ==> RegistryInvariant(cur.reg))
    && (WellFormed(st.ed) ==> WellFormed(cur.ed))
    && (forall j :: i <= j < |ids| ==> ids[j].shape !in cur.ed.shapes)
    && (forall j :: 0 <= j < i && load(urls[j]).Some? ==>
          ids[j].asset in cur.ed.assets && cur.ed.assets[ids[j].asset] == VariantAsset(load(urls[j]).value, j))
    && (forall j :: 0 <= j < i && InColumn(urls, phs, load, j) ==>
          ids[j].shape in cur.ed.shapes
          && cur.ed.shapes[ids[j].shape] == ColumnShape(b, urls, phs, prompts, ids, load, j))
    && (forall j :: 0 <= j < i && load(urls[j]).Some? && PlaceholderGiven(phs, j) ==> phs[j] !in cur.ed.shapes)
    && (forall j :: 0 <= j < i && load(urls[j]).None? ==> ids[j].shape !in cur.ed.shapes)
    && (forall k :: k in cur.ed.shapes && k !in NewShapeIds(ids) ==>
          k in st.ed.shapes && cur.ed.shapes[k] == st.ed.shapes[k])
  }

  /** One more turn keeps `Progress`. */
  lemma ProgressStep(
    st: State, cur: State, b: PageBounds, y: real, created: seq<ShapeId>, urls: seq<string>, prompts: seq<string>,
    phs: seq<ShapeId>, ids: seq<PlaceIds>, load: string -> Option<LoadedMedia>, i: nat)
    requires Consistent(b) && i < |urls| == |ids|
    requires FreshVariantIds(st, ids, phs)
    requires Progress(st, cur, b, y, created, urls, prompts, phs, ids, load, i)
    ensures Unused(cur, ids[i].shape)
    ensures var next := PlaceOne(cur, b, y, urls, prompts, phs, ids, load, i);
            Progress(st, next.0, b, next.1, created + (if load(urls[i]).Some? then [ids[i].shape] else []),
                     urls, prompts, phs, ids, load, i + 1)
  {
    assert Unused(st, ids[i].shape);
    var next := PlaceOne(cur, b, y, urls, prompts, phs, ids, load, i);
    StepKeepsEarlier(cur, next.0, st, b, y, urls, prompts, phs, ids, load, i);
    assert ids[i].shape in NewShapeIds(ids);
  }

  /** What one turn keeps of the earlier turns: the earlier column
      entries and assets, and the absence of earlier placeholders and of
      the ids of failed loads. */
  lemma StepKeepsEarlier(
    cur: State, next: State, st: State, b: PageBounds, y: real, urls: seq<string>, prompts: seq<string>,
    phs: seq<ShapeId>, ids: seq<PlaceIds>, load: string -> Option<LoadedMedia>, i: nat)
    requires Consistent(b) && i < |urls| == |ids|
    requires FreshVariantIds(st, ids, phs)
    requires RegistryWithin(cur.reg, st.reg)
    requires Unused(cur, ids[i].shape)
    requires next == PlaceOne(cur, b, y, urls, prompts, phs, ids, load, i).0
    requires forall j :: 0 <= j < i && InColumn(urls, phs, load, j) ==> ids[j].shape in cur.ed.shapes
    ensures forall j :: 0 <= j < i && InColumn(urls, phs, load, j) ==>
              ids[j].shape in next.ed.shapes && next.ed.shapes[ids[j].shape] == cur.ed.shapes[ids[j].shape]
    ensures forall j :: 0 <= j < |ids| && j != i && ids[j].shape !in cur.ed.shapes ==> ids[j].shape !in next.ed.shapes
    ensures forall j :: 0 <= j < i && ids[j].asset in cur.ed.assets ==>
              ids[j].asset in next.ed.assets && next.ed.assets[ids[j].asset] == cur.ed.assets[ids[j].asset]
    ensures forall j :: 0 <= j < i && PlaceholderGiven(phs, j) && phs[j] !in cur.ed.shapes ==> phs[j] !in next.ed.shapes
  {
    forall j | 0 <= j < i && InColumn(urls, phs, load, j)
      ensures ids[j].shape in next.ed.shapes
    {
      assert Unused(st, ids[j].shape);
      if load(urls[i]).Some? && PlaceholderGiven(phs, i) && phs[i] in cur.ed.shapes {
        assert ids[j].shape != phs[i];
        assert ids[j].shape !in PlaceholderFamily(cur.reg, phs[i]);
      }
    }
  }
}

=== FILE: placevideo.dfy ===
/** `placeVideoOnCanvas`: a generated animation is loaded, stored as a
    video asset and placed either where a placeholder was or below the
    original image, fitted to the original's size
    (app/lib/placeVideoOnCanvas.ts). */
module PlaceVideo {
  import opened Wrappers
  import opened Geometry
  import opened Canvas
  import opened Placeholder
  import opened PlaceImage

  const NoBoundsError: string := "Could not get bounds of original shape."
  const LoadError: string := "Failed to load video from URL"

  /** The vertical space between the original and the video below it. */
  const VerticalSpacing: real := 40.0

  /** The asset record of a generated animation. */
  function GeneratedVideoAsset(m: LoadedMedia): Asset {
    Asset(VideoAsset, "generated-animation", m.dataUrl, m.w, m.h, "video/mp4", true)
  }

  /** `placeVideoOnCanvas`. `load` stands for fetching the URL, reading it
      as a data URL and reading the video's metadata; it yields nothing when
      any of those fails. Missing bounds and a failed load throw before any
      change; a missing placeholder throws once the asset is stored. */
  function PlaceVideoOnCanvas(
    st: State, videoUrl: string, original: ShapeId, prompt: Option<string>,
    placeholder: Option<ShapeId>, ids: PlaceIds, load: string -> Option<LoadedMedia>): (r: Step<ShapeId>)
    requires Unused(st, ids.shape)
    ensures original !in st.ed.shapes ==> r == Step(st, Failure(NoBoundsError))
    ensures original in st.ed.shapes && load(videoUrl).None? ==> r == Step(st, Failure(LoadError))
    ensures r.result.Success? <==>
              original in st.ed.shapes && load(videoUrl).Some?
              && (!IdGiven(placeholder) || placeholder.value in st.ed.shapes)
    ensures r.result.Success? ==> r.result.value == ids.shape
    ensures original in st.ed.shapes && load(videoUrl).Some? ==>
              r.st.ed.assets == st.ed.assets[ids.asset := GeneratedVideoAsset(load(videoUrl).value)]
    ensures IdGiven(placeholder) && placeholder.value !in st.ed.shapes
            && original in st.ed.shapes && load(videoUrl).Some? ==>
              r.result == Failure(PlaceholderMissingError)
              && r.st.ed.shapes == st.ed.shapes && r.st.reg == st.reg
    ensures r.result.Success? ==>
              var size := FittedSize(load(videoUrl).value, GetShapePageBounds(st.ed, original).value);
              && ids.shape in r.st.ed.shapes
              && r.st.ed.shapes[ids.shape].kind == Video
              && r.st.ed.shapes[ids.shape].assetId == Some(ids.asset)
              && r.st.ed.shapes[ids.shape].generatedPrompt == Some(prompt.GetOr(""))
              && r.st.ed.shapes[ids.shape].w == size.width && r.st.ed.shapes[ids.shape].h == size.height
    ensures r.result.Success? && !IdGiven(placeholder) ==>
              var b := GetShapePageBounds(st.ed, original).value;
              && r.st.ed.shapes.Keys == st.ed.shapes.Keys + {ids.shape} && r.st.reg == st.reg
              && r.st.ed.shapes[ids.shape].x == b.minX
              && r.st.ed.shapes[ids.shape].y == b.maxY + VerticalSpacing
    ensures r.result.Success? && IdGiven(placeholder) ==>
              var pb := GetShapePageBounds(st.ed, placeholder.value).value;
              && r.st.ed.shapes.Keys == st.ed.shapes.Keys - PlaceholderFamily(st.reg, placeholder.value) + {ids.shape}
              && r.st.ed.shapes[ids.shape].x == pb.minX && r.st.ed.shapes[ids.shape].y == pb.minY
              && placeholder.value !in r.st.reg.videoShapeIds && placeholder.value !in r.st.reg.textImageShapeIds
    ensures forall k :: k in r.st.ed.shapes && k != ids.shape ==> k in st.ed.shapes && r.st.ed.shapes[k] == st.ed.shapes[k]
    ensures RegistryInvariant(st.reg) ==> RegistryInvariant(r.st.reg)
    ensures WellFormed(st.ed) ==> WellFormed(r.st.ed)
  {
    match GetShapePageBounds(st.ed, original)
    case None => Step(st, Failure(NoBoundsError))
    case Some(b) =>
      match load(videoUrl)
      case None => Step(st, Failure(LoadError))
      case Some(m) =>
        var size := FittedSize(m, b);
        var withAsset := State(CreateAsset(st.ed, ids.asset, GeneratedVideoAsset(m)), st.reg);
        if IdGiven(placeholder) then
          var ph := placeholder.value;
          if ph in withAsset.ed.shapes then
            var pb := GetShapePageBounds(withAsset.ed, ph).value;
            var cleared := DeletePlaceholderShape(withAsset, ph);
            var shape := GeneratedShape(Video, ids.shape, pb.minX, pb.minY, size, ids.asset, prompt);
            Step(cleared.(ed := CreateShape(cleared.ed, shape)), Success(ids.shape))
          else
            Step(withAsset, Failure(PlaceholderMissingError))
        else
          var shape := GeneratedShape(Video, ids.shape, b.minX, b.maxY + VerticalSpacing, size, ids.asset, prompt);
          Step(withAsset.(ed := CreateShape(withAsset.ed, shape)), Success(ids.shape))
  }

  /** Without a placeholder the video lies entirely below the original,
      40 under it, and within the original's horizontal extent. */
  lemma BelowOriginalWithinItsWidth(
    st: State, videoUrl: string, original: ShapeId, prompt: Option<string>,
    ids: PlaceIds, load: string -> Option<LoadedMedia>)
    requires Unused(st, ids.shape)
    requires PlaceVideoOnCanvas(st, videoUrl, original, prompt, None, ids, load).result.Success?
    ensures var b := GetShapePageBounds(st.ed, original).value;
            var s := PlaceVideoOnCanvas(st, videoUrl, original, prompt, None, ids, load).st.ed.shapes[ids.shape];
            && s.y - b.maxY == VerticalSpacing
            && b.minX == s.x && s.x + s.w <= b.maxX
  {
  }
}

=== FILE: selection.dfy ===
/** `detectSelectionType`: which toolbar, if any, the current selection
    calls for (app/lib/detectSelectionType.ts). */
module Selection {
  import opened Canvas
  import opened Sequences

  /** The classifier's three answers: 'none', 'drawings' and 'image'. */
  datatype SelectionKind = NoTool | Drawings | SingleImage

  /** The classifier's result record. */
  datatype SelectionType = SelectionType(kind: SelectionKind, count: nat, shapes: seq<Shape>)

  /** 'draw', 'geo' and 'arrow' shapes count as drawing shapes. */
  predicate IsDrawingKind(k: ShapeKind) {
    k.Draw? || k.Geo? || k.Arrow?
  }

  /** `shapes.filter(s => ['draw', 'geo', 'arrow'].includes(s.type))`: the
      drawing shapes of the selection, in selection order. */
  function DrawingShapes(shapes: seq<Shape>): (r: seq<Shape>)
    ensures IsSubsequence(r, shapes)
    ensures forall i :: 0 <= i < |r| ==> IsDrawingKind(r[i].kind)
    ensures forall i :: 0 <= i < |shapes| && IsDrawingKind(shapes[i].kind) ==> shapes[i] in r
    ensures r == [] <==> forall i :: 0 <= i < |shapes| ==> !IsDrawingKind(shapes[i].kind)
  {
    if shapes == [] then []
    else
      var rest := DrawingShapes(shapes[1..]);
      assert forall i :: 1 <= i < |shapes| ==> shapes[i] == shapes[1..][i - 1];
      if IsDrawingKind(shapes[0].kind) then [shapes[0]] + rest else rest
  }

  /** `shapes.filter(s => s.type === 'image')`: the image shapes of the
      selection, in selection order. */
  function ImageShapes(shapes: seq<Shape>): (r: seq<Shape>)
    ensures IsSubsequence(r, shapes)
    ensures forall i :: 0 <= i < |r| ==> r[i].kind.Image?
    ensures forall i :: 0 <= i < |shapes| && shapes[i].kind.Image? ==> shapes[i] in r
    ensures r == [] <==> forall i :: 0 <= i < |shapes| ==> !shapes[i].kind.Image?
  {
    if shapes == [] then []
    else
      var rest := ImageShapes(shapes[1..]);
      assert forall i :: 1 <= i < |shapes| ==> shapes[i] == shapes[1..][i - 1];
      if shapes[0].kind.Image? then [shapes[0]] + rest else rest
  }

  /** `detectSelectionType`. Drawing shapes with no image give 'drawings'
      (only the drawing shapes are kept); exactly one image with no drawing
      shape gives 'image' (other shape types are ignored); every other
      selection, the empty one included, gives 'none'. In every answer the
      count is the number of shapes, which are taken from the selection in
      order, and 'none' is the answer exactly when no shape is kept. */
  function DetectSelectionType(selected: seq<Shape>): (r: SelectionType)
    ensures r.count == |r.shapes|
    ensures r.kind.NoTool? <==> r.shapes == []
    ensures IsSubsequence(r.shapes, selected)
    ensures selected == [] ==> r == SelectionType(NoTool, 0, [])
    ensures r.kind.Drawings? <==>
              (exists i :: 0 <= i < |selected| && IsDrawingKind(selected[i].kind))
              && (forall i :: 0 <= i < |selected| ==> !selected[i].kind.Image?)
    ensures r.kind.Drawings? ==>
              (forall i :: 0 <= i < |r.shapes| ==> IsDrawingKind(r.shapes[i].kind))
              && (forall i :: 0 <= i < |selected| && IsDrawingKind(selected[i].kind) ==> selected[i] in r.shapes)
    ensures r.kind.SingleImage? <==>
              |ImageShapes(selected)| == 1
              && (forall i :: 0 <= i < |selected| ==> !IsDrawingKind(selected[i].kind))
    ensures r.kind.SingleImage? ==>
              r.count == 1 && r.shapes[0].kind.Image? && r.shapes[0] in selected
  {
    if |selected| == 0 then
      SelectionType(NoTool, 0, [])
    else
      var drawings := DrawingShapes(selected);
      var images := ImageShapes(selected);
      SubsequenceMembers(images, selected);
      if |drawings| > 0 && |images| == 0 then
        SelectionType(Drawings, |drawings|, drawings)
      else if |images| == 1 && |drawings| == 0 then
        SelectionType(SingleImage, 1, images)
      else
        SelectionType(NoTool, 0, [])
  }
}

=== FILE: sequences.dfy ===
/** Subsequences: what is left of a sequence after some elements are
    dropped, in the original order. */
module Sequences {

  /** `a` is `b` with zero or more elements left out, order kept. */
  predicate IsSubsequence<T(==)>(a: seq<T>, b: seq<T>) {
    if a == [] then true
    else if b == [] then false
    else (a[0] == b[0] && IsSubsequence(a[1..], b[1..])) || IsSubsequence(a, b[1..])
  }

  /** Every element of a subsequence is an element of the whole. */
  lemma {:induction false} SubsequenceMembers<T>(a: seq<T>, b: seq<T>)
    requires IsSubsequence(a, b)
    ensures forall x :: x in a ==> x in b
  {
    if a != [] && b != [] {
      if a[0] == b[0] && IsSubsequence(a[1..], b[1..]) {
        SubsequenceMembers(a[1..], b[1..]);
        assert forall x :: x in a ==> x == a[0] || x in a[1..];
        assert forall x :: x in b[1..] ==> x in b;
      } else {
        SubsequenceMembers(a, b[1..]);
        assert forall x :: x in b[1..] ==> x in b;
      }
    }
  }

  /** A subsequence is never longer than the whole. */
  lemma {:induction false} SubsequenceLength<T>(a: seq<T>, b: seq<T>)
    requires IsSubsequence(a, b)
    ensures |a| <= |b|
  {
    if a != [] && b != [] {
      if a[0] == b[0] && IsSubsequence(a[1..], b[1..]) {
        SubsequenceLength(a[1..], b[1..]);
      } else {
        SubsequenceLength(a, b[1..]);
      }
    }
  }

  /** The elements `keep` accepts, in their original order. */
  function Filter<T(!new)>(s: seq<T>, keep: T -> bool): (r: seq<T>)
    ensures IsSubsequence(r, s)
    ensures forall i :: 0 <= i < |r| ==> keep(r[i])
    ensures forall i :: 0 <= i < |s| && keep(s[i]) ==> s[i] in r
    ensures r == [] <==> forall i :: 0 <= i < |s| ==> !keep(s[i])
  {
    if s == [] then []
    else
      var rest := Filter(s[1..], keep);
      assert forall i :: 1 <= i < |s| ==> s[i] == s[1..][i - 1];
      if keep(s[0]) then [s[0]] + rest else rest
  }

  /** `Filter` keeps duplicates: an accepted value occurs in the result
      exactly as often as in the input, a rejected one not at all. */
  lemma {:induction false} FilterCounts<T(!new)>(s: seq<T>, keep: T -> bool)
    ensures forall x :: multiset(Filter(s, keep))[x] == if keep(x) then multiset(s)[x] else 0
  {
    if s != [] {
      FilterCounts(s[1..], keep);
      assert s == [s[0]] + s[1..];
      assert multiset(s) == multiset{s[0]} + multiset(s[1..]);
    }
  }
}

=== FILE: singleimagetool.dfy ===
/** The single-image panel: the mode buttons that open the variants or
    the animation section, when the generated video is shown, and the
    animation request with its checks (app/components/tools/SingleImageTool.tsx).
    Its variant list and variant generation are those of `VariantList` and
    `VariantsTool`. */
module SingleImageTool {
  import opened Wrappers
  import opened JsStrings
  import opened JsValues
  import opened Canvas
  import opened ClientFlow
  import opened VariantList
  import ExtractImage

  /** `ActionMode`. */
  datatype Mode = NoMode | VariantsMode | AnimationMode

  /** The panel's state. */
  datatype Panel = Panel(mode: Mode, variants: seq<Variant>, generating: bool, videoUrl: JsValue, animationPrompt: string)

  const InitialAnimationPrompt: string := "smooth animation sequence, character movement, consistent style, natural motion"

  /** The animation prompt input's `maxLength`. */
  const AnimationPromptMaxLength: nat := 200

  /** The state the panel starts in. */
  const InitialPanel: Panel := Panel(NoMode, InitialVariants, false, Null, InitialAnimationPrompt)

  /** `generatedVideoUrl && !isGenerating && activeMode === 'animation'`. */
  predicate ShowVideoResult(p: Panel): (r: bool)
    ensures r ==> p.mode == AnimationMode && !p.generating
    ensures r ==> !p.videoUrl.Null? && !p.videoUrl.Undefined? && p.videoUrl != Str("")
    ensures p.mode == AnimationMode && !p.generating && p.videoUrl.Str? && p.videoUrl.s != "" ==> r
  {
    Truthy(p.videoUrl) && !p.generating && p.mode == AnimationMode
  }

  /** The panel starts with no section open, one empty variant, nothing
      running and no video, and its animation prompt fits the input. */
  lemma InitialPanelState()
    ensures InitialPanel.mode == NoMode && !InitialPanel.generating
    ensures WithinLimits(InitialPanel.variants) && PromptsFitInput(InitialPanel.variants)
    ensures !ShowVideoResult(InitialPanel)
    ensures |InitialPanel.animationPrompt| <= AnimationPromptMaxLength
  {
    InitialWithinLimits();
  }

  /** `handleVariantsClick`: closes the variants section when it is open;
      otherwise opens it and forgets the generated video. */
  function VariantsClick(p: Panel): (r: Panel)
    ensures r.mode == VariantsMode <==> p.mode != VariantsMode
    ensures r.mode != VariantsMode ==> r.mode == NoMode && r.videoUrl == p.videoUrl
    ensures r.mode == VariantsMode ==> r.videoUrl == Null
    ensures r.variants == p.variants && r.generating == p.generating && r.animationPrompt == p.animationPrompt
  {
    if p.mode == VariantsMode then p.(mode := NoMode) else p.(mode := VariantsMode, videoUrl := Null)
  }

  /** `handleAnimationClick`: closes the animation section when it is
      open; otherwise opens it, keeping any generated video. */
  function AnimationClick(p: Panel): (r: Panel)
    ensures r.mode == AnimationMode <==> p.mode != AnimationMode
    ensures r.mode != AnimationMode ==> r.mode == NoMode
    ensures r.videoUrl == p.videoUrl
    ensures r.variants == p.variants && r.generating == p.generating && r.animationPrompt == p.animationPrompt
  {
    if p.mode == AnimationMode then p.(mode := NoMode) else p.(mode := AnimationMode)
  }

  /** The variants button never shows the video: after it the video is
      hidden, and gone altogether once the variants section is open. Only
      the mode and the video change. */
  lemma VariantsClickHidesVideo(p: Panel)
    ensures !ShowVideoResult(VariantsClick(p))
    ensures VariantsClick(p).mode == VariantsMode ==> !Truthy(VariantsClick(p).videoUrl)
    ensures VariantsClick(p).mode != p.mode
    ensures VariantsClick(p).(mode := p.mode, videoUrl := p.videoUrl) == p
  {
  }

  /** The animation button keeps the video, the list, the prompt and the
      running flag; it only moves the mode. */
  lemma AnimationClickKeepsVideo(p: Panel)
    ensures AnimationClick(p).videoUrl == p.videoUrl
    ensures AnimationClick(p).mode != p.mode
    ensures AnimationClick(p).(mode := p.mode) == p
  {
  }

  /** Closing and reopening the animation section gives back the same
      panel, video included. */
  lemma AnimationClickTwice(p: Panel)
    requires p.mode != VariantsMode
    ensures AnimationClick(AnimationClick(p)) == p
    ensures ShowVideoResult(AnimationClick(AnimationClick(p))) == ShowVideoResult(p)
  {
  }

  /** Closing and reopening the variants section gives back the same
      panel except for the video, which is forgotten. */
  lemma VariantsClickTwice(p: Panel)
    requires p.mode != AnimationMode
    ensures VariantsClick(VariantsClick(p)) == p.(videoUrl := Null)
  {
  }

  /** Leaving the animation section for the variants section and coming
      back does not bring the video back. */
  lemma VideoLostThroughVariants(p: Panel)
    requires p.mode == AnimationMode
    ensures !ShowVideoResult(AnimationClick(VariantsClick(p)))
    ensures AnimationClick(VariantsClick(p)).mode == AnimationMode
  {
  }

  const FalKeyRequiredTitle: string := "FAL API Key Required"
  const KeyRequiredDescription: string := "Please enter your fal.ai API key"
  const NoImageTitle: string := "No image found"
  const NoAssetIdDescription: string := "Image shape has no assetId"
  const NoAssetDescription: string := "Could not find image asset"
  const NoSourceDescription: string := "Image has no source URL"
  const AnimationFailedTitle: string := "Animation failed"
  const AnimationReadyTitle: string := "Animation ready!"
  const AnimationReadyDescription: string := "Video generated with Sora 2"

  /** The body the panel posts: the image's source, the animation prompt,
      fixed duration and format settings, the fal key as `falApiKey` and
      the OpenAI key or `null`. */
  function AnimationRequestBody(imageUrl: string, prompt: string, falApiKey: string, openaiApiKey: Option<string>): (r: JsValue)
    ensures r.Obj? && "imageUrl" in r.fields && r.fields["imageUrl"] == Str(imageUrl)
    ensures "falApiKey" in r.fields && r.fields["falApiKey"] == Str(falApiKey)
    ensures "prompt" in r.fields && r.fields["prompt"] == Str(prompt)
    ensures "imageUrls" !in r.fields && "apiKey" !in r.fields
  {
    Obj(map[
      "imageUrl" := Str(imageUrl),
      "prompt" := Str(prompt),
      "duration" := Str("4"),
      "aspectRatio" := Str("auto"),
      "resolution" := Str("auto"),
      "falApiKey" := Str(falApiKey),
      "openaiApiKey" := if openaiApiKey.Some? then Str(openaiApiKey.value) else Null])
  }

  /** `openaiInput.value.length > 0 ? openaiInput.value : null`. */
  function OpenAiKey(value: string): Option<string> {
    if |value| > 0 then Some(value) else None
  }

  /** The toast description for a failed asset check. */
  function NoImageDescription(error: string): string {
    if error == ExtractImage.NoAssetIdError then NoAssetIdDescription
    else if error == ExtractImage.NoAssetError then NoAssetDescription
    else NoSourceDescription
  }

  /** The panel after an animation request and the toast shown. */
  datatype Animated = Animated(panel: Panel, toast: Toast)

  /** `handleGenerateAnimation`. `falKey` is the fal key input's value
      (absent when there is no input), `openaiInput` the OpenAI key input's
      value (absent when there is no such input, in which case reading it
      throws), `assetId` the selected image's asset id, and `api` stands for
      posting the body and parsing the reply. A missing fal key stops
      before anything runs; every later stop — a thrown error, a missing
      asset id, asset or source, a failed reply — leaves the panel not
      generating. The video URL changes only on success, to the reply's
      `videoUrl`; the mode, the list and the prompt never change. */
  function HandleGenerateAnimation(
    p: Panel, falKey: Option<string>, openaiInput: Option<string>,
    assetId: Option<AssetId>, assets: map<AssetId, Asset>, api: JsValue -> Result<JsValue>): (r: Animated)
    ensures !KeyPresent(falKey) ==> r == Animated(p, Toast(FalKeyRequiredTitle, Some(KeyRequiredDescription)))
    ensures KeyPresent(falKey) ==> !r.panel.generating
    ensures r.panel.mode == p.mode && r.panel.variants == p.variants && r.panel.animationPrompt == p.animationPrompt
    ensures KeyPresent(falKey) && openaiInput.None? ==>
              r == Animated(p.(generating := false), ErrorToast(NullPropertyError))
    ensures KeyPresent(falKey) && openaiInput.Some? && ExtractImage.CheckAsset(assetId, assets).Failure? ==>
              r == Animated(p.(generating := false),
                            Toast(NoImageTitle, Some(NoImageDescription(ExtractImage.CheckAsset(assetId, assets).error))))
    ensures r.toast.title == AnimationReadyTitle <==>
              && KeyPresent(falKey) && openaiInput.Some? && ExtractImage.CheckAsset(assetId, assets).Success?
              && var call := api(AnimationRequestBody(ExtractImage.CheckAsset(assetId, assets).value, p.animationPrompt,
                                                      falKey.value, OpenAiKey(openaiInput.value)));
                 call.Success? && ResponseFailed(call.value) == Success(false)
    ensures r.toast.title == AnimationReadyTitle ==>
              var call := api(AnimationRequestBody(ExtractImage.CheckAsset(assetId, assets).value, p.animationPrompt,
                                                   falKey.value, OpenAiKey(openaiInput.value)));
              r.panel.videoUrl == Property(call.value, "videoUrl").value
    ensures r.toast.title != AnimationReadyTitle ==> r.panel.videoUrl == p.videoUrl
    ensures KeyPresent(falKey) && openaiInput.Some? && ExtractImage.CheckAsset(assetId, assets).Success? ==>
              var call := api(AnimationRequestBody(ExtractImage.CheckAsset(assetId, assets).value, p.animationPrompt,
                                                   falKey.value, OpenAiKey(openaiInput.value)));
              call.Success? && ResponseFailed(call.value) == Success(true) ==>
                r.toast == Toast(AnimationFailedTitle, Some(FailureDescription(call.value)))
  {
    if !KeyPresent(falKey) then Animated(p, Toast(FalKeyRequiredTitle, Some(KeyRequiredDescription)))
    else if openaiInput.None? then Animated(p.(generating := false), ErrorToast(NullPropertyError))
    else
      var stopped := p.(generating := false);
      match ExtractImage.CheckAsset(assetId, assets)
      case Failure(e) => Animated(stopped, Toast(NoImageTitle, Some(NoImageDescription(e))))
      case Success(imageUrl) =>
        match api(AnimationRequestBody(imageUrl, p.animationPrompt, falKey.value, OpenAiKey(openaiInput.value)))
        case Failure(e) => Animated(stopped, ErrorToast(e))
        case Success(result) =>
          match ResponseFailed(result)
          case Failure(e) => Animated(stopped, ErrorToast(e))
          case Success(failed) =>
            if failed then Animated(stopped, Toast(AnimationFailedTitle, Some(FailureDescription(result))))
            else
              Animated(stopped.(videoUrl := Property(result, "videoUrl").value),
                       Toast(AnimationReadyTitle, Some(AnimationReadyDescription)))
  }

  /** Each failed asset check is reported with its own description. */
  lemma NoImageDescriptionsDistinct()
    ensures NoImageDescription(ExtractImage.NoAssetIdError) == NoAssetIdDescription
    ensures NoImageDescription(ExtractImage.NoAssetError) == NoAssetDescription
    ensures NoImageDescription(ExtractImage.NoSrcError) == NoSourceDescription
  {
    assert ExtractImage.NoSrcError != ExtractImage.NoAssetIdError by {
      assert ExtractImage.NoSrcError[0] == 'I' && ExtractImage.NoSrcError[6] == 'a';
      assert ExtractImage.NoAssetIdError[6] == 's';
    }
    assert ExtractImage.NoSrcError != ExtractImage.NoAssetError by {
      assert ExtractImage.NoSrcError[0] == 'I' && ExtractImage.NoAssetError[0] == 'C';
    }
    assert ExtractImage.NoAssetError != ExtractImage.NoAssetIdError by {
      assert ExtractImage.NoAssetError[0] == 'C' && ExtractImage.NoAssetIdError[0] == 'I';
    }
  }

  /** The checks before the request do not depend on the server: a
      missing key or input, or a failed asset check, gives the same
      outcome whatever the server would answer. */
  lemma NoRequestBeforeChecks(
    p: Panel, falKey: Option<string>, openaiInput: Option<string>,
    assetId: Option<AssetId>, assets: map<AssetId, Asset>,
    api1: JsValue -> Result<JsValue>, api2: JsValue -> Result<JsValue>)
    requires !KeyPresent(falKey) || openaiInput.None? || ExtractImage.CheckAsset(assetId, assets).Failure?
    ensures HandleGenerateAnimation(p, falKey, openaiInput, assetId, assets, api1)
         == HandleGenerateAnimation(p, falKey, openaiInput, assetId, assets, api2)
    ensures HandleGenerateAnimation(p, falKey, openaiInput, assetId, assets, api1).panel.videoUrl == p.videoUrl
  {
  }
}

=== FILE: variantlist.dfy ===
/** The editable list of variant prompts shared by the image-variants panel
    and the single-image tool: add, remove, edit, and the checks made before
    a generation request is sent. */
module VariantList {
  import opened Wrappers
  import opened JsStrings
  import opened Sequences
  import opened ClientFlow

  /** `MAX_VARIANTS`. */
  const MaxVariants: nat := 6

  /** The `maxLength` of each variant's prompt input. */
  const PromptInputMaxLength: nat := 100

  /** One row of the list. */
  datatype Variant = Variant(id: string, prompt: string)

  /** The list a panel starts with. */
  const InitialVariants: seq<Variant> := [Variant("1", "")]

  /** No two rows share an id. Ids come from `String(Date.now())`, fresh
      per click, and never equal the initial row's id '1'. */
  predicate DistinctIds(vs: seq<Variant>) {
    forall i, j :: 0 <= i < j < |vs| ==> vs[i].id != vs[j].id
  }

  /** The state every reachable list is in: between one and six rows with
      distinct ids. */
  predicate WithinLimits(vs: seq<Variant>) {
    1 <= |vs| <= MaxVariants && DistinctIds(vs)
  }

  /** Every prompt fits the prompt input's `maxLength`. */
  predicate PromptsFitInput(vs: seq<Variant>) {
    forall i :: 0 <= i < |vs| ==> |vs[i].prompt| <= PromptInputMaxLength
  }

  /** The id occurs in the list. */
  predicate HasId(vs: seq<Variant>, id: string) {
    exists i :: 0 <= i < |vs| && vs[i].id == id
  }

  const MaxVariantsTitle: string := "Maximum variants reached"

  /** The warning's description, with `MAX_VARIANTS` written out. */
  function MaxVariantsDescription(): string {
    "You can generate up to " + NatToString(MaxVariants) + " variants at once"
  }

  /** The list after `addVariant` and the warning it showed, if any. */
  datatype Added = Added(variants: seq<Variant>, warning: Option<Toast>)

  /** `addVariant`: at six rows or more the list is left alone and the
      'Maximum variants reached' warning is shown; otherwise one row with
      the new id and an empty prompt is appended, the existing rows stay
      as they were, and nothing is shown. */
  function AddVariant(vs: seq<Variant>, newId: string): (r: Added)
    ensures r.warning.Some? <==> |vs| >= MaxVariants
    ensures r.warning.Some? ==> r.variants == vs && r.warning.value == Toast(MaxVariantsTitle, Some(MaxVariantsDescription()))
    ensures r.warning.None? ==> |r.variants| == |vs| + 1 && r.variants[..|vs|] == vs && r.variants[|vs|] == Variant(newId, "")
    ensures |r.variants| <= MaxVariants || r.variants == vs
  {
    if |vs| >= MaxVariants then Added(vs, Some(Toast(MaxVariantsTitle, Some(MaxVariantsDescription()))))
    else Added(vs + [Variant(newId, "")], None)
  }

  /** `variants.filter(v => v.id !== id)`: the rows with another id, in
      their original order. */
  function WithoutId(vs: seq<Variant>, id: string): (r: seq<Variant>)
    ensures IsSubsequence(r, vs)
    ensures forall v :: v in r <==> v in vs && v.id != id
    ensures !HasId(vs, id) ==> r == vs
  {
    if vs == [] then []
    else
      var rest := WithoutId(vs[1..], id);
      assert forall v :: v in vs <==> v == vs[0] || v in vs[1..];
      assert !HasId(vs, id) ==> !HasId(vs[1..], id) by {
        if HasId(vs[1..], id) {
          var i :| 0 <= i < |vs[1..]| && vs[1..][i].id == id;
          assert vs[i + 1].id == id;
        }
      }
      if vs[0].id != id then [vs[0]] + rest else rest
  }

  /** `removeVariant`: a one-row list is left alone; otherwise the rows
      with that id are dropped. */
  function RemoveVariant(vs: seq<Variant>, id: string): (r: seq<Variant>)
    ensures |vs| == 1 ==> r == vs
    ensures |vs| != 1 ==> IsSubsequence(r, vs) && forall v :: v in r <==> v in vs && v.id != id
    ensures !HasId(vs, id) ==> r == vs
  {
    if |vs| == 1 then vs else WithoutId(vs, id)
  }

  /** `updateVariantPrompt`: the rows with that id get the new prompt;
      every other field and row is kept, in place. */
  function UpdateVariantPrompt(vs: seq<Variant>, id: string, prompt: string): (r: seq<Variant>)
    ensures |r| == |vs|
    ensures forall i :: 0 <= i < |vs| ==> r[i].id == vs[i].id
    ensures forall i :: 0 <= i < |vs| && vs[i].id != id ==> r[i] == vs[i]
    ensures forall i :: 0 <= i < |vs| && vs[i].id == id ==> r[i].prompt == prompt
  {
    seq(|vs|, i requires 0 <= i < |vs| => if vs[i].id == id then vs[i].(prompt := prompt) else vs[i])
  }

  /** The initial list is within the limits. */
  lemma InitialWithinLimits()
    ensures WithinLimits(InitialVariants) && PromptsFitInput(InitialVariants)
    ensures !HasContent(InitialVariants[0].prompt)
  {
  }

  /** Adding a row with a fresh id keeps the list within the limits: it
      never grows past six. */
  lemma AddKeepsLimits(vs: seq<Variant>, newId: string)
    requires WithinLimits(vs) && !HasId(vs, newId)
    ensures WithinLimits(AddVariant(vs, newId).variants)
    ensures PromptsFitInput(vs) ==> PromptsFitInput(AddVariant(vs, newId).variants)
  {
  }

  /** The tail of a list with distinct ids has distinct ids, none of them
      the head's. */
  lemma DistinctTail(vs: seq<Variant>)
    requires DistinctIds(vs) && vs != []
    ensures DistinctIds(vs[1..])
    ensures forall v :: v in vs[1..] ==> v.id != vs[0].id
  {
    var tail := vs[1..];
    forall i, j | 0 <= i < j < |tail|
      ensures tail[i].id != tail[j].id
    {
      assert tail[i] == vs[i + 1] && tail[j] == vs[j + 1];
    }
    forall v | v in tail
      ensures v.id != vs[0].id
    {
      var k :| 0 <= k < |tail| && tail[k] == v;
      assert vs[k + 1] == v;
    }
  }

  /** A row whose id no row of a distinct list has can be put in front. */
  lemma DistinctCons(v: Variant, rest: seq<Variant>)
    requires DistinctIds(rest)
    requires forall w :: w in rest ==> w.id != v.id
    ensures DistinctIds([v] + rest)
  {
    var r := [v] + rest;
    forall i, j | 0 <= i < j < |r|
      ensures r[i].id != r[j].id
    {
      assert r[j] == rest[j - 1];
      if i > 0 {
        assert r[i] == rest[i - 1];
      }
    }
  }

  /** Removing by id from a list with distinct ids drops at most one row. */
  lemma {:induction false} WithoutIdDropsAtMostOne(vs: seq<Variant>, id: string)
    requires DistinctIds(vs)
    ensures |WithoutId(vs, id)| + 1 >= |vs|
    ensures HasId(vs, id) ==> |WithoutId(vs, id)| + 1 == |vs|
    ensures DistinctIds(WithoutId(vs, id))
  {
    if vs != [] {
      var tail := vs[1..];
      DistinctTail(vs);
      WithoutIdDropsAtMostOne(tail, id);
      var rest := WithoutId(tail, id);
      if vs[0].id == id {
        assert !HasId(tail, id);
        assert WithoutId(vs, id) == rest == tail;
      } else {
        assert HasId(vs, id) ==> HasId(tail, id) by {
          if HasId(vs, id) {
            var i :| 0 <= i < |vs| && vs[i].id == id;
            assert i > 0 && tail[i - 1].id == id;
          }
        }
        assert WithoutId(vs, id) == [vs[0]] + rest;
        DistinctCons(vs[0], rest);
      }
    }
  }

  /** Removing a row keeps the list within the limits: it never drops
      below one row. */
  lemma RemoveKeepsLimits(vs: seq<Variant>, id: string)
    requires WithinLimits(vs)
    ensures WithinLimits(RemoveVariant(vs, id))
    ensures PromptsFitInput(vs) ==> PromptsFitInput(RemoveVariant(vs, id))
  {
    if |vs| != 1 {
      WithoutIdDropsAtMostOne(vs, id);
      var r := RemoveVariant(vs, id);
      forall i | 0 <= i < |r|
        ensures r[i] in vs
      {
        assert r[i] in r;
      }
    }
  }

  /** Editing a prompt keeps the list within the limits; a prompt typed
      into the input keeps every prompt within the input's length. */
  lemma UpdateKeepsLimits(vs: seq<Variant>, id: string, prompt: string)
    requires WithinLimits(vs)
    ensures WithinLimits(UpdateVariantPrompt(vs, id, prompt))
    ensures PromptsFitInput(vs) && |prompt| <= PromptInputMaxLength ==>
              PromptsFitInput(UpdateVariantPrompt(vs, id, prompt))
  {
  }

  /** Two edits of the same row: the second one wins. */
  lemma UpdateLastWins(vs: seq<Variant>, id: string, p: string, q: string)
    ensures UpdateVariantPrompt(UpdateVariantPrompt(vs, id, p), id, q) == UpdateVariantPrompt(vs, id, q)
  {
  }

  /** The prompts of the rows, in order. */
  function Prompts(vs: seq<Variant>): (r: seq<string>)
    ensures |r| == |vs| && forall i :: 0 <= i < |vs| ==> r[i] == vs[i].prompt
  {
    seq(|vs|, i requires 0 <= i < |vs| => vs[i].prompt)
  }

  /** `variants.filter(v => v.prompt.trim() !== '').map(v => v.prompt)`:
      the prompts with content, untrimmed and in list order; two rows with
      the same prompt give two entries. */
  function ValidPrompts(vs: seq<Variant>): (r: seq<string>)
    ensures IsSubsequence(r, Prompts(vs))
    ensures forall i :: 0 <= i < |r| ==> HasContent(r[i])
    ensures forall i :: 0 <= i < |vs| && HasContent(vs[i].prompt) ==> vs[i].prompt in r
    ensures r == [] <==> forall i :: 0 <= i < |vs| ==> !HasContent(vs[i].prompt)
    ensures forall x :: multiset(r)[x] == if HasContent(x) then multiset(Prompts(vs))[x] else 0
  {
    var r := Filter(Prompts(vs), HasContent);
    FilterCounts(Prompts(vs), HasContent);
    assert forall i :: 0 <= i < |vs| ==> Prompts(vs)[i] == vs[i].prompt;
    r
  }

  /** Kept prompts are as long as the input allows. */
  lemma ValidPromptsFitInput(vs: seq<Variant>)
    requires PromptsFitInput(vs)
    ensures forall i :: 0 <= i < |ValidPrompts(vs)| ==> |ValidPrompts(vs)[i]| <= PromptInputMaxLength
  {
    var r := ValidPrompts(vs);
    var ps := Prompts(vs);
    SubsequenceMembers(r, ps);
    forall i | 0 <= i < |r|
      ensures |r[i]| <= PromptInputMaxLength
    {
      assert r[i] in ps;
      var k :| 0 <= k < |ps| && ps[k] == r[i];
      assert r[i] == vs[k].prompt;
    }
  }

  /** `input?.value ?? null` followed by `if (!apiKey)`: a key is present
      when the input exists and is not empty. */
  predicate KeyPresent(apiKey: Option<string>) {
    apiKey.Some? && apiKey.value != ""
  }

  /** What the pre-request checks of a variant generation decide. */
  datatype VariantsCheck =
    | MissingKey   // 'API Key Required'
    | NoPrompts    // 'No prompts provided'
    | Proceed(prompts: seq<string>)

  /** The checks at the start of the variant generation handlers: the key
      first, then at least one prompt with content; the request then carries
      exactly the prompts with content, in list order. */
  function CheckVariantsRequest(apiKey: Option<string>, vs: seq<Variant>): (r: VariantsCheck)
    ensures r.MissingKey? <==> !KeyPresent(apiKey)
    ensures r.NoPrompts? <==> KeyPresent(apiKey) && forall i :: 0 <= i < |vs| ==> !HasContent(vs[i].prompt)
    ensures r.Proceed? ==> |r.prompts| >= 1 && IsSubsequence(r.prompts, Prompts(vs))
    ensures r.Proceed? ==> forall i :: 0 <= i < |r.prompts| ==> HasContent(r.prompts[i])
    ensures r.Proceed? ==> r.prompts == ValidPrompts(vs)
  {
    if !KeyPresent(apiKey) then MissingKey
    else
      var valid := ValidPrompts(vs);
      if |valid| == 0 then NoPrompts else Proceed(valid)
  }
}

=== FILE: variantsroute.dfy ===
/** `POST /api/generate-variants`: schema validation, the server key, the
    data-URI prefix and one image-edit call per variant, all or nothing
    (app/api/generate-variants/route.ts). */
module VariantsRoute {
  import opened Wrappers
  import opened JsStrings
  import opened JsValues
  import opened Http

  const InvalidInputError: string := "Invalid input"
  const NoServerKeyError: string := "FAL API key is not configured on the server"
  const DefaultError: string := "Failed to generate variants"

  /** The schema's bounds. */
  const SchemaMaxVariants: nat := 6
  const SchemaMaxPromptLength: nat := 500

  const DataScheme: string := "data:"
  const PngDataUriPrefix: string := "data:image/png;base64,"
  const TemplateHead: string := "Transform this character: "
  const TemplateTail: string := ", high-quality character art, clean lines"

  /** `VariantSchema`: an object whose `prompt` is a string of 1 to 500
      characters. */
  predicate ValidVariantItem(v: JsValue) {
    && v.Obj? && "prompt" in v.fields && v.fields["prompt"].Str?
    && 1 <= |v.fields["prompt"].s| <= SchemaMaxPromptLength
  }

  /** `GenerateVariantsSchema`: an object with a non-empty string
      `imageBase64` and an array `variants` of one to six valid items. */
  predicate ValidBody(body: JsValue) {
    && body.Obj?
    && "imageBase64" in body.fields && body.fields["imageBase64"].Str? && |body.fields["imageBase64"].s| >= 1
    && "variants" in body.fields && body.fields["variants"].Arr?
    && 1 <= |body.fields["variants"].items| <= SchemaMaxVariants
    && forall i :: 0 <= i < |body.fields["variants"].items| ==> ValidVariantItem(body.fields["variants"].items[i])
  }

  /** The parsed data of a valid body. */
  datatype ValidRequest = ValidRequest(imageBase64: string, prompts: seq<string>)

  /** `GenerateVariantsSchema.safeParse(body)`: the image and the prompts,
      in order, of a body that satisfies the schema. */
  function Validate(body: JsValue): (r: Option<ValidRequest>)
    ensures r.Some? <==> ValidBody(body)
    ensures r.Some? ==> |r.value.imageBase64| >= 1 && 1 <= |r.value.prompts| <= SchemaMaxVariants
    ensures r.Some? ==> forall i :: 0 <= i < |r.value.prompts| ==> 1 <= |r.value.prompts[i]| <= SchemaMaxPromptLength
    ensures r.Some? ==> r.value.imageBase64 == body.fields["imageBase64"].s
    ensures r.Some? ==> |r.value.prompts| == |body.fields["variants"].items|
    ensures r.Some? ==> forall i :: 0 <= i < |r.value.prompts| ==>
              r.value.prompts[i] == body.fields["variants"].items[i].fields["prompt"].s
  {
    if ValidBody(body) then
      var items := body.fields["variants"].items;
      Some(ValidRequest(body.fields["imageBase64"].s,
                        seq(|items|, i requires 0 <= i < |items| && ValidVariantItem(items[i]) => items[i].fields["prompt"].s)))
    else None
  }

  /** `imageBase64.startsWith('data:') ? imageBase64 : 'data:image/png;base64,' + imageBase64`. */
  function ToDataUri(s: string): (r: string)
    ensures StartsWith(r, DataScheme)
    ensures StartsWith(s, DataScheme) ==> r == s
    ensures !StartsWith(s, DataScheme) ==> r == PngDataUriPrefix + s
  {
    if StartsWith(s, DataScheme) then s else PngDataUriPrefix + s
  }

  /** Prefixing twice is prefixing once. */
  lemma ToDataUriIdempotent(s: string)
    ensures ToDataUri(ToDataUri(s)) == ToDataUri(s)
  {
  }

  /** The prompt sent for one variant. */
  function VariantPrompt(p: string): (r: string)
    ensures |r| == |TemplateHead| + |p| + |TemplateTail|
    ensures StartsWith(r, TemplateHead)
    ensures r[|TemplateHead|..|TemplateHead| + |p|] == p
    ensures r[|TemplateHead| + |p|..] == TemplateTail
  {
    TemplateHead + p + TemplateTail
  }

  /** The template can be read back: the user's prompt is recovered from
      the sent prompt. */
  lemma VariantPromptInjective(p: string, q: string)
    requires VariantPrompt(p) == VariantPrompt(q)
    ensures p == q
  {
    assert |p| == |q|;
    assert p == VariantPrompt(p)[|TemplateHead|..|TemplateHead| + |p|];
  }

  /** The part of one image-edit call that depends on the request. */
  datatype EditInput = EditInput(prompt: string, imageUrls: seq<string>)

  /** One generated variant: the returned URL and the variant's prompt. */
  datatype Generated = Generated(imageUrl: JsValue, prompt: string)

  /** `result.data?.images?.[0]?.url` after the plain `result.data`. */
  const ImageUrlTail: seq<PathStep> := [Key("images"), Index(0), Key("url")]

  /** The message thrown for a variant whose result has no URL. */
  function NoUrlError(i: nat, serialized: string): string {
    "No image URL in variant " + NatToString(i + 1) + " response: " + serialized
  }

  /** The `i`th call and its check. `edit(i, input)` stands for the `i`th
      model call (it yields the result or the message it threw);
      `stringify` for `JSON.stringify`. */
  function Attempt(
    prompts: seq<string>, dataUri: string, i: nat,
    edit: (nat, EditInput) -> Result<JsValue>, stringify: JsValue -> string): (r: Result<Generated>)
    requires i < |prompts|
    ensures r.Success? ==> r.value.prompt == prompts[i] && Truthy(r.value.imageUrl)
    ensures edit(i, EditInput(VariantPrompt(prompts[i]), [dataUri])).Failure? ==>
              r == edit(i, EditInput(VariantPrompt(prompts[i]), [dataUri])).PropagateFailure()
  {
    match edit(i, EditInput(VariantPrompt(prompts[i]), [dataUri]))
    case Failure(e) => Failure(e)
    case Success(result) =>
      match Property(result, "data")
      case Failure(e) => Failure(e)
      case Success(data) =>
        var url := OptionalPath(data, ImageUrlTail);
        if !Truthy(url) then Failure(NoUrlError(i, stringify(result)))
        else Success(Generated(url, prompts[i]))
  }

  /** The loop over the variants, in order: the first failing call ends
      it with that call's message and no list; otherwise there is one
      entry per prompt, in order, carrying that prompt. */
  method GenerateAll(
    prompts: seq<string>, dataUri: string,
    edit: (nat, EditInput) -> Result<JsValue>, stringify: JsValue -> string) returns (r: Result<seq<Generated>>)
    ensures r.Success? <==> forall i :: 0 <= i < |prompts| ==> Attempt(prompts, dataUri, i, edit, stringify).Success?
    ensures r.Success? ==> |r.value| == |prompts|
    ensures r.Success? ==> forall i :: 0 <= i < |prompts| ==>
              r.value[i] == Attempt(prompts, dataUri, i, edit, stringify).value && r.value[i].prompt == prompts[i]
    ensures r.Failure? ==> exists k :: 0 <= k < |prompts| && FirstFailure(prompts, dataUri, k, edit, stringify)
                                       && r.error == Attempt(prompts, dataUri, k, edit, stringify).error
  {
    var done: seq<Generated> := [];
    var i := 0;
    while i < |prompts|
      invariant 0 <= i <= |prompts|
      invariant |done| == i
      invariant forall j :: 0 <= j < i ==> Attempt(prompts, dataUri, j, edit, stringify).Success?
      invariant forall j :: 0 <= j < i ==> done[j] == Attempt(prompts, dataUri, j, edit, stringify).value
    {
      var attempt := Attempt(prompts, dataUri, i, edit, stringify);
      if attempt.Failure? {
        assert FirstFailure(prompts, dataUri, i, edit, stringify);
        return Failure(attempt.error);
      }
      done := done + [attempt.value];
      i := i + 1;
    }
    return Success(done);
  }

  /** Call `k` is the first that fails. */
  predicate FirstFailure(
    prompts: seq<string>, dataUri: string, k: nat,
    edit: (nat, EditInput) -> Result<JsValue>, stringify: JsValue -> string)
    requires k < |prompts|
  {
    && Attempt(prompts, dataUri, k, edit, stringify).Failure?
    && forall j :: 0 <= j < k ==> Attempt(prompts, dataUri, j, edit, stringify).Success?
  }

  /** The reply body of a successful request. */
  function VariantsBody(done: seq<Generated>): JsValue {
    Arr(seq(|done|, i requires 0 <= i < |done| =>
      Obj(map["imageUrl" := done[i].imageUrl, "prompt" := Str(done[i].prompt)])))
  }

  /** The handler. `serverKey` is `FAL_API_KEY` from the environment.
      Validation comes first, then the server key; the client's `apiKey`
      field is ignored. The reply is all or nothing. */
  method HandlePost(
    body: Result<JsValue>, serverKey: Option<string>,
    edit: (nat, EditInput) -> Result<JsValue>, stringify: JsValue -> string) returns (r: Reply)
    ensures body.Failure? ==> IsError(r, 500, OrElse(body.error, DefaultError))
    ensures body.Success? && !ValidBody(body.value) ==> IsError(r, 400, InvalidInputError)
    ensures body.Success? && ValidBody(body.value) && (serverKey.None? || serverKey.value == "") ==>
              IsError(r, 500, NoServerKeyError)
    ensures r.status == 200 <==>
              && body.Success? && ValidBody(body.value) && serverKey.Some? && serverKey.value != ""
              && var req := Validate(body.value).value;
                 forall i :: 0 <= i < |req.prompts| ==>
                   Attempt(req.prompts, ToDataUri(req.imageBase64), i, edit, stringify).Success?
    ensures r.status == 200 ==>
              var req := Validate(body.value).value;
              && r.body.Obj? && "variants" in r.body.fields && r.body.fields["variants"].Arr?
              && |r.body.fields["variants"].items| == |req.prompts|
              && r.body.fields["variants"] == VariantsBody(
                   seq(|req.prompts|, i requires 0 <= i < |req.prompts| =>
                     Attempt(req.prompts, ToDataUri(req.imageBase64), i, edit, stringify).value))
    ensures r.status != 200 ==> r.body.Obj? && "variants" !in r.body.fields
    ensures r.status in {200, 400, 500}
  {
    if body.Failure? {
      return ErrorReply(500, OrElse(body.error, DefaultError));
    }
    var parsed := Validate(body.value);
    if parsed.None? {
      return ErrorReply(400, InvalidInputError);
    }
    if serverKey.None? || serverKey.value == "" {
      return ErrorReply(500, NoServerKeyError);
    }
    var req := parsed.value;
    var dataUri := ToDataUri(req.imageBase64);
    var generated := GenerateAll(req.prompts, dataUri, edit, stringify);
    if generated.Failure? {
      return ErrorReply(500, OrElse(generated.error, DefaultError));
    }
    assert generated.value == seq(|req.prompts|, i requires 0 <= i < |req.prompts| =>
                                    Attempt(req.prompts, dataUri, i, edit, stringify).value);
    return SuccessReply("variants", VariantsBody(generated.value));
  }
}

=== FILE: variantstool.dfy ===
/** Variant generation from a selected image, as the image-variants panel
    and the single-image panel both do it (their handlers are the same):
    the key and prompt checks, the extraction of the image, the request
    with the non-blank prompts, the reply check and the column of variants
    below the image (app/components/tools/ImageVariantsTool.tsx,
    app/components/tools/SingleImageTool.tsx). */
module VariantsTool {
  import opened Wrappers
  import opened JsStrings
  import opened JsValues
  import opened Geometry
  import opened Canvas
  import opened Placeholder
  import opened PlaceImage
  import opened ClientFlow
  import opened VariantList
  import opened Sequences
  import ExtractImage
  import PlaceVariants
  import VariantsRoute

  const KeyRequiredTitle: string := "API Key Required"
  const KeyRequiredDescription: string := "Please enter your fal.ai API key"
  const NoPromptsTitle: string := "No prompts provided"
  const NoPromptsDescription: string := "Please enter at least one variant prompt"
  const GenerationFailedTitle: string := "Generation failed"
  const VariantsGeneratedTitle: string := "Variants generated!"

  /** The message of the `TypeError` thrown by `.map` on a value that is
      neither an array nor `null`/`undefined`. */
  const NotAnArrayError: string := "result.variants.map is not a function"

  /** The success toast's text: the number of prompts sent, whatever
      number of variants was placed. */
  function CreatedDescription(count: nat): string {
    "Successfully created " + NatToString(count) + " variant(s)"
  }

  /** `{ imageBase64, variants: prompts.map(prompt => ({ prompt })), apiKey }`. */
  function VariantsRequestBody(image: string, prompts: seq<string>, apiKey: string): (r: JsValue)
    ensures r.Obj? && "variants" in r.fields && r.fields["variants"].Arr?
    ensures |r.fields["variants"].items| == |prompts|
    ensures forall i :: 0 <= i < |prompts| ==> r.fields["variants"].items[i] == Obj(map["prompt" := Str(prompts[i])])
    ensures "imageBase64" in r.fields && r.fields["imageBase64"] == Str(image)
    ensures "apiKey" in r.fields && r.fields["apiKey"] == Str(apiKey)
  {
    Obj(map[
      "imageBase64" := Str(image),
      "variants" := Arr(seq(|prompts|, i requires 0 <= i < |prompts| => Obj(map["prompt" := Str(prompts[i])]))),
      "apiKey" := Str(apiKey)])
  }

  /** A variant entry `imageUrl` can be read from. */
  predicate Readable(v: JsValue) {
    !v.Null? && !v.Undefined?
  }

  /** `result.variants.map((v) => v.imageUrl)`: throws when `variants` is
      not an array or one of its entries is `null`/`undefined`; otherwise
      one value per entry, in order. */
  function VariantUrls(result: JsValue): (r: Result<seq<JsValue>>)
    requires !result.Null? && !result.Undefined?
    ensures r.Success? <==>
              var vs := Property(result, "variants").value;
              vs.Arr? && forall i :: 0 <= i < |vs.items| ==> Readable(vs.items[i])
    ensures r.Success? ==>
              var vs := Property(result, "variants").value;
              |r.value| == |vs.items|
              && forall i :: 0 <= i < |vs.items| ==> r.value[i] == Property(vs.items[i], "imageUrl").value
  {
    var vs := Property(result, "variants").value;
    if vs.Null? || vs.Undefined? then Failure(NullPropertyError)
    else if !vs.Arr? then Failure(NotAnArrayError)
    else if exists i :: 0 <= i < |vs.items| && !Readable(vs.items[i]) then Failure(NullPropertyError)
    else Success(seq(|vs.items|, i requires 0 <= i < |vs.items| && Readable(vs.items[i]) =>
                   Property(vs.items[i], "imageUrl").value))
  }

  /** Where the handler stands before placing anything: it stopped with a
      toast, or it has the variants' URLs (as `fetch` reads them) and the
      number of prompts it sent. */
  datatype Stage = Stop(toast: Toast) | Place(urls: seq<string>, count: nat)

  /** The reply's part of the handler: a thrown request, a failed reply
      or an unreadable variant list stops it; otherwise the URLs are those
      of the reply's variants, in order. */
  function ReplyStage(call: Result<JsValue>, count: nat): (r: Stage)
    ensures call.Failure? ==> r == Stop(ErrorToast(call.error))
    ensures r.Place? <==> call.Success? && ResponseFailed(call.value) == Success(false) && VariantUrls(call.value).Success?
    ensures r.Place? ==>
              && r.count == count
              && |r.urls| == |VariantUrls(call.value).value|
              && forall i :: 0 <= i < |r.urls| ==> r.urls[i] == ToJsString(VariantUrls(call.value).value[i])
    ensures call.Success? && ResponseFailed(call.value) == Success(true) ==>
              r == Stop(Toast(GenerationFailedTitle, Some(FailureDescription(call.value))))
    ensures r.Stop? ==> r.toast.title != VariantsGeneratedTitle
  {
    match call
    case Failure(e) => Stop(ErrorToast(e))
    case Success(result) =>
      match ResponseFailed(result)
      case Failure(e) => Stop(ErrorToast(e))
      case Success(failed) =>
        if failed then Stop(Toast(GenerationFailedTitle, Some(FailureDescription(result))))
        else
          match VariantUrls(result)
          case Failure(e) => Stop(ErrorToast(e))
          case Success(values) =>
            Place(seq(|values|, i requires 0 <= i < |values| => ToJsString(values[i])), count)
  }

  /** The steps of the handler up to the placement: the key, then a
      non-blank prompt, then the extraction (`exportShape` and `fetch` feed
      it), then the request carrying exactly the non-blank prompts in list
      order and the key. `api` stands for posting the body to the route and
      parsing its reply (or the message either threw). */
  function RequestStage(
    apiKey: Option<string>, vs: seq<Variant>, assetId: Option<AssetId>, assets: map<AssetId, Asset>,
    exportShape: Option<string>, fetch: string -> ExtractImage.FetchResponse,
    api: JsValue -> Result<JsValue>): (r: Stage)
    ensures CheckVariantsRequest(apiKey, vs).MissingKey? ==> r == Stop(Toast(KeyRequiredTitle, Some(KeyRequiredDescription)))
    ensures CheckVariantsRequest(apiKey, vs).NoPrompts? ==> r == Stop(Toast(NoPromptsTitle, Some(NoPromptsDescription)))
    ensures CheckVariantsRequest(apiKey, vs).Proceed? ==>
              var extracted := ExtractImage.ExtractImageFromShape(assetId, assets, exportShape, fetch);
              && (extracted.Failure? ==> r == Stop(ErrorToast(extracted.error)))
              && (extracted.Success? ==>
                    r == ReplyStage(api(VariantsRequestBody(extracted.value, ValidPrompts(vs), apiKey.value)),
                                    |ValidPrompts(vs)|))
    ensures r.Place? ==> KeyPresent(apiKey) && r.count == |ValidPrompts(vs)| && r.count >= 1
    ensures r.Stop? ==> r.toast.title != VariantsGeneratedTitle
  {
    match CheckVariantsRequest(apiKey, vs)
    case MissingKey => Stop(Toast(KeyRequiredTitle, Some(KeyRequiredDescription)))
    case NoPrompts => Stop(Toast(NoPromptsTitle, Some(NoPromptsDescription)))
    case Proceed(prompts) =>
      match ExtractImage.ExtractImageFromShape(assetId, assets, exportShape, fetch)
      case Failure(e) => Stop(ErrorToast(e))
      case Success(image) => ReplyStage(api(VariantsRequestBody(image, prompts, apiKey.value)), |prompts|)
  }

  /** The canvas after the handler and the toast it ends with. */
  datatype Outcome = Outcome(st: State, toast: Toast)

  /** The ids of the first `n` variants, as the id oracle draws them. */
  function DrawnIds(freshIds: nat -> PlaceIds, n: nat): (r: seq<PlaceIds>)
    ensures |r| == n && forall i :: 0 <= i < n ==> r[i] == freshIds(i)
  {
    seq(n, i requires 0 <= i < n => freshIds(i))
  }

  /** `handleGenerate` for variants. A stop before the placement leaves
      the canvas as it was; otherwise the variants are placed below the
      selected image with no prompts and no placeholders, and the toast
      reports the number of prompts sent. `image` is the selected image
      shape; `freshIds(i)` the ids drawn for the `i`th variant. The run is
      taken to be undisturbed: the placement sees the canvas as it was
      before the request. */
  method HandleGenerate(
    st: State, apiKey: Option<string>, vs: seq<Variant>, image: Shape,
    exportShape: Option<string>, fetch: string -> ExtractImage.FetchResponse,
    api: JsValue -> Result<JsValue>, freshIds: nat -> PlaceIds, load: string -> Option<LoadedMedia>) returns (r: Outcome)
    requires forall i :: Unused(st, freshIds(i).shape)
    requires forall i, j :: i != j ==> freshIds(i).shape != freshIds(j).shape && freshIds(i).asset != freshIds(j).asset
    ensures var stage := RequestStage(apiKey, vs, image.assetId, st.ed.assets, exportShape, fetch, api);
            stage.Stop? ==> r == Outcome(st, stage.toast)
    ensures var stage := RequestStage(apiKey, vs, image.assetId, st.ed.assets, exportShape, fetch, api);
            r.toast.title == VariantsGeneratedTitle <==> stage.Place? && (stage.urls == [] || image.id in st.ed.shapes)
    ensures var stage := RequestStage(apiKey, vs, image.assetId, st.ed.assets, exportShape, fetch, api);
            r.toast.title == VariantsGeneratedTitle ==>
              r.toast.description == Some(CreatedDescription(|ValidPrompts(vs)|))
    ensures var stage := RequestStage(apiKey, vs, image.assetId, st.ed.assets, exportShape, fetch, api);
            stage.Place? && stage.urls != [] && image.id in st.ed.shapes ==>
              var b := GetShapePageBounds(st.ed, image.id).value;
              forall j :: 0 <= j < |stage.urls| && load(stage.urls[j]).Some? ==>
                freshIds(j).shape in r.st.ed.shapes
                && r.st.ed.shapes[freshIds(j).shape]
                   == PlaceVariants.ColumnShape(b, stage.urls, [], [], DrawnIds(freshIds, |stage.urls|), load, j)
    ensures forall k :: k in r.st.ed.shapes && k in st.ed.shapes ==> r.st.ed.shapes[k] == st.ed.shapes[k]
    ensures RegistryWithin(r.st.reg, st.reg)
    ensures RegistryInvariant(st.reg) ==> RegistryInvariant(r.st.reg)
    ensures WellFormed(st.ed) ==> WellFormed(r.st.ed)
  {
    var stage := RequestStage(apiKey, vs, image.assetId, st.ed.assets, exportShape, fetch, api);
    if stage.Stop? {
      return Outcome(st, stage.toast);
    }
    var ids := DrawnIds(freshIds, |stage.urls|);
    assert PlaceVariants.FreshVariantIds(st, ids, []);
    var placed := PlaceVariants.PlaceVariantsOnCanvas(st, stage.urls, image.id, [], [], ids, load);
    if placed.result.Failure? {
      return Outcome(placed.st, ErrorToast(placed.result.error));
    }
    forall j | 0 <= j < |stage.urls| && load(stage.urls[j]).Some?
      ensures PlaceVariants.InColumn(stage.urls, [], load, j)
    {
    }
    return Outcome(placed.st, Toast(VariantsGeneratedTitle, Some(CreatedDescription(stage.count))));
  }

  /** A body carrying at most six non-empty prompts of at most 100
      characters passes the route's schema exactly when it carries some
      prompt, and the route then reads back the same image and prompts. */
  lemma BodyPassesSchema(image: string, prompts: seq<string>, apiKey: string)
    requires |image| >= 1 && |prompts| <= MaxVariants
    requires forall i :: 0 <= i < |prompts| ==> prompts[i] != "" && |prompts[i]| <= PromptInputMaxLength
    ensures VariantsRoute.ValidBody(VariantsRequestBody(image, prompts, apiKey)) <==> prompts != []
    ensures prompts != [] ==>
              VariantsRoute.Validate(VariantsRequestBody(image, prompts, apiKey))
              == Some(VariantsRoute.ValidRequest(image, prompts))
  {
    var body := VariantsRequestBody(image, prompts, apiKey);
    forall i | 0 <= i < |prompts|
      ensures VariantsRoute.ValidVariantItem(body.fields["variants"].items[i])
    {
      assert prompts[i] != "";
    }
    if prompts != [] {
      var parsed := VariantsRoute.Validate(body).value;
      assert parsed.prompts == prompts;
    }
  }

  /** A request built from a reachable variant list is one the route
      accepts: its body passes the route's schema, and the route reads
      back the same image and exactly the prompts sent, in order. */
  lemma RequestPassesSchema(image: string, vs: seq<Variant>, apiKey: string)
    requires WithinLimits(vs) && PromptsFitInput(vs)
    requires |image| >= 1
    ensures VariantsRoute.ValidBody(VariantsRequestBody(image, ValidPrompts(vs), apiKey)) <==> ValidPrompts(vs) != []
    ensures ValidPrompts(vs) != [] ==>
              VariantsRoute.Validate(VariantsRequestBody(image, ValidPrompts(vs), apiKey))
              == Some(VariantsRoute.ValidRequest(image, ValidPrompts(vs)))
  {
    var prompts := ValidPrompts(vs);
    SubsequenceLength(prompts, Prompts(vs));
    ValidPromptsFitInput(vs);
    forall i | 0 <= i < |prompts|
      ensures prompts[i] != ""
    {
      assert HasContent(prompts[i]);
    }
    BodyPassesSchema(image, prompts, apiKey);
  }
}

=== FILE: wrappers.dfy ===
/** Optional values and success-or-error results, the shapes in which the
    model represents JavaScript's `undefined` and thrown errors. */
module Wrappers {

  /** A value that may be absent (`undefined` / `null` in the source). */
  datatype Option<+T> = None | Some(value: T) {

    /** The value, or `default` when absent. */
    function GetOr(default: T): T {
      match this
      case Some(v) => v
      case None => default
    }
  }

  /** The outcome of an operation that may throw: its value or the error
      message the thrown `Error` carries. */
  datatype Result<+T> = Success(value: T) | Failure(error: string) {

    predicate IsFailure() {
      Failure?
    }

    function PropagateFailure<U>(): Result<U>
      requires Failure?
    {
      Failure(error)
    }

    function Extract(): T
      requires Success?
    {
      value
    }
  }
}
